=== FILE: README.md ===
# ML results dashboard: result normalization and selection, in Dafny

This project models the logic behind the results view of a React dashboard for machine-learning
runs. On that page a user picks a dataset, a train/test split and a model. The page then shows
a normalized-RMSE table, a dataset preview and a few analytics plots. The summary endpoint
answers in many shapes: JSON or CSV text, an object or an array, rows under one of several
alias keys, or rows buried somewhere in a nested payload. The page has to recover one list of
result rows from whatever arrives.

The model covers:

- **Json**: JavaScript values as `JSON.parse` leaves them, held in a heap of nodes. An id is
  an index into the heap, so shared and cyclic payloads can be expressed. Truthiness, `??`,
  property access, `String(v ?? "").trim()` and `Number(v)` on integers are defined here.
- **DeepScan**: `collectNormalizedRowsDeep`. This is a stack-based walk with a visited set
  and a budget of 200000 pops. A non-empty array of rows is taken whole, and so is an
  object's `data` property when it is one.
- **DeepScanFound**: completeness of that walk. A payload with a single row array, reached
  along a path and referred to from one place, yields exactly that array's rows when the
  heap fits the budget.
- **ResultService**: `showResultService.js`. It covers the CSV row filter, `deriveSplits`,
  the try-JSON / try-CSV / try-`fetch` decision tree of `fetchAutoParsedRmse` and the query
  string of `fetchSeriesBundle`. The transports and the two parsers (`JSON.parse`, Papa
  Parse) are inputs, so only the decisions are verified.
- **ResultPage**: `ShowResultPage.jsx`.
  - The alias-key chain with its deep-scan fallback and the dataset filter.
  - The split and model selectors with their sticky selection.
  - The `dataset|split|model` series-bundle cache.
  - The table's split filter.

  Each React effect is a pure function from what it reads to the state it sets.
- **ResultsTable**: `DatasetModelTable.jsx`. It covers the search over four columns, the
  column sort (a stable sort whose comparator is numeric when both cells are numbers), the
  pagination and the window of page buttons.
- **CsvPreview**: `DatasetCsvViewer.jsx`. It covers offset paging, the defaults for missing
  fields, and the reset on a change of dataset.
- **RunAll**: `RunAllPage.jsx`. It covers:
  - dataset and model toggles;
  - per-category and global Select All;
  - the header checkbox;
  - train/test pairs with `parseInt`;
  - the validation before a run is posted.
- **SplitLabel**: the `split_(\d+)[-_](\d+)` reading of `SplitDiagram.jsx` and the option
  label of `SplitSelector.jsx`.
- **Plots**: the length alignment, stride sampling and window indexing of the scatter, the
  rolling-RMSE and the residual plots.

`Text`, `Seqs`, `Arith` and `Wrappers` hold shared helpers: `trim`, `toLowerCase`,
`indexOf`/`replace`, decimal text, `filter`, `[...new Set(xs)]` and `Option`.

Numbers are integers throughout. Wherever the page calls `rmse`, `localeCompare` or one of
the parsers, the model takes a function parameter in its place.

## Model

| member | source | states |
|---|---|---|
| Text.Trim | src/pages/ShowResultPage.jsx:56 | The trimmed text is the part of the input between its leading and trailing white space. It neither starts nor ends with white space, and text that is already trimmed is returned unchanged. |
| Text.TrimIdempotent | src/pages/ShowResultPage.jsx:56-57 | Trimming twice gives what trimming once gives, so `s` applied to an already normalized value does not change it. |
| Text.ToLower | src/pages/ShowResultPage.jsx:57 | Lower-casing keeps the length and folds each character independently. |
| Text.ToLowerIdempotent | src/pages/ShowResultPage.jsx:57 | Lower-casing twice gives what lower-casing once gives, which is why `eq` compares lower-cased texts. |
| Text.ReplaceFirst | src/components/results/SplitSelector.jsx:20 | `replace` with a string pattern changes only the first occurrence: the text before it, the replacement, then the rest after it. Text without the pattern is unchanged. |
| Seqs.Dedup | src/pages/ShowResultPage.jsx:64 | `uniq` returns each value of the input exactly once, in the order of first appearance, as a subsequence of the input. |
| Seqs.FilterDedupCommute | src/pages/ShowResultPage.jsx:269 | Dropping empty strings before or after de-duplicating gives the same list, so `uniq(...).filter(Boolean)` is the distinct non-empty values in first-seen order. |
| Seqs.Filter | src/services/showResultService.js:39 | `filter` keeps exactly the elements that satisfy the test, in order, and each of them as many times as it occurs in the input. It keeps everything exactly when every element passes. |
| Seqs.RemoveAll | src/pages/RunAllPage.jsx:135 | Removing a value drops every occurrence of it and keeps every other value in order, as many times as it occurred. |
| Seqs.RemoveAllAppended | src/pages/RunAllPage.jsx:133-137 | Removing a value just appended to a list that lacked it gives back the list. |
| Json.ToNumber | src/components/results/DatasetModelTable.jsx:66-69 | `Number(null)` is 0, while `Number(undefined)` and a plain object are not finite numbers. |
| Json.SetProp | src/services/showResultService.js:74-77 | Assigning a property sets that property on that node only. Every other property and node is left as it was. |
| DeepScan.StepFacts | src/pages/ShowResultPage.jsx:81-107 | Each pop costs one step, only appends to the rows found, and keeps the walk's invariant. The invariant is that only rows are collected, no node is expanded twice, and the budget is respected. |
| DeepScan.Run | src/pages/ShowResultPage.jsx:81-108 | The loop ends with an empty stack or a spent budget of 200000 pops, keeps the invariant, and only ever appends rows. |
| DeepScan.CollectRowsDeep | src/pages/ShowResultPage.jsx:75-110 | A falsy root gives no rows, and every value the scan returns satisfies the three-key row predicate. |
| DeepScan.CollectRowsDeepLoop | src/pages/ShowResultPage.jsx:75-110 | The loop computes the scan's result with at most 200000 pops. The nodes it expands are distinct live nodes, at most one per pop, so a cyclic payload cannot make it loop. |
| DeepScan.VisitTop | src/pages/ShowResultPage.jsx:83-107 | One pass of the loop body costs one step and only appends rows to those found. A visited node or a non-object is popped and skipped with nothing else changed; any other node enters the visited set and the expansion order. The walk invariant is kept while the budget lasts. |
| DeepScan.RowArrayIsLeaf | src/pages/ShowResultPage.jsx:91-104 | A non-empty array of rows is appended whole and in order, and its elements are not pushed. An object whose `data` is such an array is treated the same way. |
| DeepScan.NoRowArrayGivesNothing | src/pages/ShowResultPage.jsx:89-108 | A payload that holds no non-empty array of rows anywhere yields no rows, whatever its shape or cycles. |
| DeepScan.RootRowArray | src/pages/ShowResultPage.jsx:91-95 | A root that is itself an array of rows is returned exactly. |
| DeepScan.NestedWrapperExample | src/pages/ShowResultPage.jsx:75-110 | A row array two wrapper objects down is found. The walk makes three pops and expands each node once. |
| DeepScanFound.OneRowArrayFound | src/pages/ShowResultPage.jsx:75-110 | Completeness of the scan. Take a payload whose reachable part holds exactly one non-empty row array, reached from the root along a path without repeats, with that array referred to from a single parent. If the heap has fewer child slots than the 200000-pop budget, the scan returns exactly that array's elements, in order. |
| DeepScanFound.BudgetEmptiesStack | src/pages/ShowResultPage.jsx:81-84 | When the heap's child slots plus one stay below the 200000-pop budget, the loop stops because the stack is empty, never because the budget is spent. |
| DeepScanFound.StepTracks | src/pages/ShowResultPage.jsx:84-107 | In that setting one pop keeps the walk's bookkeeping. Stacked and visited nodes stay in the reachable part. Every expanded node's children are visited or still pending. The row array is pushed only by its non-leaf parent. The rows found are empty until the array (or its wrapper) is visited, and are its elements after. |
| DeepScanFound.StepOut | src/pages/ShowResultPage.jsx:91-104 | One pop keeps the rows found empty before the array is taken and equal to its elements after. The only leaves in the reachable part are the array itself and a `data` wrapper around it. |
| DeepScanFound.LeafIsTarget | src/pages/ShowResultPage.jsx:91-104 | In the setting, any node the walk would take whole is the row array or its parent, and what it contributes is that array's elements. |
| DeepScanFound.EmptyStackFound | src/pages/ShowResultPage.jsx:84-110 | Once the stack is empty, every node on the path has been visited, so the array (or its wrapper) was taken and the result is its elements. |
| ResultService.RecordRowAgreement | src/services/showResultService.js:23-26 | A CSV record, once made an object, satisfies the page's row predicate exactly when it has the keys `dataset_name`, `split_id` and `model`. The values are not inspected. |
| ResultService.ParseCsvRows | src/services/showResultService.js:32-40 | The CSV row filter never throws. It returns an empty list when Papa Parse throws or gives no array. Otherwise it keeps, in order, exactly the records that look like rows, each one as often as Papa Parse produced it. |
| ResultService.DeriveSplits | src/services/showResultService.js:28-30 | A falsy input gives `[]`, and a truthy non-array throws. An array gives the distinct, trimmed, non-empty `split_id`s in first-seen order. |
| ResultService.AllocRowsAreRows | src/services/showResultService.js:84-92 | Every record object the decoded-CSV payload holds satisfies the row predicate. |
| ResultService.RowsPayloadShape | src/services/showResultService.js:84-92 | A payload built from decoded CSV, or for a failure, is an object with the rows array under `normalized_results.csv`, `splits` equal to `deriveSplits` of those rows, and the source tag. |
| ResultService.FirstTruthy | src/services/showResultService.js:62-67 | The rows value is the first truthy alias among the four keys, or `undefined` exactly when all four are falsy. |
| ResultService.FillSplits | src/services/showResultService.js:76-78 | `splits` is set to `deriveSplits` of `normalized_results.csv` (or `[]`), or the call throws. Every other property is kept. |
| ResultService.AttachCsvRows | src/services/showResultService.js:70-75 | When no alias holds a non-empty array and the same text decodes to CSV rows, those rows are stored under `normalized_results.csv`. Otherwise the object is untouched, and no other property ever changes. |
| ResultService.AxiosJsonObject | src/services/showResultService.js:61-82 | The axios JSON branch throws, and so falls through to CSV, exactly when `normalized_results.csv` is truthy but not an array once any CSV rows are attached. That throw comes from `deriveSplits` or from the log's row summary. Otherwise `splits` is filled exactly when it is missing or an empty array, derived from that key and never from an alias, and the result always has truthy `splits`. |
| ResultService.KeepOrFillSplits | src/services/showResultService.js:98-103 | A parsed object is returned as it is when its `splits` is truthy. Otherwise `splits` is filled in, and the branch fails only when that throws. |
| ResultService.AxiosJson | src/services/showResultService.js:58-82 | The JSON branch succeeds only on a parsed non-null object. When the same text also decodes to CSV rows, it always succeeds. |
| ResultService.AxiosStage | src/services/showResultService.js:51-111 | The axios attempt is answered or abandoned case by case. It gives up when axios throws, when the line-55 log throws on a truthy `slice`, and for arrays and other non-objects that are not non-empty strings. A non-empty string gives up exactly when it yields no CSV rows and either is not a JSON object or is one whose `normalized_results.csv` is a truthy non-array; a JSON object without that fault is answered as JSON. A plain object gives up exactly when its `splits` is falsy and `deriveSplits` throws on `normalized_results.csv`; otherwise it is answered as the object itself. |
| ResultService.FetchStage | src/services/showResultService.js:113-147 | The `fetch` attempt is tagged `error` exactly when `fetch` throws. Fetched text is answered as JSON exactly when it parses to an object whose `splits` is truthy or can be derived (`FetchJsonAnswers`). That answer is the parsed object itself, keeping a truthy `splits` and otherwise filled with `deriveSplits`. Any other text is answered as CSV exactly when it has CSV rows, and as `empty` exactly when it has none. |
| ResultService.FetchCsvPayload | src/services/showResultService.js:130-146 | The CSV answer of `fetch` holds every decoded row, in order, under `normalized_results.csv` with the three-key shape. The `empty` and `error` answers hold no rows and carry their tag. |
| ResultService.RowsPayloadRecords | src/services/showResultService.js:84-92 | An object built from decoded CSV records holds exactly those records, in order, under `normalized_results.csv`. |
| ResultService.FetchAutoParsedRmse | src/services/showResultService.js:47-148 | The result comes from axios exactly when the axios attempt succeeds, and is an error exactly when both transports fail. |
| ResultService.FetchAutoParsedRmseShape | src/services/showResultService.js:47-148 | The function always returns an object. Decoded CSV has the three-key shape with at least one row, total failure has the same shape with no rows, and any object taken from JSON ends up with truthy `splits`. |
| ResultService.AxiosStageShape | src/services/showResultService.js:51-111 | Whatever the axios attempt answers is an object. Its CSV answer has the three-key shape with at least one row, and its JSON and object answers have truthy `splits`. |
| ResultService.FetchStageShape | src/services/showResultService.js:113-147 | Whatever the `fetch` attempt answers is an object. Its CSV answer has the three-key shape with at least one row, its `empty` and `error` answers have that shape with no rows, and its JSON answer has truthy `splits`. |
| ResultPage.DatasetRows | src/pages/ShowResultPage.jsx:153 | The dataset's rows are, in order, exactly the rows whose `dataset_name` matches, each as often as it occurs, and there are some exactly when some row matches. |
| ResultService.FallbackCases | src/services/showResultService.js:94-115 | The `fetch` fallback runs exactly in the cases `AxiosGivesUp` lists: axios threw; a non-empty string without CSV rows that is not a usable JSON object; `""`, a number, a boolean, `null` or an array; an object whose `slice` makes the log throw; an object with falsy `splits` whose `normalized_results.csv` makes `deriveSplits` throw. In every other case the axios payload is returned, and CSV text from axios never falls back. |
| ResultService.SeriesQuery | src/services/showResultService.js:164-168 | The query holds one `models` entry per truthy model, in order, then `maxPoints`, then `keepFraction` only when it is given. |
| ResultService.SeriesQueryReadBack | src/services/showResultService.js:165-168 | Reading each parameter back gives the non-empty models in order and exactly one `maxPoints`. It gives a `keepFraction` exactly when one was given. |
| ResultPage.PreferredArray | src/pages/ShowResultPage.jsx:112-118 | The result is the value of the first listed key that holds an array, even an empty one, or nothing when no key does. |
| ResultPage.PreferredChain | src/pages/ShowResultPage.jsx:136-139 | A top-level alias array wins over `files` and `files[dataset]`. The chain yields nothing only when none of the three places holds an array. |
| ResultPage.UnfilteredRows | src/pages/ShowResultPage.jsx:128-147 | The rows come from the key chain exactly when it finds a non-empty array. Otherwise they come from the deep scan, and the source is "none" exactly when that scan finds nothing. |
| ResultPage.EmptyAliasFallsToDeepScan | src/pages/ShowResultPage.jsx:136-147 | An empty array under a top-level alias stops the `files` lookups, so the rows come from the deep scan. |
| ResultPage.DatasetFilter | src/pages/ShowResultPage.jsx:151-159 | With a dataset selected and some row in it, the result is exactly the rows of that dataset in order, each as often as it occurs. Otherwise the input is returned unchanged with a filtered count of 0. |
| ResultPage.DatasetFilterKeeps | src/pages/ShowResultPage.jsx:151-159 | The filtered rows are an order-preserving subsequence of the input. When the filter applies, every kept row matches the dataset by trimmed, case-insensitive equality. |
| ResultPage.NormalizedRows | src/pages/ShowResultPage.jsx:124-162 | A falsy payload gives no rows. `allCount` is the number of unfiltered rows. The filter is used exactly when a dataset is selected and some unfiltered row belongs to it. Then every row of the dataset is kept, as often as it occurs, and nothing else. Otherwise all unfiltered rows are returned with a filtered count of 0. Rows from the deep scan are rows. |
| ResultPage.StdRows | src/pages/ShowResultPage.jsx:164-182 | The statistics rows come from the first non-empty array of the key chain. Failing that, they are the deep-scan rows carrying `std` or `mean`. |
| ResultPage.StdRowsAreStatNormalizedRows | src/pages/ShowResultPage.jsx:164-182 | With no statistics table, no row table and no dataset selected, the statistics rows are exactly the normalized rows that carry `std` or `mean`. |
| ResultPage.StdRowsDatasetFilter | src/pages/ShowResultPage.jsx:177-180 | The dataset filter never empties a non-empty statistics list. When some of its rows belong to the selected dataset, exactly those rows are kept. |
| ResultPage.DatasetFilterNeverEmpties | src/pages/ShowResultPage.jsx:151-159 | The dataset filter of both row views keeps a non-empty list non-empty. It filters to exactly the dataset's rows when at least one row belongs to the dataset. |
| ResultPage.SplitListsAgree | src/pages/ShowResultPage.jsx:269 | The page's split list and the service's `deriveSplits` (`showResultService.js` lines 28-30) agree on every row array. |
| ResultPage.SplitsFromRows | src/pages/ShowResultPage.jsx:269 | The split list read from the rows is their distinct non-empty trimmed split ids, in first-seen order. |
| ResultPage.ObjectKeys | src/pages/ShowResultPage.jsx:276 | `Object.keys` gives a plain object's property names in order, the index strings of a string, and nothing for other non-objects. |
| ResultPage.ApiSplits | src/pages/ShowResultPage.jsx:274-276 | The API split list is `splits` mapped through `s` when it is an array, or its keys otherwise. A truthy string gives its index strings `"0"`, `"1"`, …. A falsy `splits` gives nothing. |
| ResultPage.Sticky | src/pages/ShowResultPage.jsx:296 | A previous selection still in the list is kept. Otherwise the first entry is chosen, or `""` for an empty list. |
| ResultPage.StickyIdempotent | src/pages/ShowResultPage.jsx:296 | Re-applying the sticky update to its own result changes nothing. |
| ResultPage.ResolveSplits | src/pages/ShowResultPage.jsx:268-297 | The split list is the rows' distinct non-empty split ids, or the API list only when the rows give none. A non-empty previous selection that is in the list is kept. Otherwise the first entry of a non-empty list is selected (line 296), and an empty list selects `""`. |
| ResultPage.ResolveSplitsStable | src/pages/ShowResultPage.jsx:268-297 | Running the split effect again on its own result leaves list and selection unchanged. |
| ResultPage.RowModels | src/pages/ShowResultPage.jsx:307-313 | The models offered are exactly the non-empty models of rows in the selected split whose category is not `baseline`, each once. They come in the order in which those rows first name them. |
| ResultPage.BaselineRowsExcluded | src/pages/ShowResultPage.jsx:309-310 | Rows whose category reads `baseline` in any letter case contribute no model. |
| ResultPage.ResolveModels | src/pages/ShowResultPage.jsx:300-335 | No split gives no models and `""`. The row models are used when there are any, and the API's per-split list (`ApiModels`) only otherwise. The list is distinct and non-empty. A non-empty previous model in the list is kept; otherwise the first model is selected, or `""` when there is none (line 334). |
| ResultPage.ApiModels | src/pages/ShowResultPage.jsx:316-323 | The fallback model list is the distinct non-empty names of the API's per-split array, in first-seen order. |
| ResultPage.ResolveModelsStable | src/pages/ShowResultPage.jsx:300-335 | Running the model effect again on its own result leaves list and selection unchanged. |
| ResultPage.NormalizedFiltered | src/pages/ShowResultPage.jsx:399-402 | No split shows every row. A selected split shows, in order, exactly the rows whose split matches by trimmed, case-insensitive equality, each as often as it occurs. |
| ResultPage.ModelRowsShownInTable | src/pages/ShowResultPage.jsx:399-402 | Every row the model selector considers is also shown in the table. |
| ResultPage.DatasetsLoaded | src/pages/ShowResultPage.jsx:198-216 | Without a run id, or when the request throws, list and selection stay as they were. A non-array answer empties the list. An array becomes the list. An existing selection is always kept, and otherwise the first dataset of the new list is picked. |
| ResultPage.DatasetsLoadedStable | src/pages/ShowResultPage.jsx:198-216 | Applying the effect again to its own result with the same response changes nothing. |
| ResultPage.DatasetsFailureKeepsState | src/pages/ShowResultPage.jsx:211-213 | A thrown request leaves list and selection exactly as they were, and a non-array answer never clears the selection. |
| ResultPage.BundleSeries | src/pages/ShowResultPage.jsx:369-377 | Each series is the first defined field in the stated precedence: `predictions[model].corrected` then `corrected`; `y_test` then `y_test_actual`; `x_test` then `time_test`. When none is defined, the `[]` default is used. |
| ResultPage.FirstDefined | src/pages/ShowResultPage.jsx:369-377 | A `??` chain yields the first value that is neither `null` nor `undefined`, and its default exactly when every value is one of those. |
| ResultPage.PerModelCorrectedWins | src/pages/ShowResultPage.jsx:370-372 | A model's own corrected series wins whenever it is defined. |
| ResultPage.CacheKeyInjective | src/pages/ShowResultPage.jsx:343 | Two selections share a cache key only when they are the same selection, provided dataset and split contain no `|`. |
| ResultPage.CacheKey | src/pages/ShowResultPage.jsx:343 | The cache key is the dataset, a `|`, the split, a `|` and the model, each part readable back at its position. |
| ResultPage.CacheKeyCollision | src/pages/ShowResultPage.jsx:343 | With a `|` inside a name, two different selections do share a key. |
| ResultPage.SeriesRequest | src/pages/ShowResultPage.jsx:360-367 | The bundle request names the one selected model, with `maxPoints` 0 and `keepFraction` 0.5. |
| ResultPage.SeriesEffect | src/pages/ShowResultPage.jsx:338-396 | An incomplete selection clears the plot without a request. A cached key is served without a request. A cancelled fetch never writes the cache. A completed fetch stores and shows its bundle, and a failed one clears the plot. |
| ResultPage.CacheOnlyGrows | src/pages/ShowResultPage.jsx:387 | Cache entries are only ever added, never replaced or dropped. |
| ResultPage.SecondVisitHitsCache | src/pages/ShowResultPage.jsx:343-387 | After a completed fetch, the same selection is served from the cache with no second request. |
| ResultsTable.Search | src/components/results/DatasetModelTable.jsx:54-60 | A blank query keeps every row. Otherwise the result is, in order, exactly the rows where one of the four searchable columns, lower-cased, contains the lower-cased query, each as often as it occurs. |
| ResultsTable.CompareAntisymmetric | src/components/results/DatasetModelTable.jsx:63-74 | The comparator (numeric when both cells are finite numbers, collation otherwise, negated for descending) is antisymmetric whenever the collation is. |
| ResultsTable.Compare | src/components/results/DatasetModelTable.jsx:62-75 | When both cells are finite numbers, the comparison is zero exactly for equal numbers and negative exactly when the first sorts first in the chosen direction. Otherwise its sign is the collation's sign, flipped for descending order. |
| ResultsTable.SortRows | src/components/results/DatasetModelTable.jsx:62 | Sorting returns a new sequence that is a permutation of its input. |
| ResultsTable.SortRowsSorted | src/components/results/DatasetModelTable.jsx:62-75 | The sorted rows are in comparator order. |
| ResultsTable.ColumnSortSorted | src/components/results/DatasetModelTable.jsx:62-75 | The table's rows come out ordered by the selected column and direction whenever `localeCompare` is antisymmetric. |
| ResultsTable.SortRowsStableOnTies | src/components/results/DatasetModelTable.jsx:62 | Rows that all compare equal keep their original order. |
| ResultsTable.SortRowsStable | src/components/results/DatasetModelTable.jsx:62 | The sort is stable for any comparison: of two input rows that compare equal, the earlier one still comes first in the output. |
| ResultsTable.ProcessedRows | src/components/results/DatasetModelTable.jsx:53-78 | The processed rows are a permutation of the search result, so a blank query gives a permutation of the input. They are in column order whenever `localeCompare` is antisymmetric. |
| ResultsTable.TotalPages | src/components/results/DatasetModelTable.jsx:81 | There is at least one page, and the pages hold all rows with no page left empty: the least such count. |
| ResultsTable.ShownPage | src/components/results/DatasetModelTable.jsx:82 | The shown page is the current page, capped at the page count. |
| ResultsTable.PageRows | src/components/results/DatasetModelTable.jsx:83-84 | A page holds at most `rowsPerPage` rows, taken from its start position, and is empty past the end. |
| ResultsTable.PagesCoverRows | src/components/results/DatasetModelTable.jsx:81-84 | Reading every page in turn shows each row exactly once, in order. |
| ResultsTable.Go | src/components/results/DatasetModelTable.jsx:86-88 | `go` moves to `p` exactly when `p` is an existing page, and otherwise stays. |
| ResultsTable.PageButtons | src/components/results/DatasetModelTable.jsx:191-197 | The page buttons are increasing and include the first page, the last page, the current page and its neighbours. All pages are shown when there are at most six, and a page is shown exactly when the filter admits it. |
| ResultsTable.ToggleSort | src/components/results/DatasetModelTable.jsx:42-50 | Clicking the active column flips its direction, and another column becomes active ascending. Either way the page returns to 1. |
| ResultsTable.ToggleSortTwice | src/components/results/DatasetModelTable.jsx:42-50 | Clicking the same header twice restores the direction. |
| ResultsTable.SetSearch | src/components/results/DatasetModelTable.jsx:101-104 | Typing a query stores it and returns to page 1, leaving the other controls alone. |
| ResultsTable.SetRowsPerPage | src/components/results/DatasetModelTable.jsx:111-114 | Choosing a page size stores it and returns to page 1, leaving the other controls alone. |
| ResultsTable.ControlsKeepValid | src/components/results/DatasetModelTable.jsx:28-117 | From the initial state every control keeps the current page at least 1 and the page size one of the offered choices. |
| ResultsTable.View | src/components/results/DatasetModelTable.jsx:53-84 | The view shows an existing page, at most `rowsPerPage` rows, all drawn from the input, and a button for the page shown. |
| CsvPreview.Load | src/components/results/DatasetCsvViewer.jsx:13-28 | A failed load keeps the data and sets the error. A successful one stores the answer, with missing headers and rows as `[]` and missing total and offset as 0, and clears the error. Either way loading ends. |
| CsvPreview.Buttons | src/components/results/DatasetCsvViewer.jsx:37-38 | Prev is enabled exactly when the offset is positive, and Next exactly when rows remain past the page. Neither is enabled while loading. |
| CsvPreview.PrevOffset | src/components/results/DatasetCsvViewer.jsx:65 | Prev asks for an offset that is never negative and is below a positive current offset. It is exactly one page back when there is room. |
| CsvPreview.NextOffset | src/components/results/DatasetCsvViewer.jsx:72 | Next asks for a larger offset. |
| CsvPreview.PrevRequest | src/components/results/DatasetCsvViewer.jsx:65 | The Prev button requests one page size of rows, from an offset that is never negative and is below the current offset when Prev is enabled and the page size is positive. |
| CsvPreview.NextRequest | src/components/results/DatasetCsvViewer.jsx:72 | The Next button requests one page size of rows, from an offset past the current one when the page size is positive. |
| CsvPreview.PrevNextRoundTrip | src/components/results/DatasetCsvViewer.jsx:65-72 | Next then Prev returns to the offset, and so does Prev then Next when a whole page lies before it. |
| CsvPreview.Reset | src/components/results/DatasetCsvViewer.jsx:30-35 | A change of dataset or run empties headers, rows, total, offset and error. The first page is requested exactly when the preview is open and a dataset is set. |
| CsvPreview.ResetDisablesPaging | src/components/results/DatasetCsvViewer.jsx:32-38 | After a reset neither paging button applies. |
| CsvPreview.ToggleOpen | src/components/results/DatasetCsvViewer.jsx:45-49 | The button flips the open flag. It loads the first page exactly when it opens an empty preview for a set dataset. |
| RunAll.Toggle | src/pages/RunAllPage.jsx:132-138 | A selected name is removed everywhere and an unselected one is appended. Every other name keeps its membership, and a list without duplicates stays so. |
| RunAll.ToggleTwice | src/pages/RunAllPage.jsx:132-138 | Toggling the same name twice restores membership, and restores the list exactly when the name was absent. |
| RunAll.CategoryClick | src/pages/RunAllPage.jsx:324-332 | A fully selected category loses exactly its values and the rest stays in order. Otherwise only its missing values are appended, without creating duplicates, and afterwards the whole category is selected. |
| RunAll.CategoryClickTwice | src/pages/RunAllPage.jsx:324-332 | Two clicks on a category none of whose values was selected give back the selection. |
| RunAll.GlobalClick | src/pages/RunAllPage.jsx:368-375 | Select All selects every model of every group in group order, Unselect All clears the selection, and the flag flips. |
| RunAll.GlobalClickChecksCategories | src/pages/RunAllPage.jsx:323-375 | After Select All every category box reads checked. After Unselect All only empty categories do. |
| RunAll.ParseIntOfIntToString | src/pages/RunAllPage.jsx:270-271 | `parseInt` reads back the decimal text of any integer, whatever non-digit text follows it. |
| RunAll.ParseInt | src/pages/RunAllPage.jsx:270 | `parseInt` gives `NaN` exactly when, after the leading white space and at most one sign, no digit follows. |
| RunAll.AddPair | src/pages/RunAllPage.jsx:302 | Adding a split appends an 80/20 pair and keeps the others. |
| RunAll.EditTrain | src/pages/RunAllPage.jsx:268-273 | Editing a pair's train field sets its train to the parsed text and its test to the complement. Every other pair is untouched. |
| RunAll.PairsStayComplementary | src/pages/RunAllPage.jsx:268-302 | Every pair the page can reach has test equal to 100 minus train, or both NaN. |
| RunAll.EditTrainWithNumber | src/pages/RunAllPage.jsx:268-273 | Typing the decimal text of a number gives the pair that number and its complement to 100. |
| RunAll.FilteredFiles | src/pages/RunAllPage.jsx:195 | The listed datasets are, in order, exactly the names containing the search term case-insensitively, each as often as it occurs. An empty term lists all. |
| RunAll.HeaderClick | src/pages/RunAllPage.jsx:221-226 | Equal counts clear the selection, and otherwise every listed name is selected. |
| RunAll.HeaderClickTwice | src/pages/RunAllPage.jsx:220-226 | From an unchecked header with something listed, one click checks it and selects every listed name, and a second click clears the selection. |
| RunAll.HeaderComparesCountsOnly | src/pages/RunAllPage.jsx:220-226 | The header compares counts only. One selected unlisted name makes it read checked, and a click then drops that name without selecting the listed one. |
| RunAll.StartRun | src/pages/RunAllPage.jsx:161-179 | A run is posted, with the selections and pairs as its body, exactly when both a dataset and a model are selected. Otherwise the dataset toast takes precedence over the model toast. |
| RunAll.EnabledRunPosts | src/pages/RunAllPage.jsx:162-169 | An enabled Run All button (enabled by the condition of line 386) always posts and never shows a toast. |
| RunAll.FinishRun | src/pages/RunAllPage.jsx:181-189 | A `success` answer opens the results page with it, any other answer is shown, and a failed post shows the error message. |
| SplitLabel.MatchAtShape | src/components/results/SplitDiagram.jsx:12 | The pattern matches at a position exactly when `split_`, a digit run, `-` or `_` and another digit run fit there. The captures are the two whole digit runs. |
| SplitLabel.FirstMatchFrom | src/components/results/SplitDiagram.jsx:12 | The match used is the leftmost position where the pattern matches. |
| SplitLabel.SplitPercents | src/components/results/SplitDiagram.jsx:12-15 | Without a match the diagram shows 80/20, and with one it shows the two numbers captured at the leftmost match, as written. |
| SplitLabel.EmptyIdIsDefault | src/components/results/SplitDiagram.jsx:12-14 | An empty or missing id gives 80/20. |
| SplitLabel.SplitPercentsOfId | src/components/results/SplitDiagram.jsx:12-15 | `split_A_B` and `split_A-B`, in any letter case and with text around them that hides no other match, read as A and B. |
| SplitLabel.OptionLabel | src/components/results/SplitSelector.jsx:20 | Every option label ends with `% Test`. |
| SplitLabel.OptionLabelOfId | src/components/results/SplitSelector.jsx:20 | `split_A_B` with no `_` in A reads `A% Train / B% Test`. Later underscores survive. |
| SplitLabel.DashedOptionLabel | src/components/results/SplitSelector.jsx:20 | A dashed id keeps its dash: `split_A-B` reads `A-B% Test`. |
| SplitLabel.SelectorAgreesWithDiagram | src/components/results/SplitSelector.jsx:20 | For an id `split_A_B` built from two numbers, the selector label and the diagram (`SplitDiagram.jsx` lines 12-15) name the same percentages. |
| Plots.MinIgnoringEmpty | src/components/results/ActualVsPredScatter.jsx:14 | An empty series does not limit the count, and any other series bounds it. |
| Plots.Stride | src/components/results/ActualVsPredScatter.jsx:20 | The stride is at least 1 and is the least one that keeps `n` points within 120000 samples. |
| Plots.SampleCap | src/components/results/ActualVsPredScatter.jsx:20-27 | However long the series, at most 120000 positions are sampled. |
| Plots.SampleExists | src/components/results/ActualVsPredScatter.jsx:27 | Sample `k` is taken exactly when `k * stride < n`. |
| Plots.KeptPairsSound | src/components/results/ActualVsPredScatter.jsx:27-33 | Every kept pair is the finite pair at some sampled position. When every sample is finite, all of them are kept. |
| Plots.SamplePairs | src/components/results/ActualVsPredScatter.jsx:27-33 | The sampling loop builds the baseline pairs and the corrected pairs from the positions `0, stride, 2·stride, …` below `n`. |
| Plots.Range | src/components/results/ActualVsPredScatter.jsx:35-48 | The axis range spans the kept actual values, its ends are among them, and with none it is [0, 1]. |
| Plots.ScatterData | src/components/results/ActualVsPredScatter.jsx:14-55 | No positions give empty series and range [0, 1]. Otherwise the paired series have equal lengths of at most 120000, and the note appears exactly when fewer points are drawn than exist. |
| Plots.ScatterComplete | src/components/results/ActualVsPredScatter.jsx:14-53 | Up to 120000 finite positions are all drawn with stride 1. |
| Plots.Step | src/components/results/RollingRmsePlot.jsx:20 | The window step is at least 1, and a fifth of the window once that is 1 or more. |
| Plots.RollingRmse | src/components/results/RollingRmsePlot.jsx:15-31 | There is one point per window start `0, step, …` whose window ends inside the aligned data. Each point is the window's centre x with the model's and baseline's RMSE over the window. |
| Plots.RollingStarts | src/components/results/RollingRmsePlot.jsx:21 | A start is plotted exactly when its window ends inside the data, and there are points exactly when the data is longer than the window. |
| Plots.Residuals | src/components/results/ResidualsPlot.jsx:6-17 | Both residual series and the x axis have the aligned length. Each residual added to its prediction gives the actual value, and it is NaN exactly when a side is not a number. The x axis is the time stamps when there are exactly that many, and indices otherwise. |
| Plots.ResidualZeroIff | src/components/results/ResidualsPlot.jsx:16 | A model residual is zero exactly where the prediction equals the actual number. |

## Left out

- Network, credentials and logging are left out. The axios, `fetch` and series-bundle requests are inputs (`AxiosOutcome`, `FetchOutcome`, `BundleOutcome`, `LoadOutcome`, `RunOutcome`), and the console and debug-summary logging is not modelled.
- `JSON.parse`, Papa Parse (with its dynamic typing), `localeCompare` and `rmse` are function parameters, because their internals are floating point or parser details.
- Numbers are integers. Floating point, `NaN` from arithmetic, `toFixed`, `toLocaleString` and `Math.round` are not modelled. `Number(text)` accepts an optional sign and decimal digits only.
- `toLowerCase` and the regular expression's `i` flag fold only ASCII letters, and `trim` uses a fixed white-space set.
- `String(v)` of an array is modelled as the empty string. Element joining only matters for searching on array-valued cells.
- A plain object always converts to `[object Object]`. A parsed object that carries its own `toString` or `valueOf` property would make `String(v)` throw, and that case is not modelled.
- React scheduling is left out. Each effect and handler is a pure function of the state it reads, so the stale closure in the category Select All handler (`toAdd` is computed from the rendered selection) is read as if the two agree.
- `handleRemovePair` is called by the trash button but never defined, and `handleSelectAllModels` uses an undefined list and is not wired to any control. Neither has a model.
- The Select All flag is not re-synchronised with the selection when single models are toggled, and the model keeps it as a plain input.
- `parseInt` is base ten only: no `0x` prefix and no `Infinity`. The number inputs' `min`/`max` are browser hints the handler does not enforce, so they are not modelled either.
- The API split list used as a fallback (`splits` array or keys) is neither de-duplicated nor filtered for empty entries, because the page does neither.
- `Plots.RollingRmse` takes the window as a natural number. A negative or fractional window is not modelled.
- `SplitLabel.SplitPercents` takes the id as text. `String(splitId || "")` of a non-string id is not modelled.
- Property order is taken as given: a heap lists each node's properties in the engine's enumeration order, integer-like keys first, and no operation of the model reorders them. The only keys the model adds (`splits`, `normalized_results.csv`) are not integer-like, so appending them last matches the engine.
- ResultsTable.SortRows: `Array.prototype.sort` is modelled as one stable insertion sort. On a column that mixes numeric and non-numeric cells the comparator is not transitive (9 < "10" numerically, "10" < "5x" and "5x" < "9" by collation). The engine's order is then implementation-defined and may differ from the model's, so the model promises that neighbouring rows are in comparator order (for an antisymmetric collation) and that the rows are a permutation of the input, not that the engine produces this particular order.
- DeepScanFound.OneRowArrayFound: the completeness lemma covers one row array with a single parent in the reachable part, and a heap whose child slots fit the step budget. A row array reachable twice (shared by two parents) or several row arrays are left to the soundness lemmas, which say only that every result is a row. A heap too large for the budget, where the scan may stop early, is not covered.
- Json.Get: property access on an array sees only the array's named properties. Index keys (`arr["0"]`) and `length` give `undefined` in the model. So `parsed?.[dataset]` on an array payload with a numeric dataset name would find an element in the engine but not in the model.
- Rendering (Plotly, tables, layout) and every other plot and page of the dashboard are outside this model.

=== FILE: arith.dfy ===
/** Two facts about products that the solver does not find on its own inside larger
    proofs about pages and sample positions. */
module Arith {
  lemma {:induction false} MulMonotone(a: nat, b: nat, s: nat)
    requires a <= b
    ensures a * s <= b * s
  {
  }

  lemma {:induction false} MulSucc(a: nat, s: nat)
    ensures (a + 1) * s == a * s + s
  {
  }
}

=== FILE: csvviewer.dfy ===
/** The dataset preview (`DatasetCsvViewer.jsx`): a window of CSV rows fetched by offset,
    with previous/next paging and a reset whenever the dataset or run changes.  The
    request itself is an input: the model receives what the endpoint answered. */
module CsvPreview {
  import opened Wrappers

  /** One page as the endpoint answered it; a missing or falsy field is `None`. */
  datatype PageData<Row> = PageData(headers: Option<seq<string>>, rows: Option<seq<Row>>,
                                    total: Option<int>, offset: Option<int>)

  /** The request failed, or it produced this page. */
  datatype LoadOutcome<Row> = LoadFailed | Loaded(data: PageData<Row>)

  datatype Preview<Row> = Preview(open: bool, headers: seq<string>, rows: seq<Row>, total: int,
                                  offset: int, loading: bool, err: string)

  const LoadError := "Failed to load dataset page."

  /** The request `load(newOffset)` makes: the offset asked for and the page size. */
  datatype Request = Request(offset: int, limit: int)

  /** `load(newOffset)` once the request has settled: the answer's fields with `[]`/0
      defaults on success, only the error message on failure; loading ends either way. */
  function Load<Row>(st: Preview<Row>, outcome: LoadOutcome<Row>): (r: Preview<Row>)
    ensures !r.loading && r.open == st.open
    ensures outcome.LoadFailed? ==> r == st.(loading := false, err := LoadError)
    ensures outcome.Loaded? ==> (r.err == "" &&
      r.headers == outcome.data.headers.GetOr([]) && r.rows == outcome.data.rows.GetOr([]) &&
      r.total == outcome.data.total.GetOr(0) && r.offset == outcome.data.offset.GetOr(0))
    ensures outcome.Loaded? && outcome.data == PageData(None, None, None, None) ==>
      r == st.(headers := [], rows := [], total := 0, offset := 0, loading := false, err := "")
  {
    match outcome
    case LoadFailed => st.(loading := false, err := LoadError)
    case Loaded(d) =>
      Preview(st.open, d.headers.GetOr([]), d.rows.GetOr([]), d.total.GetOr(0), d.offset.GetOr(0), false, "")
  }

  predicate CanPrev<Row>(st: Preview<Row>)
  {
    st.offset > 0
  }

  predicate CanNext<Row>(st: Preview<Row>)
  {
    st.offset + |st.rows| < st.total
  }

  /** The offset the Prev button asks for: `Math.max(0, offset - pageSize)`. */
  function PrevOffset(offset: int, pageSize: int): (r: int)
    ensures r >= 0
    ensures offset > 0 && pageSize > 0 ==> r < offset
    ensures offset >= pageSize ==> r == offset - pageSize
  {
    if offset - pageSize > 0 then offset - pageSize else 0
  }

  /** The offset the Next button asks for. */
  function NextOffset(offset: int, pageSize: int): (r: int)
    ensures pageSize > 0 ==> r > offset
  {
    offset + pageSize
  }

  /** Next then Prev comes back to a non-negative offset; Prev then Next does so from any
      offset of at least one page. */
  lemma {:induction false} PrevNextRoundTrip(offset: int, pageSize: int)
    requires pageSize >= 0
    ensures offset >= 0 ==> PrevOffset(NextOffset(offset, pageSize), pageSize) == offset
    ensures offset >= pageSize ==> NextOffset(PrevOffset(offset, pageSize), pageSize) == offset
  {
  }

  /** A button is clickable when its condition holds and no load is in flight. */
  function Buttons<Row>(st: Preview<Row>): (r: (bool, bool))
    ensures r.0 <==> st.offset > 0 && !st.loading
    ensures r.1 <==> st.offset + |st.rows| < st.total && !st.loading
  {
    (CanPrev(st) && !st.loading, CanNext(st) && !st.loading)
  }

  /** The effect on a change of dataset or run: everything but `open` and `loading` is
      cleared, and the first page is requested when the preview is open. */
  function Reset<Row>(st: Preview<Row>, dataset: string, pageSize: int): (r: (Preview<Row>, Option<Request>))
    ensures r.0.headers == [] && r.0.rows == [] && r.0.total == 0 && r.0.offset == 0 && r.0.err == ""
    ensures r.0.open == st.open && r.0.loading == st.loading
    ensures r.1.Some? <==> st.open && dataset != ""
    ensures r.1.Some? ==> r.1.value == Request(0, pageSize)
  {
    (st.(headers := [], rows := [], total := 0, offset := 0, err := ""),
     if st.open && dataset != "" then Some(Request(0, pageSize)) else None)
  }

  /** After a reset neither paging button is available. */
  lemma {:induction false} ResetDisablesPaging<Row>(st: Preview<Row>, dataset: string, pageSize: int)
    ensures var r := Reset(st, dataset, pageSize).0; !CanPrev(r) && !CanNext(r)
  {
  }

  /** The Show/Hide button: opening an empty preview loads the first page. */
  function ToggleOpen<Row>(st: Preview<Row>, dataset: string, pageSize: int): (r: (Preview<Row>, Option<Request>))
    ensures r.0 == st.(open := !st.open)
    ensures r.1.Some? <==> !st.open && |st.rows| == 0 && dataset != ""
    ensures r.1.Some? ==> r.1.value == Request(0, pageSize)
  {
    (st.(open := !st.open), if !st.open && |st.rows| == 0 && dataset != "" then Some(Request(0, pageSize)) else None)
  }

  /** The Prev and Next buttons: the request each makes. */
  function PrevRequest<Row>(st: Preview<Row>, pageSize: int): (q: Request)
    ensures q.offset >= 0 && q.limit == pageSize
    ensures pageSize > 0 && CanPrev(st) ==> q.offset < st.offset
  {
    Request(PrevOffset(st.offset, pageSize), pageSize)
  }

  function NextRequest<Row>(st: Preview<Row>, pageSize: int): (q: Request)
    ensures q.limit == pageSize
    ensures pageSize > 0 ==> q.offset > st.offset
  {
    Request(NextOffset(st.offset, pageSize), pageSize)
  }
}

=== FILE: deepscan.dfy ===
/** The results page's deep row scan (`collectNormalizedRowsDeep`): an iterative,
    stack-based depth-first walk over a parsed payload that collects every array of
    result rows it meets.  A visited set keyed by node identity makes shared and
    cyclic sub-graphs harmless, and a fixed budget of stack pops bounds the walk. */
module DeepScan {
  import opened Json
  import opened Seqs

  /** The walk stops after this many pops, whatever is left on the stack. */
  const StepLimit: nat := 200000

  /** A non-empty array every element of which satisfies the row predicate. */
  predicate IsRowArray(h: Heap, v: Value)
  {
    IsArray(h, v) && |Items(h, v)| > 0 && forall i :: 0 <= i < |Items(h, v)| ==> IsRow(h, Items(h, v)[i])
  }

  /** The walk's variables: the stack, the ids in the visited set, the rows found so far,
      the number of pops, and the ids in the order they entered the visited set. */
  datatype ScanState = ScanState(stack: seq<Value>, seen: set<nat>, out: seq<Value>, steps: nat, expanded: seq<nat>)

  function Start(root: Value): ScanState
  {
    ScanState([root], {}, [], 0, [])
  }

  /** One iteration of the loop: pop the top of the stack and look at it. */
  function Step(h: Heap, st: ScanState): ScanState
    requires |st.stack| > 0
  {
    var cur := st.stack[|st.stack| - 1];
    var rest := st.stack[..|st.stack| - 1];
    var steps := st.steps + 1;
    if !IsObject(h, cur) || cur.id in st.seen then
      st.(stack := rest, steps := steps)
    else
      var seen := st.seen + {cur.id};
      var expanded := st.expanded + [cur.id];
      match h[cur.id]
      case Arr(items, _) =>
        if IsRowArray(h, cur) then ScanState(rest, seen, st.out + items, steps, expanded)
        else ScanState(rest + items, seen, st.out, steps, expanded)
      case Obj(props) =>
        var d := Get(h, cur, "data");
        if IsRowArray(h, d) then ScanState(rest, seen, st.out + Items(h, d), steps, expanded)
        else ScanState(rest + PropValues(props), seen, st.out, steps, expanded)
  }

  /** What holds of every state the walk reaches: only rows have been collected, each
      live node has been expanded at most once, and the budget is respected. */
  ghost predicate Inv(h: Heap, st: ScanState)
  {
    && (forall i :: 0 <= i < |st.out| ==> IsRow(h, st.out[i]))
    && Distinct(st.expanded)
    && (forall x :: x in st.seen <==> x in st.expanded)
    && (forall k :: 0 <= k < |st.expanded| ==> st.expanded[k] < |h|)
    && |st.expanded| <= st.steps <= StepLimit
  }

  /** One pop costs one step, only appends to the rows found, and keeps the invariant. */
  lemma {:induction false} StepFacts(h: Heap, st: ScanState)
    requires |st.stack| > 0
    ensures Step(h, st).steps == st.steps + 1
    ensures |st.out| <= |Step(h, st).out| && Step(h, st).out[..|st.out|] == st.out
    ensures Inv(h, st) && st.steps < StepLimit ==> Inv(h, Step(h, st))
  {
    var cur := st.stack[|st.stack| - 1];
    var r := Step(h, st);
    if IsObject(h, cur) && cur.id !in st.seen {
      assert r.expanded == st.expanded + [cur.id];
      assert r.seen == st.seen + {cur.id};
      var added := r.out[|st.out|..];
      assert r.out == st.out + added;
      assert forall i :: 0 <= i < |added| ==> IsRow(h, added[i]);
    }
  }

  /** The loop run to completion: until the stack is empty or the budget is spent. */
  function Run(h: Heap, st: ScanState): (r: ScanState)
    ensures Inv(h, st) ==> Inv(h, r)
    ensures st.steps <= StepLimit ==> |r.stack| == 0 || r.steps == StepLimit
    ensures |st.out| <= |r.out| && r.out[..|st.out|] == st.out
    decreases StepLimit - st.steps
  {
    if |st.stack| == 0 || st.steps >= StepLimit then st
    else
      StepFacts(h, st);
      Run(h, Step(h, st))
  }

  /** `collectNormalizedRowsDeep(root)` */
  function CollectRowsDeep(h: Heap, root: Value): (r: seq<Value>)
    ensures !Truthy(root) ==> r == []
    ensures forall i :: 0 <= i < |r| ==> IsRow(h, r[i])
  {
    if !Truthy(root) then [] else Run(h, Start(root)).out
  }

  /** `for (const k in cur) stack.push(cur[k])` */
  method PushValues(stack: seq<Value>, props: Props) returns (r: seq<Value>)
    ensures r == stack + PropValues(props)
  {
    r := stack;
    var k := 0;
    while k < |props|
      invariant k <= |props|
      invariant r == stack + PropValues(props[..k])
    {
      assert PropValues(props[..k + 1]) == PropValues(props[..k]) + [props[k].1];
      r := r + [props[k].1];
      k := k + 1;
    }
    assert props[..|props|] == props;
  }

  /** The body of the page's loop: pop, skip non-objects and visited nodes, then either
      take a row array (bare or under `.data`) whole or push the children.  Each pass
      costs one step and only ever appends rows; a node is expanded the first time it is
      popped and skipped after that. */
  method VisitTop(h: Heap, st: ScanState) returns (r: ScanState)
    requires |st.stack| > 0
    ensures r == Step(h, st)
    ensures r.steps == st.steps + 1
    ensures |st.out| <= |r.out| && r.out[..|st.out|] == st.out
    ensures forall i :: |st.out| <= i < |r.out| ==> IsRow(h, r.out[i])
    ensures var cur := st.stack[|st.stack| - 1];
      !IsObject(h, cur) || cur.id in st.seen ==>
        r.out == st.out && r.seen == st.seen && r.expanded == st.expanded && r.stack == st.stack[..|st.stack| - 1]
    ensures var cur := st.stack[|st.stack| - 1];
      IsObject(h, cur) && cur.id !in st.seen ==> r.seen == st.seen + {cur.id} && r.expanded == st.expanded + [cur.id]
    ensures Inv(h, st) && st.steps < StepLimit ==> Inv(h, r)
  {
    var steps := st.steps + 1;
    var cur := st.stack[|st.stack| - 1];
    var stack := st.stack[..|st.stack| - 1];
    if !IsObject(h, cur) || cur.id in st.seen {
      return st.(stack := stack, steps := steps);
    }
    var seen := st.seen + {cur.id};
    var expanded := st.expanded + [cur.id];
    match h[cur.id]
    case Arr(items, _) =>
      if |items| > 0 && forall i :: 0 <= i < |items| ==> IsRow(h, items[i]) {
        r := ScanState(stack, seen, st.out + items, steps, expanded);
      } else {
        r := ScanState(stack + items, seen, st.out, steps, expanded);
      }
    case Obj(props) =>
      var d := Get(h, cur, "data");
      if IsArray(h, d) && |Items(h, d)| > 0 && forall i :: 0 <= i < |Items(h, d)| ==> IsRow(h, Items(h, d)[i]) {
        r := ScanState(stack, seen, st.out + Items(h, d), steps, expanded);
      } else {
        stack := PushValues(stack, props);
        r := ScanState(stack, seen, st.out, steps, expanded);
      }
    StepFacts(h, st);
  }

  /** The page's loop with its visited set and step counter.  Besides the rows it
      reports the number of pops and the nodes in the order they were expanded. */
  method CollectRowsDeepLoop(h: Heap, root: Value) returns (rows: seq<Value>, pops: nat, expanded: seq<nat>)
    ensures rows == CollectRowsDeep(h, root)
    ensures forall i :: 0 <= i < |rows| ==> IsRow(h, rows[i])
    ensures pops <= StepLimit
    ensures Distinct(expanded) && |expanded| <= pops
    ensures forall k :: 0 <= k < |expanded| ==> expanded[k] < |h|
  {
    if !Truthy(root) {
      return [], 0, [];
    }
    var st := Start(root);
    while |st.stack| > 0 && st.steps < StepLimit
      invariant Inv(h, st)
      invariant Run(h, st) == Run(h, Start(root))
      decreases StepLimit - st.steps
    {
      StepFacts(h, st);
      st := VisitTop(h, st);
    }
    rows, pops, expanded := st.out, st.steps, st.expanded;
  }

  /** A row array on top of the stack is taken whole, in order, and its elements are not
      pushed; the same holds for an object whose `data` property is a row array. */
  lemma {:induction false} RowArrayIsLeaf(h: Heap, st: ScanState)
    requires |st.stack| > 0
    requires var cur := st.stack[|st.stack| - 1]; IsObject(h, cur) && cur.id !in st.seen
    ensures var cur := st.stack[|st.stack| - 1];
      IsRowArray(h, cur) ==> Step(h, st).out == st.out + Items(h, cur) && Step(h, st).stack == st.stack[..|st.stack| - 1]
    ensures var cur := st.stack[|st.stack| - 1];
      IsPlainObject(h, cur) && IsRowArray(h, Get(h, cur, "data")) ==>
        Step(h, st).out == st.out + Items(h, Get(h, cur, "data")) && Step(h, st).stack == st.stack[..|st.stack| - 1]
  {
  }

  /** A payload holding no row array anywhere yields no rows, whatever its shape,
      shared sub-objects and reference cycles included. */
  ghost predicate NoRowArray(h: Heap)
  {
    forall id :: 0 <= id < |h| ==> !IsRowArray(h, Ref(id))
  }

  lemma {:induction false} RunWithoutRowArrays(h: Heap, st: ScanState)
    requires NoRowArray(h)
    ensures Run(h, st).out == st.out
    decreases StepLimit - st.steps
  {
    if |st.stack| > 0 && st.steps < StepLimit {
      var cur := st.stack[|st.stack| - 1];
      if IsObject(h, cur) && cur.id !in st.seen && h[cur.id].Obj? {
        var d := Get(h, cur, "data");
        assert !IsRowArray(h, d) by {
          if IsArray(h, d) {
            assert !IsRowArray(h, Ref(d.id));
          }
        }
      }
      assert Step(h, st).out == st.out;
      RunWithoutRowArrays(h, Step(h, st));
    }
  }

  lemma {:induction false} NoRowArrayGivesNothing(h: Heap, root: Value)
    requires NoRowArray(h)
    ensures CollectRowsDeep(h, root) == []
  {
    if Truthy(root) {
      RunWithoutRowArrays(h, Start(root));
    }
  }

  /** A root that is itself a row array is returned as it stands. */
  lemma {:induction false} RootRowArray(h: Heap, root: Value)
    requires IsRowArray(h, root)
    ensures CollectRowsDeep(h, root) == Items(h, root)
  {
    var st1 := Step(h, Start(root));
    assert st1.stack == [] && st1.out == Items(h, root);
    assert Run(h, st1) == st1;
  }

  /** The payload `{wrap: {inner: [{dataset_name: "A", split_id: "s1", model: "m1"}]}}`
      as a heap: the outer object is node 0, the row is node 3. */
  const WrappedHeap: Heap := [
    Obj([("wrap", Ref(1))]),
    Obj([("inner", Ref(2))]),
    Arr([Ref(3)], []),
    Obj([("dataset_name", Str("A")), ("split_id", Str("s1")), ("model", Str("m1"))])
  ]

  lemma {:induction false} WrappedRowArray()
    ensures IsRowArray(WrappedHeap, Ref(2))
  {
    var h := WrappedHeap;
    assert h[3].props[0].0 == "dataset_name";
    assert h[3].props[1].0 == "split_id";
    assert h[3].props[2].0 == "model";
    assert IsRow(h, Ref(3));
  }

  lemma {:induction false} WrappedFirstPop()
    ensures Step(WrappedHeap, Start(Ref(0))) == ScanState([Ref(1)], {0}, [], 1, [0])
  {
    var h := WrappedHeap;
    assert "wrap" != "data" by { assert "wrap"[0] != "data"[0]; }
    assert Get(h, Ref(0), "data") == Undef;
    assert PropValues(h[0].props) == [Ref(1)];
  }

  lemma {:induction false} WrappedSecondPop()
    ensures Step(WrappedHeap, ScanState([Ref(1)], {0}, [], 1, [0])) == ScanState([Ref(2)], {0, 1}, [], 2, [0, 1])
  {
    var h := WrappedHeap;
    assert "inner" != "data" by { assert "inner"[0] != "data"[0]; }
    assert Get(h, Ref(1), "data") == Undef;
    assert PropValues(h[1].props) == [Ref(2)];
  }

  lemma {:induction false} WrappedThirdPop()
    ensures Step(WrappedHeap, ScanState([Ref(2)], {0, 1}, [], 2, [0, 1])) == ScanState([], {0, 1, 2}, [Ref(3)], 3, [0, 1, 2])
  {
    WrappedRowArray();
  }

  /** The nested payload yields its single row, found two wrapper levels down. */
  lemma {:induction false} NestedWrapperExample()
    ensures CollectRowsDeep(WrappedHeap, Ref(0)) == [Ref(3)]
  {
    var h := WrappedHeap;
    WrappedFirstPop();
    WrappedSecondPop();
    WrappedThirdPop();
    var s1 := ScanState([Ref(1)], {0}, [], 1, [0]);
    var s2 := ScanState([Ref(2)], {0, 1}, [], 2, [0, 1]);
    var s3 := ScanState([], {0, 1, 2}, [Ref(3)], 3, [0, 1, 2]);
    assert Run(h, s3) == s3;
    assert Run(h, s2) == Run(h, s3);
    assert Run(h, s1) == Run(h, s2);
    assert Run(h, Start(Ref(0))) == Run(h, s1);
  }
}

=== FILE: deepscan_found.dfy ===
/** Completeness of the deep row scan: a payload holding one row array, reached from the
    root through ordinary nodes and referred to from one place only, yields exactly that
    array's rows, in order, when the heap fits the step budget. */
module DeepScanFound {
  import opened Json
  import opened Seqs
  import opened DeepScan

  /** What the walk pushes when it descends into a node: an array's elements, or an
      object's property values in enumeration order. */
  function Children(h: Heap, v: Value): seq<Value>
    requires IsObject(h, v)
  {
    match h[v.id]
    case Arr(items, _) => items
    case Obj(props) => PropValues(props)
  }

  /** A node the walk takes whole instead of descending into: a row array, or a plain
      object whose `data` is one. */
  predicate IsLeaf(h: Heap, v: Value)
    requires IsObject(h, v)
  {
    IsRowArray(h, v) || (h[v.id].Obj? && IsRowArray(h, Get(h, v, "data")))
  }

  /** The rows a leaf contributes. */
  function Emitted(h: Heap, v: Value): seq<Value>
    requires IsObject(h, v) && IsLeaf(h, v)
  {
    if IsRowArray(h, v) then Items(h, v) else Items(h, Get(h, v, "data"))
  }

  /** A set of node ids that holds the children of each of its nodes; the nodes reachable
      from a root form the least such set containing it. */
  ghost predicate Closed(h: Heap, region: set<nat>)
  {
    forall x :: x in region ==>
      x < |h| && forall c :: c in Children(h, Ref(x)) && IsObject(h, c) ==> c.id in region
  }

  /** The payload of the completeness statement: `path` runs without repeats from the root
      to the one row array of `region`, and that array has a single parent in `region`
      (the node just before it on the path). */
  ghost predicate Setting(h: Heap, region: set<nat>, path: seq<nat>)
  {
    && |path| >= 2 && Distinct(path)
    && Closed(h, region) && path[0] in region
    && (forall k :: 0 <= k < |path| - 1 ==>
          IsObject(h, Ref(path[k])) && Ref(path[k + 1]) in Children(h, Ref(path[k])))
    && IsRowArray(h, Ref(path[|path| - 1]))
    && (forall x :: x in region && IsRowArray(h, Ref(x)) ==> x == path[|path| - 1])
    && (forall x :: x in region && x < |h| && Ref(path[|path| - 1]) in Children(h, Ref(x)) ==>
          x == path[|path| - 2])
  }

  // ---------------------------------------------------------------- one pop

  /** The three outcomes of one pop: a skip, a leaf taken whole, or a descent. */
  lemma {:induction false} StepCases(h: Heap, st: ScanState)
    requires |st.stack| > 0
    ensures var cur := st.stack[|st.stack| - 1]; var rest := st.stack[..|st.stack| - 1];
      && (!IsObject(h, cur) || cur.id in st.seen ==> Step(h, st) == st.(stack := rest, steps := st.steps + 1))
      && (IsObject(h, cur) && cur.id !in st.seen && IsLeaf(h, cur) ==>
            Step(h, st) == ScanState(rest, st.seen + {cur.id}, st.out + Emitted(h, cur), st.steps + 1, st.expanded + [cur.id]))
      && (IsObject(h, cur) && cur.id !in st.seen && !IsLeaf(h, cur) ==>
            Step(h, st) == ScanState(rest + Children(h, cur), st.seen + {cur.id}, st.out, st.steps + 1, st.expanded + [cur.id]))
  {
  }

  /** The `data` of an object is one of the values the walk would push for it. */
  lemma {:induction false} DataIsChild(h: Heap, v: Value)
    requires IsPlainObject(h, v) && Get(h, v, "data") != Undef
    ensures Get(h, v, "data") in Children(h, v)
  {
    var props := h[v.id].props;
    var i :| 0 <= i < |props| && props[i] == ("data", Get(h, v, "data"));
    assert PropValues(props)[i] == Get(h, v, "data");
  }

  /** In the setting, the only leaves of the region are the row array and its parent. */
  lemma {:induction false} LeafIsTarget(h: Heap, region: set<nat>, path: seq<nat>, x: nat)
    requires Setting(h, region, path)
    requires x in region && IsLeaf(h, Ref(x))
    ensures x == path[|path| - 1] || x == path[|path| - 2]
    ensures x == path[|path| - 1] ==> Emitted(h, Ref(x)) == Items(h, Ref(path[|path| - 1]))
    ensures x != path[|path| - 1] ==> Emitted(h, Ref(x)) == Items(h, Ref(path[|path| - 1]))
  {
    var a := path[|path| - 1];
    if !IsRowArray(h, Ref(x)) {
      var d := Get(h, Ref(x), "data");
      DataIsChild(h, Ref(x));
      assert d.id in region;
      assert d == Ref(a);
    }
  }

  /** Every node of the path lies in the region. */
  lemma {:induction false} PathInRegion(h: Heap, region: set<nat>, path: seq<nat>, k: nat)
    requires Setting(h, region, path) && k < |path|
    ensures path[k] in region
  {
    if k > 0 {
      PathInRegion(h, region, path, k - 1);
      assert Ref(path[k]) in Children(h, Ref(path[k - 1]));
    }
  }

  // ---------------------------------------------------------------- the walk's bookkeeping

  /** Whether the row array's rows have been taken: through its parent when that is a
      `data` wrapper, otherwise by popping the array itself. */
  ghost predicate Found(h: Heap, path: seq<nat>, st: ScanState)
    requires |path| >= 2 && path[|path| - 2] < |h|
  {
    if IsLeaf(h, Ref(path[|path| - 2])) then path[|path| - 2] in st.seen else path[|path| - 1] in st.seen
  }

  /** Every object on the stack lies in the region. */
  ghost predicate StackIn(h: Heap, region: set<nat>, stack: seq<Value>)
  {
    forall i :: 0 <= i < |stack| && IsObject(h, stack[i]) ==> stack[i].id in region
  }

  /** The array is on the stack or visited only once its parent has been descended into. */
  ghost predicate ParentFirst(h: Heap, path: seq<nat>, st: ScanState)
    requires |path| >= 2 && path[|path| - 2] < |h|
  {
    (Ref(path[|path| - 1]) in st.stack || path[|path| - 1] in st.seen) ==>
      path[|path| - 2] in st.seen && !IsLeaf(h, Ref(path[|path| - 2]))
  }

  /** What the walk keeps true in the setting: it stays in the region, every descended
      node has each child visited or still on the stack, the root is visited or pending,
      the array is only pushed by its (non-leaf) parent, and the rows found are the
      array's rows once `Found` holds and nothing before. */
  ghost predicate Tracks(h: Heap, region: set<nat>, path: seq<nat>, st: ScanState)
    requires Setting(h, region, path)
  {
    && StackIn(h, region, st.stack)
    && (forall x :: x in st.seen ==> x in region)
    && (forall x :: x in st.seen && x < |h| && !IsLeaf(h, Ref(x)) ==>
          forall c :: c in Children(h, Ref(x)) && IsObject(h, c) ==> c.id in st.seen || c in st.stack)
    && (path[0] in st.seen || Ref(path[0]) in st.stack)
    && ParentFirst(h, path, st)
    && st.out == (if Found(h, path, st) then Items(h, Ref(path[|path| - 1])) else [])
  }

  lemma {:induction false} TracksStart(h: Heap, region: set<nat>, path: seq<nat>)
    requires Setting(h, region, path)
    ensures Tracks(h, region, path, Start(Ref(path[0])))
  {
    assert path[0] != path[|path| - 1];
    PathInRegion(h, region, path, |path| - 2);
  }

  /** A pop keeps the rest of the stack below whatever it pushes, and visits the popped
      node if it is an object. */
  lemma {:induction false} StepPrefix(h: Heap, st: ScanState)
    requires |st.stack| > 0
    ensures var r := Step(h, st);
      && |st.stack| - 1 <= |r.stack| && r.stack[..|st.stack| - 1] == st.stack[..|st.stack| - 1]
      && st.seen <= r.seen
      && (IsObject(h, st.stack[|st.stack| - 1]) ==> st.stack[|st.stack| - 1].id in r.seen)
  {
    var rest := st.stack[..|st.stack| - 1];
    var r := Step(h, st);
    var cur := st.stack[|st.stack| - 1];
    if IsObject(h, cur) && cur.id !in st.seen && !IsLeaf(h, cur) {
      StepCases(h, st);
      assert (rest + Children(h, cur))[..|rest|] == rest;
    }
  }

  /** A value still pending before a pop is pending or visited after it. */
  lemma {:induction false} PendingStays(h: Heap, st: ScanState, c: Value)
    requires |st.stack| > 0 && c in st.stack && IsObject(h, c)
    ensures c.id in Step(h, st).seen || c in Step(h, st).stack
  {
    StepPrefix(h, st);
    var r := Step(h, st);
    var n := |st.stack| - 1;
    if c != st.stack[n] {
      var i :| 0 <= i < |st.stack| && st.stack[i] == c;
      assert r.stack[..n][i] == c;
    }
  }

  /** One pop keeps the bookkeeping. */
  lemma {:induction false} StepTracks(h: Heap, region: set<nat>, path: seq<nat>, st: ScanState)
    requires Setting(h, region, path) && Tracks(h, region, path, st) && |st.stack| > 0
    ensures Tracks(h, region, path, Step(h, st))
  {
    StepSeenIn(h, region, st);
    StepStackIn(h, region, st);
    StepParentFirst(h, region, path, st);
    StepTracksClosure(h, region, path, st);
    if Ref(path[0]) in st.stack {
      PendingStays(h, st, Ref(path[0]));
    }
    StepOut(h, region, path, st);
  }

  /** One pop keeps the output empty until the array is found and equal to its items after. */
  lemma {:induction false} StepOut(h: Heap, region: set<nat>, path: seq<nat>, st: ScanState)
    requires Setting(h, region, path) && StackIn(h, region, st.stack) && |st.stack| > 0
    requires ParentFirst(h, path, st)
    requires st.out == (if Found(h, path, st) then Items(h, Ref(path[|path| - 1])) else [])
    ensures var r := Step(h, st);
      r.out == (if Found(h, path, r) then Items(h, Ref(path[|path| - 1])) else [])
  {
    var cur := st.stack[|st.stack| - 1];
    StepCases(h, st);
    PathInRegion(h, region, path, |path| - 2);
    if IsObject(h, cur) && cur.id !in st.seen {
      assert cur.id in region;
      if IsLeaf(h, cur) {
        LeafIsTarget(h, region, path, cur.id);
      }
    }
  }

  /** One pop visits nothing outside the region when the stack holds nothing outside it. */
  lemma {:induction false} StepSeenIn(h: Heap, region: set<nat>, st: ScanState)
    requires StackIn(h, region, st.stack) && |st.stack| > 0
    requires forall x :: x in st.seen ==> x in region
    ensures forall x :: x in Step(h, st).seen ==> x in region
  {
    StepCases(h, st);
  }

  /** One pop keeps the stack's objects inside a closed region. */
  lemma {:induction false} StepStackIn(h: Heap, region: set<nat>, st: ScanState)
    requires Closed(h, region) && StackIn(h, region, st.stack) && |st.stack| > 0
    ensures StackIn(h, region, Step(h, st).stack)
  {
    var cur := st.stack[|st.stack| - 1];
    var n := |st.stack| - 1;
    var r := Step(h, st);
    StepPrefix(h, st);
    if IsObject(h, cur) && cur.id !in st.seen && !IsLeaf(h, cur) {
      StepCases(h, st);
      var ch := Children(h, cur);
      forall i | 0 <= i < |r.stack| && IsObject(h, r.stack[i])
        ensures r.stack[i].id in region
      {
        if i < n {
          assert r.stack[i] == r.stack[..n][i] == st.stack[i];
        } else {
          assert r.stack[i] == ch[i - n];
        }
      }
    } else {
      StepCases(h, st);
      forall i | 0 <= i < |r.stack| && IsObject(h, r.stack[i])
        ensures r.stack[i].id in region
      {
        assert r.stack[i] == r.stack[..n][i] == st.stack[i];
      }
    }
  }

  /** One pop keeps the array pushed by nobody but its non-leaf parent. */
  lemma {:induction false} StepParentFirst(h: Heap, region: set<nat>, path: seq<nat>, st: ScanState)
    requires Setting(h, region, path) && StackIn(h, region, st.stack) && |st.stack| > 0
    requires ParentFirst(h, path, st)
    ensures ParentFirst(h, path, Step(h, st))
  {
    var cur := st.stack[|st.stack| - 1];
    var n := |st.stack| - 1;
    var r := Step(h, st);
    var a := path[|path| - 1];
    StepPrefix(h, st);
    if Ref(a) in r.stack {
      var i :| 0 <= i < |r.stack| && r.stack[i] == Ref(a);
      if i < n {
        assert r.stack[..n][i] == st.stack[i];
      } else {
        StepCases(h, st);
        assert IsObject(h, cur) && cur.id !in st.seen && !IsLeaf(h, cur);
        assert Ref(a) in Children(h, cur);
        assert cur.id == path[|path| - 2];
      }
    }
    if a in r.seen && a !in st.seen {
      StepCases(h, st);
      assert cur == Ref(a);
    }
  }

  /** One pop keeps every descended node's children visited or pending. */
  lemma {:induction false} StepTracksClosure(h: Heap, region: set<nat>, path: seq<nat>, st: ScanState)
    requires Setting(h, region, path) && Tracks(h, region, path, st) && |st.stack| > 0
    ensures var r := Step(h, st);
      forall x :: x in r.seen && x < |h| && !IsLeaf(h, Ref(x)) ==>
        forall c :: c in Children(h, Ref(x)) && IsObject(h, c) ==> c.id in r.seen || c in r.stack
  {
    var cur := st.stack[|st.stack| - 1];
    var rest := st.stack[..|st.stack| - 1];
    var r := Step(h, st);
    StepCases(h, st);
    forall x, c | x in r.seen && x < |h| && !IsLeaf(h, Ref(x)) && c in Children(h, Ref(x)) && IsObject(h, c)
      ensures c.id in r.seen || c in r.stack
    {
      if x in st.seen {
        if c in st.stack {
          PendingStays(h, st, c);
        }
      } else {
        assert x == cur.id && r.stack == rest + Children(h, cur);
      }
    }
  }

  /** The whole run keeps the bookkeeping. */
  lemma {:induction false} RunTracks(h: Heap, region: set<nat>, path: seq<nat>, st: ScanState)
    requires Setting(h, region, path) && Tracks(h, region, path, st)
    ensures Tracks(h, region, path, Run(h, st))
    decreases StepLimit - st.steps
  {
    if |st.stack| > 0 && st.steps < StepLimit {
      StepFacts(h, st);
      StepTracks(h, region, path, st);
      RunTracks(h, region, path, Step(h, st));
    }
  }

  /** Once the stack is empty, every node on the path up to the array's parent has been
      visited. */
  lemma {:induction false} PathVisited(h: Heap, region: set<nat>, path: seq<nat>, st: ScanState, k: nat)
    requires Setting(h, region, path) && Tracks(h, region, path, st) && |st.stack| == 0
    requires k <= |path| - 2
    ensures path[k] in st.seen
  {
    if k > 0 {
      PathVisited(h, region, path, st, k - 1);
      var x := path[k - 1];
      PathInRegion(h, region, path, k - 1);
      assert !IsLeaf(h, Ref(x)) by {
        if IsLeaf(h, Ref(x)) {
          LeafIsTarget(h, region, path, x);
          assert false;
        }
      }
      assert Ref(path[k]) in Children(h, Ref(x));
    }
  }

  /** The child slots of nodes `0 .. n-1` that the walk has not yet visited: an upper bound
      on what it can still push. */
  function UnvisitedSlots(h: Heap, seen: set<nat>, n: nat): nat
    requires n <= |h|
  {
    if n == 0 then 0
    else UnvisitedSlots(h, seen, n - 1) + (if n - 1 in seen then 0 else |Children(h, Ref(n - 1))|)
  }

  lemma {:induction false} SlotsBeyond(h: Heap, seen: set<nat>, x: nat, n: nat)
    requires n <= |h| && n <= x
    ensures UnvisitedSlots(h, seen + {x}, n) == UnvisitedSlots(h, seen, n)
  {
    if n > 0 {
      SlotsBeyond(h, seen, x, n - 1);
    }
  }

  /** Visiting node `x` removes exactly its children from the unvisited slots. */
  lemma {:induction false} SlotsVisit(h: Heap, seen: set<nat>, x: nat, n: nat)
    requires x < n <= |h| && x !in seen
    ensures UnvisitedSlots(h, seen + {x}, n) + |Children(h, Ref(x))| == UnvisitedSlots(h, seen, n)
  {
    if x == n - 1 {
      SlotsBeyond(h, seen, x, n - 1);
    } else {
      SlotsVisit(h, seen, x, n - 1);
    }
  }

  /** Steps taken plus what is on the stack plus what may still be pushed never grows. */
  ghost predicate Metered(h: Heap, st: ScanState)
  {
    st.steps + |st.stack| + UnvisitedSlots(h, st.seen, |h|) <= 1 + UnvisitedSlots(h, {}, |h|)
  }

  lemma {:induction false} StepMetered(h: Heap, st: ScanState)
    requires |st.stack| > 0 && Metered(h, st)
    ensures Metered(h, Step(h, st))
  {
    var cur := st.stack[|st.stack| - 1];
    StepCases(h, st);
    if IsObject(h, cur) && cur.id !in st.seen {
      SlotsVisit(h, st.seen, cur.id, |h|);
    }
  }

  lemma {:induction false} RunMetered(h: Heap, st: ScanState)
    requires Metered(h, st)
    ensures Metered(h, Run(h, st))
    decreases StepLimit - st.steps
  {
    if |st.stack| > 0 && st.steps < StepLimit {
      StepFacts(h, st);
      StepMetered(h, st);
      RunMetered(h, Step(h, st));
    }
  }

  /** When the heap has fewer child slots than the step budget, the walk ends by emptying its
      stack, never by running out of steps. */
  lemma {:induction false} BudgetEmptiesStack(h: Heap, root: Value)
    requires 1 + UnvisitedSlots(h, {}, |h|) < StepLimit
    ensures |Run(h, Start(root)).stack| == 0
  {
    RunMetered(h, Start(root));
  }

  /** A walk that tracked the setting and emptied its stack has produced exactly the array's rows. */
  lemma {:induction false} EmptyStackFound(h: Heap, region: set<nat>, path: seq<nat>, fin: ScanState)
    requires Setting(h, region, path) && Tracks(h, region, path, fin) && |fin.stack| == 0
    ensures fin.out == Items(h, Ref(path[|path| - 1]))
  {
    var p := path[|path| - 2];
    PathVisited(h, region, path, fin, |path| - 2);
    PathInRegion(h, region, path, |path| - 2);
    if !IsLeaf(h, Ref(p)) {
      assert Ref(path[|path| - 1]) in Children(h, Ref(p));
    }
  }

  /** A payload whose region holds one row array, reached along a path of ordinary nodes
      and referred to from a single parent, yields exactly that array's rows, in order,
      provided the heap has fewer child slots in all than the walk's step budget. */
  lemma {:induction false} OneRowArrayFound(h: Heap, region: set<nat>, path: seq<nat>)
    requires Setting(h, region, path)
    requires 1 + UnvisitedSlots(h, {}, |h|) < StepLimit
    ensures CollectRowsDeep(h, Ref(path[0])) == Items(h, Ref(path[|path| - 1]))
  {
    BudgetEmptiesStack(h, Ref(path[0]));
    TracksStart(h, region, path);
    RunTracks(h, region, path, Start(Ref(path[0])));
    EmptyStackFound(h, region, path, Run(h, Start(Ref(path[0]))));
  }
}

=== FILE: json.dfy ===
/** JavaScript values as the result page sees them after `JSON.parse`, modelled as a
    graph of heap nodes so that object identity, shared sub-objects and reference
    cycles are representable.  A node's id is its index in the heap; allocating a
    node appends it.  Numbers are integers in this model. */
module Json {
  import opened Wrappers
  import opened Text

  datatype Value = Undef | Null | Bool(b: bool) | Num(n: int) | Str(s: string) | Ref(id: nat)

  /** Own enumerable properties, in the order `for…in` and `Object.keys` enumerate them
      (integer-like keys first): a heap is given with its properties already in that
      order, and the only keys the model itself adds are not integer-like. */
  type Props = seq<(string, Value)>

  /** An array (its elements plus any named properties assigned onto it) or a plain object. */
  datatype Node = Arr(items: seq<Value>, props: Props) | Obj(props: Props)

  type Heap = seq<Node>

  /** JavaScript truthiness (`NaN` is not modelled). */
  predicate Truthy(v: Value)
  {
    match v
    case Undef => false
    case Null => false
    case Bool(b) => b
    case Num(n) => n != 0
    case Str(s) => |s| > 0
    case Ref(_) => true
  }

  /** `a || d` */
  function Or(a: Value, d: Value): Value
  {
    if Truthy(a) then a else d
  }

  /** `a ?? d` */
  function Coalesce(a: Value, d: Value): Value
  {
    if a.Undef? || a.Null? then d else a
  }

  /** `v && typeof v === "object"`: a reference to a live node. */
  predicate IsObject(h: Heap, v: Value)
  {
    v.Ref? && v.id < |h|
  }

  /** `Array.isArray(v)` */
  predicate IsArray(h: Heap, v: Value)
  {
    IsObject(h, v) && h[v.id].Arr?
  }

  /** An object that is not an array. */
  predicate IsPlainObject(h: Heap, v: Value)
  {
    IsObject(h, v) && h[v.id].Obj?
  }

  function Items(h: Heap, v: Value): seq<Value>
    requires IsArray(h, v)
  {
    h[v.id].items
  }

  /** `Array.isArray(v) ? v : []` */
  function AsArray(h: Heap, v: Value): (r: seq<Value>)
    ensures !IsArray(h, v) ==> r == []
  {
    if IsArray(h, v) then Items(h, v) else []
  }

  predicate HasKey(props: Props, k: string)
  {
    exists i :: 0 <= i < |props| && props[i].0 == k
  }

  /** The value stored under `k`, or `undefined`. */
  function Lookup(props: Props, k: string): (r: Value)
    ensures !HasKey(props, k) ==> r == Undef
    ensures HasKey(props, k) ==> exists i :: 0 <= i < |props| && props[i] == (k, r)
  {
    if |props| == 0 then Undef
    else if props[0].0 == k then props[0].1
    else
      var r := Lookup(props[1..], k);
      assert HasKey(props[1..], k) ==> exists i :: 0 <= i < |props| && props[i] == (k, r) by {
        if HasKey(props[1..], k) {
          var i :| 0 <= i < |props[1..]| && props[1..][i] == (k, r);
          assert props[i + 1] == (k, r);
        }
      }
      assert HasKey(props, k) ==> HasKey(props[1..], k) by {
        if HasKey(props, k) {
          var i :| 0 <= i < |props| && props[i].0 == k;
          assert i > 0 && props[1..][i - 1].0 == k;
        }
      }
      r
  }

  /** `v?.[k]`: property access that yields `undefined` on anything but an object. */
  function Get(h: Heap, v: Value, k: string): Value
  {
    if IsObject(h, v) then Lookup(h[v.id].props, k) else Undef
  }

  /** `k in v` */
  predicate Has(h: Heap, v: Value, k: string)
  {
    IsObject(h, v) && HasKey(h[v.id].props, k)
  }

  /** The values `for (const k in obj) … obj[k]` visits, in order. */
  function PropValues(props: Props): (r: seq<Value>)
    ensures |r| == |props|
    ensures forall i :: 0 <= i < |props| ==> r[i] == props[i].1
  {
    seq(|props|, i requires 0 <= i < |props| => props[i].1)
  }

  /** The row-schema predicate: an object carrying the keys `dataset_name`, `split_id`
      and `model`; the values themselves are not inspected. */
  predicate IsRow(h: Heap, v: Value)
  {
    IsObject(h, v) && Has(h, v, "dataset_name") && Has(h, v, "split_id") && Has(h, v, "model")
  }

  /** `String(v ?? "")`.  Arrays are rendered as the empty string (element joining is not modelled). */
  function ToStr(h: Heap, v: Value): string
  {
    match v
    case Undef => ""
    case Null => ""
    case Bool(b) => if b then "true" else "false"
    case Num(n) => IntToString(n)
    case Str(s) => s
    case Ref(id) => if id < |h| && h[id].Obj? then "[object Object]" else ""
  }

  /** The page's `s(v)`: `String(v ?? "").trim()`. */
  function S(h: Heap, v: Value): string
  {
    Trim(ToStr(h, v))
  }

  /** The page's `eq(v, t)` against a selected string `t`: trimmed, case-insensitive equality. */
  predicate EqText(h: Heap, v: Value, t: string)
  {
    ToLower(S(h, v)) == ToLower(Trim(t))
  }

  /** Appends a node; the result refers to it. */
  function Alloc(h: Heap, n: Node): (r: (Heap, Value))
    ensures r.0 == h + [n] && r.1 == Ref(|h|)
  {
    (h + [n], Ref(|h|))
  }

  /** Replaces the first entry for `k`, or appends one when there is none (`obj[k] = v`). */
  function Assign(props: Props, k: string, v: Value): (r: Props)
    ensures Lookup(r, k) == v
    ensures forall j :: j != k ==> Lookup(r, j) == Lookup(props, j)
  {
    if |props| == 0 then [(k, v)]
    else if props[0].0 == k then [(k, v)] + props[1..]
    else [props[0]] + Assign(props[1..], k, v)
  }

  /** `obj[k] = v` on the node `id`; every other node is left as it was. */
  function SetProp(h: Heap, id: nat, k: string, v: Value): (r: Heap)
    requires id < |h|
    ensures |r| == |h|
    ensures Get(r, Ref(id), k) == v
    ensures forall j :: j != k ==> Get(r, Ref(id), j) == Get(h, Ref(id), j)
    ensures forall i :: 0 <= i < |h| && i != id ==> r[i] == h[i]
    ensures r[id].Arr? == h[id].Arr? && (r[id].Arr? ==> r[id].items == h[id].items)
  {
    var n := h[id];
    var n' := if n.Arr? then Arr(n.items, Assign(n.props, k, v)) else Obj(Assign(n.props, k, v));
    h[id := n']
  }

  /** `Number(t)` for text, when the result is finite: surrounding white space is ignored,
      blank text is 0, and an optional sign may precede the digits. */
  function NumberText(t: string): (r: Option<int>)
    ensures AllDigits(Trim(t)) ==> r == Some(DigitsValue(Trim(t)))
  {
    var u := Trim(t);
    if |u| == 0 then Some(0)
    else if AllDigits(u) then Some(DigitsValue(u))
    else if (u[0] == '+' || u[0] == '-') && |u| > 1 && AllDigits(u[1..]) then
      var m: int := DigitsValue(u[1..]);
      Some(if u[0] == '-' then -m else m)
    else None
  }

  /** `Number(v)` when it is finite, as used by `Number.isFinite(Number(v))`.  An object
      converts through its string form, so an array (rendered as `""` here) is 0 and a
      plain object is not a number. */
  function ToNumber(h: Heap, v: Value): (r: Option<int>)
    ensures v.Null? ==> r == Some(0)
    ensures v.Undef? ==> r.None?
    ensures IsPlainObject(h, v) ==> r.None?
  {
    match v
    case Undef => None
    case Null => Some(0)
    case Bool(b) => Some(if b then 1 else 0)
    case Num(n) => Some(n)
    case Str(s) => NumberText(s)
    case Ref(_) => NumberText(ToStr(h, v))
  }
}

=== FILE: plots.dfy ===
/** The analytics plots under the results table: how many points each plot aligns, which
    indices the actual-vs-predicted scatter samples, which windows the rolling RMSE plot
    slides over, and the residual series.  Values are coerced with `Number`; `rmse` itself
    is a parameter. */
module Plots {
  import opened Wrappers
  import opened Json
  import opened Arith

  // ---------------------------------------------------------------------------
  // Counting and sampling
  // ---------------------------------------------------------------------------

  /** `Math.min(n, len || Infinity)`: an empty series does not limit the count. */
  function MinIgnoringEmpty(n: nat, len: nat): (r: nat)
    ensures r <= n && (len > 0 ==> r <= len)
    ensures r == n || r == len
    ensures len == 0 ==> r == n
  {
    if len > 0 && len < n then len else n
  }

  function Min(a: nat, b: nat): nat
  {
    if a <= b then a else b
  }

  function Max(a: nat, b: nat): nat
  {
    if a >= b then a else b
  }

  /** How many of the positions `i, i + step, i + 2·step, …` lie below `limit`: the
      iterations of `for (let i = …; i < limit; i += step)`. */
  function Samples(limit: int, step: nat, i: nat): nat
    requires step >= 1
    decreases if limit - i > 0 then limit - i else 0
  {
    if i >= limit then 0 else 1 + Samples(limit, step, i + step)
  }

  /** The `k`-th iteration (counting from 0) runs exactly when its position is below the
      limit. */
  lemma {:induction false} SamplesFrom(limit: int, step: nat, i: nat, k: nat)
    requires step >= 1
    ensures k < Samples(limit, step, i) <==> i + k * step < limit
    decreases k
  {
    if k > 0 {
      SamplesFrom(limit, step, i + step, k - 1);
      assert i + step + (k - 1) * step == i + k * step;
    }
  }

  /** Sample `k` of a loop from 0 exists exactly when `k * step < limit`. */
  lemma {:induction false} SampleExists(limit: int, step: nat, k: nat)
    requires step >= 1
    ensures k < Samples(limit, step, 0) <==> k * step < limit
  {
    SamplesFrom(limit, step, 0, k);
  }

  /** The positions taken do not overshoot the limit by a whole step. */
  lemma {:induction false} SamplesSpan(limit: int, step: nat, i: nat)
    requires step >= 1 && i < limit
    ensures Samples(limit, step, i) * step < limit - i + step
    decreases limit - i
  {
    var c := Samples(limit, step, i);
    if i + step < limit {
      SamplesSpan(limit, step, i + step);
      assert c * step == step + (c - 1) * step;
    }
  }

  // ---------------------------------------------------------------------------
  // Actual vs predicted scatter
  // ---------------------------------------------------------------------------

  /** The most points each scatter series is sampled down to. */
  const MaxPoints := 120000

  /** `Math.max(1, Math.ceil(n / MaxPoints))`. */
  function Stride(n: nat): (s: nat)
    ensures s >= 1 && s * MaxPoints >= n
    ensures n > 0 ==> (s - 1) * MaxPoints < n
    ensures n <= MaxPoints ==> s == 1
  {
    if n == 0 then 1 else (n + MaxPoints - 1) / MaxPoints
  }

  /** However long the series, the stride keeps the number of samples within the cap. */
  lemma {:induction false} SampleCap(n: nat)
    ensures Samples(n, Stride(n), 0) <= MaxPoints
  {
    var s := Stride(n);
    var c := Samples(n, s, 0);
    if n > 0 && c > MaxPoints {
      SamplesSpan(n, s, 0);
      MulMonotone(MaxPoints + 1, c, s);
      assert false;
    }
  }

  /** `Number(s[i])` when finite; past the end the element is `undefined`, which is not. */
  function NumberAt(h: Heap, s: seq<Value>, i: nat): Option<int>
  {
    if i < |s| then ToNumber(h, s[i]) else None
  }

  /** The pair position `i` contributes, when both of its values are finite numbers. */
  function PairAt(h: Heap, xs: seq<Value>, ys: seq<Value>, i: nat): Option<(int, int)>
  {
    match (NumberAt(h, xs, i), NumberAt(h, ys, i))
    case (Some(a), Some(b)) => Some((a, b))
    case _ => None
  }

  /** The pair of sample `k`, taken at position `k * step`. */
  function SamplePair(h: Heap, xs: seq<Value>, ys: seq<Value>, step: nat, k: nat): Option<(int, int)>
  {
    PairAt(h, xs, ys, k * step)
  }

  /** The two series the scatter loop builds from its first `k` samples: the pairs that
      exist, in sample order. */
  function KeptPairs(h: Heap, xs: seq<Value>, ys: seq<Value>, step: nat, k: nat): (r: (seq<int>, seq<int>))
    ensures |r.0| == |r.1| <= k
  {
    if k == 0 then ([], [])
    else
      var prev := KeptPairs(h, xs, ys, step, k - 1);
      match SamplePair(h, xs, ys, step, k - 1)
      case Some(p) => (prev.0 + [p.0], prev.1 + [p.1])
      case None => prev
  }

  /** One more sample, at position `i = k * step`, appends its pair when it has one;
      the next sample sits one step further on. */
  lemma {:induction false} KeptPairsNext(h: Heap, xs: seq<Value>, ys: seq<Value>, step: nat, k: nat, i: nat)
    requires i == k * step
    ensures var prev, p := KeptPairs(h, xs, ys, step, k), PairAt(h, xs, ys, i);
      KeptPairs(h, xs, ys, step, k + 1) == (if p.Some? then (prev.0 + [p.value.0], prev.1 + [p.value.1]) else prev)
    ensures i + step == (k + 1) * step
  {
  }

  /** `p` is the pair of one of the first `k` samples. */
  ghost predicate Sampled(h: Heap, xs: seq<Value>, ys: seq<Value>, step: nat, k: nat, p: (int, int))
  {
    exists m: nat :: m < k && SamplePair(h, xs, ys, step, m) == Some(p)
  }

  /** Every kept pair is the pair of some sample, and when every sample has a pair all of
      them are kept. */
  lemma {:induction false} KeptPairsSound(h: Heap, xs: seq<Value>, ys: seq<Value>, step: nat, k: nat)
    ensures var r := KeptPairs(h, xs, ys, step, k);
      forall j :: 0 <= j < |r.0| ==> Sampled(h, xs, ys, step, k, (r.0[j], r.1[j]))
    ensures (forall m: nat :: m < k ==> SamplePair(h, xs, ys, step, m).Some?) ==> |KeptPairs(h, xs, ys, step, k).0| == k
  {
    var r := KeptPairs(h, xs, ys, step, k);
    forall j | 0 <= j < |r.0| ensures Sampled(h, xs, ys, step, k, (r.0[j], r.1[j])) {
      KeptPairSampled(h, xs, ys, step, k, j);
    }
    if k > 0 {
      KeptPairsSound(h, xs, ys, step, k - 1);
    }
  }

  /** The kept pair at index `j` comes from one of the first `k` samples. */
  lemma {:induction false} KeptPairSampled(h: Heap, xs: seq<Value>, ys: seq<Value>, step: nat, k: nat, j: nat)
    requires j < |KeptPairs(h, xs, ys, step, k).0|
    ensures var r := KeptPairs(h, xs, ys, step, k);
      Sampled(h, xs, ys, step, k, (r.0[j], r.1[j]))
    decreases k
  {
    var prev := KeptPairs(h, xs, ys, step, k - 1);
    var r := KeptPairs(h, xs, ys, step, k);
    if j < |prev.0| {
      KeptPairSampled(h, xs, ys, step, k - 1, j);
      var m: nat :| m < k - 1 && SamplePair(h, xs, ys, step, m) == Some((prev.0[j], prev.1[j]));
      assert r.0[j] == prev.0[j] && r.1[j] == prev.1[j];
      assert m < k && SamplePair(h, xs, ys, step, m) == Some((r.0[j], r.1[j]));
    } else {
      var m: nat := k - 1;
      assert SamplePair(h, xs, ys, step, m) == Some((r.0[j], r.1[j]));
    }
  }

  /** The low and high ends of the x/y axis range: the least and greatest sampled actual
      value, or `[0, 1]` when nothing was sampled. */
  function Range(xs: seq<int>): (r: (int, int))
    ensures |xs| == 0 ==> r == (0, 1)
    ensures |xs| > 0 ==> r.0 in xs && r.1 in xs
    ensures forall i :: 0 <= i < |xs| ==> r.0 <= xs[i] <= r.1
  {
    if |xs| == 0 then (0, 1)
    else if |xs| == 1 then (xs[0], xs[0])
    else
      var rest := Range(xs[1..]);
      assert forall i :: 1 <= i < |xs| ==> xs[i] == xs[1..][i - 1];
      (if xs[0] < rest.0 then xs[0] else rest.0, if xs[0] > rest.1 then xs[0] else rest.1)
  }

  /** The preview note: how many points are drawn, of how many, at which stride. */
  datatype Note = Note(kept: nat, total: nat, stride: nat)

  datatype Scatter = Scatter(actB: seq<int>, base: seq<int>, actC: seq<int>, corr: seq<int>,
                             minA: int, maxA: int, note: Option<Note>)

  /** The number of positions the scatter pairs: the actual series bounds it, and so does
      each prediction series that is not empty. */
  function ScatterCount(h: Heap, actual: Value, corrected: Value, baseline: Value): nat
  {
    MinIgnoringEmpty(MinIgnoringEmpty(|AsArray(h, actual)|, |AsArray(h, corrected)|), |AsArray(h, baseline)|)
  }

  /** The scatter's data: the samples `0, stride, 2·stride, … < n` paired with the baseline
      and with the corrected prediction wherever both numbers are finite, the axis range
      over the kept actual values, and a note exactly when fewer points are drawn than
      exist. */
  method ScatterData(h: Heap, actual: Value, corrected: Value, baseline: Value) returns (r: Scatter)
    ensures var n := ScatterCount(h, actual, corrected, baseline);
      n == 0 ==> r == Scatter([], [], [], [], 0, 1, None)
    ensures var n := ScatterCount(h, actual, corrected, baseline); var s := Stride(n);
      n > 0 ==> ((r.actB, r.base) == KeptPairs(h, AsArray(h, actual), AsArray(h, baseline), s, Samples(n, s, 0)) &&
                 (r.actC, r.corr) == KeptPairs(h, AsArray(h, actual), AsArray(h, corrected), s, Samples(n, s, 0)))
    ensures |r.actB| == |r.base| <= MaxPoints && |r.actC| == |r.corr| <= MaxPoints
    ensures (r.minA, r.maxA) == Range(r.actB + r.actC)
    ensures var n := ScatterCount(h, actual, corrected, baseline);
      r.note.Some? <==> Max(|r.actB|, |r.actC|) < n
    ensures var n := ScatterCount(h, actual, corrected, baseline);
      r.note.Some? ==> r.note.value == Note(Max(|r.actB|, |r.actC|), n, Stride(n))
  {
    var ya, yc, yb := AsArray(h, actual), AsArray(h, corrected), AsArray(h, baseline);
    var n := ScatterCount(h, actual, corrected, baseline);
    if n == 0 {
      return Scatter([], [], [], [], 0, 1, None);
    }
    var stride := Stride(n);
    var actB, base, actC, corr := SamplePairs(h, ya, yb, yc, n, stride);
    SampleCap(n);
    var range := Range(actB + actC);
    var kept := Max(|actB|, |actC|);
    var note := if kept < n then Some(Note(kept, n, stride)) else None;
    r := Scatter(actB, base, actC, corr, range.0, range.1, note);
  }

  /** The sampling loop of the scatter: positions `0, stride, 2·stride, … < n`, each
      giving a baseline pair and a corrected pair where both numbers are finite. */
  method SamplePairs(h: Heap, ya: seq<Value>, yb: seq<Value>, yc: seq<Value>, n: nat, stride: nat)
    returns (actB: seq<int>, base: seq<int>, actC: seq<int>, corr: seq<int>)
    requires stride >= 1
    ensures (actB, base) == KeptPairs(h, ya, yb, stride, Samples(n, stride, 0))
    ensures (actC, corr) == KeptPairs(h, ya, yc, stride, Samples(n, stride, 0))
  {
    actB, base, actC, corr := [], [], [], [];
    var i, k := 0, 0;
    while i < n
      invariant i == k * stride
      invariant k + Samples(n, stride, i) == Samples(n, stride, 0)
      invariant (actB, base) == KeptPairs(h, ya, yb, stride, k)
      invariant (actC, corr) == KeptPairs(h, ya, yc, stride, k)
      decreases n - i
    {
      var pb, pc := PairAt(h, ya, yb, i), PairAt(h, ya, yc, i);
      KeptPairsNext(h, ya, yb, stride, k, i);
      if pb.Some? {
        actB, base := actB + [pb.value.0], base + [pb.value.1];
      }
      assert (actB, base) == KeptPairs(h, ya, yb, stride, k + 1);
      KeptPairsNext(h, ya, yc, stride, k, i);
      if pc.Some? {
        actC, corr := actC + [pc.value.0], corr + [pc.value.1];
      }
      assert (actC, corr) == KeptPairs(h, ya, yc, stride, k + 1);
      i, k := i + stride, k + 1;
    }
  }

  /** With at most `MaxPoints` positions, all finite, every position is drawn and no note
      is shown. */
  lemma {:induction false} ScatterComplete(h: Heap, xs: seq<Value>, ys: seq<Value>, n: nat)
    requires 0 < n <= MaxPoints
    requires forall i :: 0 <= i < n ==> NumberAt(h, xs, i).Some? && NumberAt(h, ys, i).Some?
    ensures Stride(n) == 1 && |KeptPairs(h, xs, ys, 1, Samples(n, 1, 0)).0| == n
  {
    assert Samples(n, 1, 0) == n by {
      SampleExists(n, 1, n);
      if Samples(n, 1, 0) < n {
        SampleExists(n, 1, Samples(n, 1, 0));
      }
    }
    forall m: nat | m < n ensures SamplePair(h, xs, ys, 1, m).Some? {
      assert m * 1 == m;
    }
    KeptPairsSound(h, xs, ys, 1, n);
  }

  // ---------------------------------------------------------------------------
  // Rolling RMSE
  // ---------------------------------------------------------------------------

  /** Where a point is drawn on the x axis: a time stamp, or a plain index. */
  datatype XPos<T> = Time(t: T) | Index(i: nat)

  /** The number of positions the rolling plot aligns: the three value series bound it,
      and so does the time series unless it is empty. */
  function RollingCount<T, Y>(t: seq<T>, y: seq<Y>, c: seq<Y>, b: seq<Y>): nat
  {
    MinIgnoringEmpty(Min(Min(|y|, |c|), |b|), |t|)
  }

  /** `Math.max(1, Math.floor(window / 5))`. */
  function Step(window: nat): (s: nat)
    ensures s >= 1 && (window >= 5 ==> s == window / 5)
  {
    if window / 5 >= 1 then window / 5 else 1
  }

  /** The x position of the window starting at `i`: its middle time stamp when the time
      series is exactly as long as the data, otherwise its middle index. */
  function Centre<T>(t: seq<T>, n: nat, window: nat, i: nat): XPos<T>
    requires i + window / 2 < n
  {
    if |t| == n then Time(t[i + window / 2]) else Index(i + window / 2)
  }

  /** The point of the window starting at `i`: its x position and the model's and the
      baseline's RMSE over the window. */
  function Point<T, Y, R>(t: seq<T>, y: seq<Y>, c: seq<Y>, b: seq<Y>, window: nat,
                          rmse: (seq<Y>, seq<Y>) -> R, i: nat): (XPos<T>, R, R)
    requires i + window < RollingCount(t, y, c, b)
  {
    var n := RollingCount(t, y, c, b);
    (Centre(t, n, window, i),
     rmse(y[i..i + window], c[i..i + window]),
     rmse(y[i..i + window], b[i..i + window]))
  }

  /** The rolling RMSE series: one point per window start `0, step, 2·step, …` with
      `start + window < n`, each window lying inside the aligned data. */
  method RollingRmse<T, Y, R>(t: seq<T>, y: seq<Y>, c: seq<Y>, b: seq<Y>, window: nat,
                              rmse: (seq<Y>, seq<Y>) -> R)
    returns (x: seq<XPos<T>>, rModel: seq<R>, rBase: seq<R>)
    ensures var n := RollingCount(t, y, c, b);
      |x| == |rModel| == |rBase| == Samples(n - window, Step(window), 0)
    ensures var n := RollingCount(t, y, c, b); var step := Step(window);
      forall j :: 0 <= j < |x| ==> (j * step + window < n &&
        (x[j], rModel[j], rBase[j]) == Point(t, y, c, b, window, rmse, j * step))
  {
    var n := RollingCount(t, y, c, b);
    var step := Step(window);
    x, rModel, rBase := [], [], [];
    var i, k := 0, 0;
    while i < n - window
      invariant i == k * step
      invariant k + Samples(n - window, step, i) == Samples(n - window, step, 0)
      invariant |x| == |rModel| == |rBase| == k
      invariant forall j :: 0 <= j < k ==> (j * step + window < n &&
        (x[j], rModel[j], rBase[j]) == Point(t, y, c, b, window, rmse, j * step))
      decreases n - window - i
    {
      var p := Point(t, y, c, b, window, rmse, i);
      x, rModel, rBase := x + [p.0], rModel + [p.1], rBase + [p.2];
      MulSucc(k, step);
      i, k := i + step, k + 1;
    }
  }

  /** A window start is plotted exactly when the window ends inside the data, and the
      first window is plotted whenever the data is longer than the window. */
  lemma {:induction false} RollingStarts(n: nat, window: nat, j: nat)
    ensures j < Samples(n - window, Step(window), 0) <==> j * Step(window) + window < n
    ensures Samples(n - window, Step(window), 0) > 0 <==> window < n
  {
    SampleExists(n - window, Step(window), j);
    SampleExists(n - window, Step(window), 0);
  }

  // ---------------------------------------------------------------------------
  // Residuals
  // ---------------------------------------------------------------------------

  /** `a - b` on two coerced values: `NaN` when either is not a number. */
  function Minus(a: Option<int>, b: Option<int>): Option<int>
  {
    if a.Some? && b.Some? then Some(a.value - b.value) else None
  }

  datatype ResidualSeries = ResidualSeries(x: seq<XPos<Value>>, resModel: seq<Option<int>>, resBase: seq<Option<int>>)

  /** The number of positions the residual plot aligns. */
  function ResidualCount(h: Heap, timeData: Value, actual: Value, corrected: Value, baseline: Value): nat
  {
    MinIgnoringEmpty(Min(Min(|AsArray(h, actual)|, |AsArray(h, corrected)|), |AsArray(h, baseline)|), |AsArray(h, timeData)|)
  }

  /** The residual plot's series: `n` residuals each, actual minus prediction, and the
      time stamps as x axis when there are exactly `n` of them, indices otherwise. */
  function Residuals(h: Heap, timeData: Value, actual: Value, corrected: Value, baseline: Value): (r: ResidualSeries)
    ensures var n := ResidualCount(h, timeData, actual, corrected, baseline);
      |r.x| == |r.resModel| == |r.resBase| == n
    ensures var n := ResidualCount(h, timeData, actual, corrected, baseline);
      var t, ya, yc, yb := AsArray(h, timeData), AsArray(h, actual), AsArray(h, corrected), AsArray(h, baseline);
      forall i :: 0 <= i < n ==> (
        (r.resModel[i].Some? <==> ToNumber(h, ya[i]).Some? && ToNumber(h, yc[i]).Some?) &&
        (r.resModel[i].Some? ==> r.resModel[i].value + ToNumber(h, yc[i]).value == ToNumber(h, ya[i]).value) &&
        (r.resBase[i].Some? <==> ToNumber(h, ya[i]).Some? && ToNumber(h, yb[i]).Some?) &&
        (r.resBase[i].Some? ==> r.resBase[i].value + ToNumber(h, yb[i]).value == ToNumber(h, ya[i]).value) &&
        r.x[i] == (if |t| == n then Time(t[i]) else Index(i)))
  {
    var t, ya, yc, yb := AsArray(h, timeData), AsArray(h, actual), AsArray(h, corrected), AsArray(h, baseline);
    var n := ResidualCount(h, timeData, actual, corrected, baseline);
    ResidualSeries(Axis(t, n), Differences(h, ya, yc, n), Differences(h, ya, yb, n))
  }

  /** The x axis of `n` positions: the time stamps when there are exactly `n`, indices
      otherwise. */
  function Axis(t: seq<Value>, n: nat): (x: seq<XPos<Value>>)
    ensures |x| == n && forall i :: 0 <= i < n ==> x[i] == (if |t| == n then Time(t[i]) else Index(i))
  {
    if |t| == n then seq(n, (i: nat) requires i < n => Time(t[i])) else seq(n, (i: nat) => Index(i))
  }

  /** `actual[i] - pred[i]` for the first `n` positions: a number exactly where both sides
      coerce to one, and then the one that added to the prediction gives the actual. */
  function Differences(h: Heap, actual: seq<Value>, pred: seq<Value>, n: nat): (r: seq<Option<int>>)
    requires n <= |actual| && n <= |pred|
    ensures |r| == n
    ensures forall i :: 0 <= i < n ==>
      && (r[i].Some? <==> ToNumber(h, actual[i]).Some? && ToNumber(h, pred[i]).Some?)
      && (r[i].Some? ==> r[i].value + ToNumber(h, pred[i]).value == ToNumber(h, actual[i]).value)
  {
    seq(n, (i: nat) requires i < n => Minus(ToNumber(h, actual[i]), ToNumber(h, pred[i])))
  }

  /** A residual is zero exactly where the prediction equals the actual number. */
  lemma {:induction false} ResidualZeroIff(h: Heap, timeData: Value, actual: Value, corrected: Value, baseline: Value, i: nat)
    requires i < ResidualCount(h, timeData, actual, corrected, baseline)
    ensures var ya, yc := AsArray(h, actual), AsArray(h, corrected);
      Residuals(h, timeData, actual, corrected, baseline).resModel[i] == Some(0) <==>
      ToNumber(h, ya[i]).Some? && ToNumber(h, ya[i]) == ToNumber(h, yc[i])
  {
  }
}

=== FILE: results.dfy ===
/** The selection engine of the results page (`ShowResultPage.jsx`): where the normalized
    rows come from, the split and model selectors with their sticky selection, the
    series-bundle cache and the table's split filter.  Each React effect is a pure function
    from the values it reads to the state it sets. */
module ResultPage {
  import opened Wrappers
  import opened Text
  import opened Json
  import opened Seqs
  import opened DeepScan
  import opened ResultService

  /** The keys `getStdRows` looks for. */
  const StdKeys: seq<string> := ["std_analysis.csv", "model_stats_summary.csv", "model_stats_summary"]

  // ---------------------------------------------------------------- row recovery

  /** `getPreferredArray(obj, keys)`: the value of the first listed key that holds an
      array, even an empty one; `null` when none does. */
  function PreferredArray(h: Heap, obj: Value, keys: seq<string>): (r: Option<Value>)
    ensures r.None? <==> forall i :: 0 <= i < |keys| ==> !IsArray(h, Get(h, obj, keys[i]))
    ensures r.Some? ==> IsArray(h, r.value) && exists i :: (0 <= i < |keys| && r.value == Get(h, obj, keys[i]) &&
      forall j :: 0 <= j < i ==> !IsArray(h, Get(h, obj, keys[j])))
  {
    match FirstIndex(KeyValues(h, obj, keys), v => IsArray(h, v))
    case None => None
    case Some(i) => Some(Get(h, obj, keys[i]))
  }

  /** `getPreferredArray(parsed, keys) || getPreferredArray(parsed?.files, keys) ||
      getPreferredArray(parsed?.[dataset], keys)`.  An array is truthy even when empty, so
      an empty array found at one level ends the chain. */
  function PreferredChain(h: Heap, parsed: Value, dataset: string, keys: seq<string>): (r: Option<Value>)
    ensures r.Some? ==> IsArray(h, r.value)
    ensures PreferredArray(h, parsed, keys).Some? ==> r == PreferredArray(h, parsed, keys)
    ensures r.None? ==> forall i :: 0 <= i < |keys| ==>
      !IsArray(h, Get(h, parsed, keys[i])) && !IsArray(h, Get(h, Get(h, parsed, "files"), keys[i])) &&
      !IsArray(h, Get(h, Get(h, parsed, dataset), keys[i]))
  {
    var top := PreferredArray(h, parsed, keys);
    if top.Some? then top
    else
      var files := PreferredArray(h, Get(h, parsed, "files"), keys);
      if files.Some? then files else PreferredArray(h, Get(h, parsed, dataset), keys)
  }

  /** The `source` field of the page's debug record. */
  datatype RowSource = NoRows | PreferredKeys | DeepScanned

  datatype NormDebug = NormDebug(source: RowSource, allCount: nat, filteredCount: nat, usedFiltered: bool)

  /** Steps 1 and 2 of `getNormalizedRowsWithDebug`: a non-empty array from the key chain,
      else whatever the deep scan finds. */
  function UnfilteredRows(h: Heap, parsed: Value, dataset: string): (r: (seq<Value>, RowSource))
    requires Truthy(parsed)
    ensures r.1 == PreferredKeys <==>
      var pref := PreferredChain(h, parsed, dataset, RowKeys); pref.Some? && |Items(h, pref.value)| > 0
    ensures r.1 == PreferredKeys ==> r.0 == Items(h, PreferredChain(h, parsed, dataset, RowKeys).value)
    ensures r.1 != PreferredKeys ==> r.0 == CollectRowsDeep(h, parsed) && (r.1 == NoRows <==> r.0 == [])
  {
    var pref := PreferredChain(h, parsed, dataset, RowKeys);
    if pref.Some? && |Items(h, pref.value)| > 0 then (Items(h, pref.value), PreferredKeys)
    else
      var found := CollectRowsDeep(h, parsed);
      (found, if |found| > 0 then DeepScanned else NoRows)
  }

  /** `eq(r?.dataset_name, dataset)` */
  predicate InDataset(h: Heap, dataset: string, r: Value)
  {
    EqText(h, Get(h, r, "dataset_name"), dataset)
  }

  /** Step 3: keep the rows of `dataset` when it is selected and some row belongs to it;
      otherwise keep every row.  Returns the rows, `filteredCount` and `usedFiltered`. */
  function DatasetFilter(h: Heap, rows: seq<Value>, dataset: string): (r: (seq<Value>, nat, bool))
    ensures dataset == "" ==> r == (rows, 0, false)
    ensures r.1 <= |rows|
    ensures r.2 <==> dataset != "" && exists i :: 0 <= i < |rows| && InDataset(h, dataset, rows[i])
    ensures r.2 ==> (r.1 == |r.0| && IsSubseq(r.0, rows) &&
      forall x :: x in r.0 <==> x in rows && InDataset(h, dataset, x))
    ensures r.2 ==> forall x :: Count(r.0, x) == if InDataset(h, dataset, x) then Count(rows, x) else 0
    ensures !r.2 ==> r.0 == rows && r.1 == 0
  {
    if dataset == "" then (rows, 0, false)
    else
      var f := DatasetRows(h, rows, dataset);
      if |f| > 0 then (f, |f|, true) else (rows, 0, false)
  }

  /** `rows.filter((r) => eq(r?.dataset_name, dataset))` */
  function DatasetRows(h: Heap, rows: seq<Value>, dataset: string): (r: seq<Value>)
    ensures |r| > 0 <==> exists i :: 0 <= i < |rows| && InDataset(h, dataset, rows[i])
    ensures IsSubseq(r, rows) && forall x :: x in r <==> x in rows && InDataset(h, dataset, x)
    ensures forall x :: Count(r, x) == if InDataset(h, dataset, x) then Count(rows, x) else 0
  {
    var inDataset := (x: Value) => InDataset(h, dataset, x);
    FilterNonEmpty(inDataset, rows);
    Filter(inDataset, rows)
  }

  /** `getNormalizedRowsWithDebug(parsed, dataset)` */
  function NormalizedRows(h: Heap, parsed: Value, dataset: string): (r: (seq<Value>, NormDebug))
    ensures !Truthy(parsed) ==> r == ([], NormDebug(NoRows, 0, 0, false))
    ensures r.1.filteredCount <= r.1.allCount && |r.0| <= r.1.allCount
    ensures !r.1.usedFiltered ==> |r.0| == r.1.allCount
    ensures r.1.usedFiltered ==> |r.0| == r.1.filteredCount && forall i :: 0 <= i < |r.0| ==> InDataset(h, dataset, r.0[i])
    ensures r.1.source == DeepScanned ==> forall i :: 0 <= i < |r.0| ==> IsRow(h, r.0[i])
    ensures r.1.source == NoRows ==> r.0 == []
    ensures Truthy(parsed) ==> var (all, src) := UnfilteredRows(h, parsed, dataset);
      r.1.source == src && IsSubseq(r.0, all) && (forall x :: x in r.0 ==> x in all)
    ensures Truthy(parsed) ==> var all := UnfilteredRows(h, parsed, dataset).0;
      && r.1.allCount == |all|
      && (r.1.usedFiltered <==> dataset != "" && exists i :: 0 <= i < |all| && InDataset(h, dataset, all[i]))
      && (!r.1.usedFiltered ==> r.0 == all && r.1.filteredCount == 0)
      && (r.1.usedFiltered ==> forall x :: Count(r.0, x) == if InDataset(h, dataset, x) then Count(all, x) else 0)
  {
    if !Truthy(parsed) then ([], NormDebug(NoRows, 0, 0, false))
    else
      var (all, src) := UnfilteredRows(h, parsed, dataset);
      var (kept, count, used) := DatasetFilter(h, all, dataset);
      DatasetFilterKeeps(h, all, dataset);
      assert src == DeepScanned ==> forall i :: 0 <= i < |kept| ==> IsRow(h, kept[i]) by {
        if src == DeepScanned {
          KeptAreRows(h, all, kept);
        }
      }
      (kept, NormDebug(src, |all|, count, used))
  }

  /** The dataset filter returns rows of its input, in order, and when it filters they
      belong to the dataset. */
  lemma {:induction false} DatasetFilterKeeps(h: Heap, rows: seq<Value>, dataset: string)
    ensures var (kept, _, used) := DatasetFilter(h, rows, dataset);
      && IsSubseq(kept, rows) && (forall x :: x in kept ==> x in rows)
      && (used ==> forall i :: 0 <= i < |kept| ==> InDataset(h, dataset, kept[i]))
  {
    var (kept, _, used) := DatasetFilter(h, rows, dataset);
    if !used {
      SubseqRefl(rows);
    } else {
      forall i | 0 <= i < |kept| ensures InDataset(h, dataset, kept[i]) {
        assert kept[i] in kept;
      }
    }
  }

  /** Values taken from a sequence of rows are rows. */
  lemma {:induction false} KeptAreRows(h: Heap, all: seq<Value>, kept: seq<Value>)
    requires forall i :: 0 <= i < |all| ==> IsRow(h, all[i])
    requires forall x :: x in kept ==> x in all
    ensures forall i :: 0 <= i < |kept| ==> IsRow(h, kept[i])
  {
    forall i | 0 <= i < |kept| ensures IsRow(h, kept[i]) {
      assert kept[i] in kept;
      var j :| 0 <= j < |all| && all[j] == kept[i];
    }
  }

  /** Every sequence is a subsequence of itself. */
  lemma {:induction false} SubseqRefl(s: seq<Value>)
    ensures IsSubseq(s, s)
    decreases |s|
  {
    if |s| > 0 {
      SubseqRefl(s[1..]);
    }
  }

  /** An empty array under a top-level alias stops the key chain, so the rows come from the
      deep scan even when `files` or `[dataset]` hold rows. */
  lemma {:induction false} EmptyAliasFallsToDeepScan(h: Heap, parsed: Value, dataset: string)
    requires Truthy(parsed)
    requires var top := PreferredArray(h, parsed, RowKeys); top.Some? && Items(h, top.value) == []
    ensures UnfilteredRows(h, parsed, dataset).0 == CollectRowsDeep(h, parsed)
    ensures UnfilteredRows(h, parsed, dataset).1 != PreferredKeys
  {
  }

  /** `"std" in r || "mean" in r` */
  predicate HasStats(h: Heap, r: Value)
  {
    Has(h, r, "std") || Has(h, r, "mean")
  }

  /** `rows.filter((r) => "std" in r || "mean" in r)` */
  function StatRows(h: Heap, rows: seq<Value>): (r: seq<Value>)
    ensures forall x :: x in r <==> x in rows && HasStats(h, x)
    ensures IsSubseq(r, rows)
  {
    Filter(x => HasStats(h, x), rows)
  }

  /** `getStdRows(parsed, dataset)`: the statistics table from its own key chain, else the
      deep-scanned rows that carry `std` or `mean`; then the same dataset filter. */
  function StdRows(h: Heap, parsed: Value, dataset: string): (r: seq<Value>)
    ensures !Truthy(parsed) ==> r == []
    ensures Truthy(parsed) ==> var pref := PreferredChain(h, parsed, dataset, StdKeys);
      var base := if pref.Some? && |Items(h, pref.value)| > 0 then Items(h, pref.value)
                  else StatRows(h, CollectRowsDeep(h, parsed));
      r == DatasetFilter(h, base, dataset).0 && forall x :: x in r ==> x in base
    ensures (Truthy(parsed) && !(PreferredChain(h, parsed, dataset, StdKeys).Some? &&
      |Items(h, PreferredChain(h, parsed, dataset, StdKeys).value)| > 0)) ==>
      forall i :: 0 <= i < |r| ==> IsRow(h, r[i]) && HasStats(h, r[i])
  {
    if !Truthy(parsed) then []
    else
      var pref := PreferredChain(h, parsed, dataset, StdKeys);
      var base := if pref.Some? && |Items(h, pref.value)| > 0 then Items(h, pref.value)
                  else StatRows(h, CollectRowsDeep(h, parsed));
      var r := DatasetFilter(h, base, dataset).0;
      assert forall x :: x in r ==> x in base;
      assert !(pref.Some? && |Items(h, pref.value)| > 0) ==> forall i :: 0 <= i < |r| ==> IsRow(h, r[i]) && HasStats(h, r[i]) by {
        if !(pref.Some? && |Items(h, pref.value)| > 0) {
          var deep := CollectRowsDeep(h, parsed);
          forall i | 0 <= i < |r| ensures IsRow(h, r[i]) && HasStats(h, r[i]) {
            assert r[i] in base;
            assert r[i] in deep;
            var j :| 0 <= j < |deep| && deep[j] == r[i];
          }
        }
      }
      r
  }

  /** When neither key chain holds a non-empty array and no dataset is selected, the
      statistics rows are exactly the normalized rows that carry `std` or `mean`: both
      views then read the same deep scan. */
  lemma {:induction false} StdRowsAreStatNormalizedRows(h: Heap, parsed: Value)
    requires Truthy(parsed)
    requires var pref := PreferredChain(h, parsed, "", StdKeys); !(pref.Some? && |Items(h, pref.value)| > 0)
    requires var pref := PreferredChain(h, parsed, "", RowKeys); !(pref.Some? && |Items(h, pref.value)| > 0)
    ensures StdRows(h, parsed, "") == StatRows(h, NormalizedRows(h, parsed, "").0)
  {
    var (all, src) := UnfilteredRows(h, parsed, "");
    assert all == CollectRowsDeep(h, parsed);
    assert NormalizedRows(h, parsed, "").0 == all;
  }

  /** A non-empty statistics table is never emptied by the dataset filter, and when some of
      its rows belong to the selected dataset only those are kept. */
  lemma {:induction false} StdRowsDatasetFilter(h: Heap, parsed: Value, dataset: string)
    requires Truthy(parsed)
    ensures var pref := PreferredChain(h, parsed, dataset, StdKeys);
      var base := if pref.Some? && |Items(h, pref.value)| > 0 then Items(h, pref.value)
                  else StatRows(h, CollectRowsDeep(h, parsed));
      && (|base| > 0 ==> |StdRows(h, parsed, dataset)| > 0)
      && ((dataset != "" && exists x :: x in base && InDataset(h, dataset, x)) ==>
            forall x :: x in StdRows(h, parsed, dataset) <==> x in base && InDataset(h, dataset, x))
  {
    var pref := PreferredChain(h, parsed, dataset, StdKeys);
    var base := if pref.Some? && |Items(h, pref.value)| > 0 then Items(h, pref.value)
                else StatRows(h, CollectRowsDeep(h, parsed));
    DatasetFilterNeverEmpties(h, base, dataset);
  }

  /** The dataset filter keeps a non-empty list non-empty, and filters exactly when some
      row belongs to the selected dataset. */
  lemma {:induction false} DatasetFilterNeverEmpties(h: Heap, rows: seq<Value>, dataset: string)
    ensures |rows| > 0 ==> |DatasetFilter(h, rows, dataset).0| > 0
    ensures (dataset != "" && exists x :: x in rows && InDataset(h, dataset, x)) ==>
      forall x :: x in DatasetFilter(h, rows, dataset).0 <==> x in rows && InDataset(h, dataset, x)
  {
    var f := DatasetFilter(h, rows, dataset);
    if |rows| > 0 && f.2 {
      var i :| 0 <= i < |rows| && InDataset(h, dataset, rows[i]);
      assert rows[i] in f.0;
    }
    if dataset != "" && exists x :: x in rows && InDataset(h, dataset, x) {
      var x :| x in rows && InDataset(h, dataset, x);
      var i :| 0 <= i < |rows| && rows[i] == x;
    }
  }

  // ---------------------------------------------------------------- split and model selectors

  /** `uniq(rows.map(r => s(r?.split_id)).filter(Boolean))` */
  function SplitsFromRows(h: Heap, rows: seq<Value>): (r: seq<string>)
    ensures r == DistinctNonEmpty(SplitsOfRows(h, rows))
  {
    var r := Dedup(Filter(NonEmpty, SplitsOfRows(h, rows)));
    FilterDedupCommute(NonEmpty, SplitsOfRows(h, rows));
    r
  }

  /** The page's split list and the service's `deriveSplits` agree on the same row array. */
  lemma {:induction false} SplitListsAgree(h: Heap, arr: Value)
    requires IsArray(h, arr)
    ensures DeriveSplits(h, arr) == Some(SplitsFromRows(h, Items(h, arr)))
  {
  }

  /** `Object.keys(v || {})`: array indices then named properties for an array, the named
      properties of an object, the indices of a non-empty string, nothing otherwise. */
  function ObjectKeys(h: Heap, v: Value): (r: seq<string>)
    ensures IsPlainObject(h, v) ==> |r| == |h[v.id].props| && forall i :: 0 <= i < |r| ==> r[i] == h[v.id].props[i].0
    ensures v.Str? ==> |r| == |v.s| && forall i :: 0 <= i < |r| ==> r[i] == NatToString(i)
    ensures !IsObject(h, v) && !v.Str? ==> r == []
  {
    match v
    case Str(s) => seq(|s|, i requires 0 <= i < |s| => NatToString(i))
    case Ref(id) =>
      if id < |h| then
        var n := h[id];
        var names := seq(|n.props|, i requires 0 <= i < |n.props| => n.props[i].0);
        if n.Arr? then seq(|n.items|, i requires 0 <= i < |n.items| => NatToString(i)) + names else names
      else []
    case _ => []
  }

  /** Lines 274-276: `parsedResults.splits` mapped through `s` when it is an array, else its keys. */
  function ApiSplits(h: Heap, parsed: Value): (r: seq<string>)
    ensures var sp := Get(h, parsed, "splits");
      IsArray(h, sp) ==> |r| == |Items(h, sp)| && forall i :: 0 <= i < |r| ==> r[i] == S(h, Items(h, sp)[i])
    ensures var sp := Get(h, parsed, "splits");
      IsPlainObject(h, sp) ==> |r| == |h[sp.id].props| && forall i :: 0 <= i < |r| ==> r[i] == Trim(h[sp.id].props[i].0)
    ensures var sp := Get(h, parsed, "splits");
      sp.Str? ==> |r| == |sp.s| && forall i :: 0 <= i < |r| ==> r[i] == NatToString(i)
    ensures !Truthy(Get(h, parsed, "splits")) ==> r == []
  {
    var sp := Get(h, parsed, "splits");
    if IsArray(h, sp) then
      var vs := Items(h, sp);
      seq(|vs|, i requires 0 <= i < |vs| => S(h, vs[i]))
    else
      var ks := ObjectKeys(h, sp);
      assert sp.Str? ==> forall i :: 0 <= i < |ks| ==> S(h, Str(ks[i])) == ks[i] by {
        if sp.Str? {
          forall i | 0 <= i < |ks| ensures S(h, Str(ks[i])) == ks[i] {
            DigitsUntrimmed(ks[i]);
          }
        }
      }
      seq(|ks|, i requires 0 <= i < |ks| => S(h, Str(ks[i])))
  }

  /** Trimming leaves a run of digits as it is. */
  lemma {:induction false} DigitsUntrimmed(s: string)
    requires |s| > 0 && AllDigits(s)
    ensures Trim(s) == s
  {
    assert !IsSpace(s[0]) && !IsSpace(s[|s| - 1]);
  }

  /** The functional update `prev => prev && list.includes(prev) ? prev : list[0] || ""`. */
  function Sticky(prev: string, list: seq<string>): (r: string)
    ensures prev != "" && prev in list ==> r == prev
    ensures r == "" || r in list
    ensures r != prev ==> r == (if |list| > 0 then list[0] else "")
  {
    if prev != "" && prev in list then prev else if |list| > 0 then list[0] else ""
  }

  /** Re-applying the update to its own result changes nothing. */
  lemma {:induction false} StickyIdempotent(prev: string, list: seq<string>)
    ensures Sticky(Sticky(prev, list), list) == Sticky(prev, list)
  {
  }

  /** Effect 3: the split list and the selected split. */
  function ResolveSplits(h: Heap, rows: seq<Value>, parsed: Value, prev: string): (r: (seq<string>, string))
    ensures var fromNorm := SplitsFromRows(h, rows);
      |fromNorm| > 0 ==> r.0 == fromNorm && Distinct(r.0) && forall x :: x in r.0 <==> x in SplitsOfRows(h, rows) && x != ""
    ensures |SplitsFromRows(h, rows)| == 0 ==> r.0 == ApiSplits(h, parsed)
    ensures r.1 == "" || r.1 in r.0
    ensures r.0 == [] ==> r.1 == ""
    ensures prev != "" && prev in r.0 ==> r.1 == prev
    ensures r.0 != [] && !(prev != "" && prev in r.0) ==> r.1 == r.0[0]
  {
    var fromNorm := SplitsFromRows(h, rows);
    var final := if |fromNorm| > 0 then fromNorm else ApiSplits(h, parsed);
    if |final| == 0 then ([], "") else (final, Sticky(prev, final))
  }

  /** Running the split effect again with its own selection leaves everything as it is. */
  lemma {:induction false} ResolveSplitsStable(h: Heap, rows: seq<Value>, parsed: Value, prev: string)
    ensures var r := ResolveSplits(h, rows, parsed, prev);
      ResolveSplits(h, rows, parsed, r.1) == r
  {
    StickyIdempotent(prev, ResolveSplits(h, rows, parsed, prev).0);
  }

  /** `s(r?.model)` */
  function ModelOf(h: Heap, r: Value): string
  {
    S(h, Get(h, r, "model"))
  }

  /** `String(r?.category || "").toLowerCase() !== "baseline"`: untrimmed. */
  predicate NotBaseline(h: Heap, r: Value)
  {
    ToLower(ToStr(h, Or(Get(h, r, "category"), Str("")))) != "baseline"
  }

  /** The row filter of effect 4. */
  predicate ModelRow(h: Heap, split: string, r: Value)
  {
    EqText(h, Get(h, r, "split_id"), split) && NotBaseline(h, r)
  }

  function ModelsOfRows(h: Heap, rows: seq<Value>): (r: seq<string>)
    ensures |r| == |rows| && forall i :: 0 <= i < |rows| ==> r[i] == ModelOf(h, rows[i])
  {
    seq(|rows|, i requires 0 <= i < |rows| => ModelOf(h, rows[i]))
  }

  /** Lines 318-322: `parsedResults.splits[split]`, mapped through `s`, when it is an array. */
  function AltModels(h: Heap, parsed: Value, split: string): (r: seq<string>)
    ensures var alt := Get(h, Get(h, parsed, "splits"), split);
      (IsArray(h, alt) ==> |r| == |Items(h, alt)| && forall i :: 0 <= i < |r| ==> r[i] == S(h, Items(h, alt)[i])) &&
      (!IsArray(h, alt) ==> r == [])
  {
    var alt := Get(h, Get(h, parsed, "splits"), split);
    var vs := AsArray(h, alt);
    seq(|vs|, i requires 0 <= i < |vs| => S(h, vs[i]))
  }

  /** Line 322: `uniq(alt.map(s)).filter(Boolean)`, the per-split list of the API's
      `splits` object with repeats and empty names dropped, in first-seen order. */
  function ApiModels(h: Heap, parsed: Value, split: string): (r: seq<string>)
    ensures Distinct(r)
    ensures var alt := AltModels(h, parsed, split);
      && (forall m :: m in r <==> m in alt && m != "")
      && (forall k :: 0 <= k < |r| ==> r[k] in alt)
      && (forall i, j :: 0 <= i < j < |r| ==> IndexOf(alt, r[i]) < IndexOf(alt, r[j]))
  {
    DistinctNonEmpty(AltModels(h, parsed, split))
  }

  /** Lines 307-311: the rows of `split` that are not baseline rows, in their order. */
  function SplitModelRows(h: Heap, rows: seq<Value>, split: string): (r: seq<Value>)
    ensures forall x :: x in r <==> x in rows && ModelRow(h, split, x)
    ensures IsSubseq(r, rows)
  {
    Filter(x => ModelRow(h, split, x), rows)
  }

  /** The models the rows of `split` name, each once, in the order in which those rows
      first name them. */
  function RowModels(h: Heap, rows: seq<Value>, split: string): (r: seq<string>)
    ensures Distinct(r)
    ensures forall m :: m in r <==> m != "" && exists i :: 0 <= i < |rows| && ModelRow(h, split, rows[i]) && ModelOf(h, rows[i]) == m
    ensures var ms := ModelsOfRows(h, SplitModelRows(h, rows, split));
      (forall k :: 0 <= k < |r| ==> r[k] in ms) &&
      forall i, j :: 0 <= i < j < |r| ==> IndexOf(ms, r[i]) < IndexOf(ms, r[j])
  {
    var r := DistinctNonEmpty(ModelsOfRows(h, SplitModelRows(h, rows, split)));
    RowModelsMembers(h, rows, split, r);
    r
  }

  lemma {:induction false} RowModelsMembers(h: Heap, rows: seq<Value>, split: string, r: seq<string>)
    requires forall m :: m in r <==> m in ModelsOfRows(h, SplitModelRows(h, rows, split)) && m != ""
    ensures forall m :: m in r <==> m != "" && exists i :: 0 <= i < |rows| && ModelRow(h, split, rows[i]) && ModelOf(h, rows[i]) == m
  {
    forall m
      ensures m in r <==> m != "" && exists i :: 0 <= i < |rows| && ModelRow(h, split, rows[i]) && ModelOf(h, rows[i]) == m
    {
      RowModelsMember(h, rows, split, SplitModelRows(h, rows, split), m);
    }
  }

  lemma {:induction false} RowModelsMember(h: Heap, rows: seq<Value>, split: string, forSplit: seq<Value>, m: string)
    requires forSplit == SplitModelRows(h, rows, split)
    ensures m in ModelsOfRows(h, forSplit) <==> exists i :: 0 <= i < |rows| && ModelRow(h, split, rows[i]) && ModelOf(h, rows[i]) == m
  {
    var ms := ModelsOfRows(h, forSplit);
    if m in ms {
      var k :| 0 <= k < |ms| && ms[k] == m;
      FilteredComesFrom(h, rows, split, forSplit, k);
    }
    if exists i :: 0 <= i < |rows| && ModelRow(h, split, rows[i]) && ModelOf(h, rows[i]) == m {
      var i :| 0 <= i < |rows| && ModelRow(h, split, rows[i]) && ModelOf(h, rows[i]) == m;
      RowReachesFiltered(h, rows, split, forSplit, i);
    }
  }

  lemma {:induction false} RowReachesFiltered(h: Heap, rows: seq<Value>, split: string, forSplit: seq<Value>, i: nat)
    requires forSplit == SplitModelRows(h, rows, split)
    requires i < |rows| && ModelRow(h, split, rows[i])
    ensures ModelOf(h, rows[i]) in ModelsOfRows(h, forSplit)
  {
    assert rows[i] in forSplit;
    ModelsOfRowsMember(h, forSplit, rows[i]);
  }

  lemma {:induction false} ModelsOfRowsMember(h: Heap, xs: seq<Value>, x: Value)
    requires x in xs
    ensures ModelOf(h, x) in ModelsOfRows(h, xs)
  {
    var k := IndexOf(xs, x);
    assert ModelsOfRows(h, xs)[k] == ModelOf(h, x);
  }

  lemma {:induction false} FilteredComesFrom(h: Heap, rows: seq<Value>, split: string, forSplit: seq<Value>, k: nat)
    requires forSplit == SplitModelRows(h, rows, split)
    requires k < |forSplit|
    ensures exists i :: 0 <= i < |rows| && ModelRow(h, split, rows[i]) && rows[i] == forSplit[k]
  {
    assert forSplit[k] in forSplit;
    var i :| 0 <= i < |rows| && rows[i] == forSplit[k];
  }

  /** Effect 4: the models offered for the selected split and the selected model. */
  function ResolveModels(h: Heap, rows: seq<Value>, parsed: Value, split: string, prev: string): (r: (seq<string>, string))
    ensures split == "" ==> r == ([], "")
    ensures Distinct(r.0) && forall m :: m in r.0 ==> m != ""
    ensures split != "" && |RowModels(h, rows, split)| > 0 ==> r.0 == RowModels(h, rows, split)
    ensures split != "" && |RowModels(h, rows, split)| == 0 ==> r.0 == ApiModels(h, parsed, split)
    ensures r.1 == "" || r.1 in r.0
    ensures prev != "" && prev in r.0 ==> r.1 == prev
    ensures split != "" && !(prev != "" && prev in r.0) ==> r.1 == (if |r.0| > 0 then r.0[0] else "")
  {
    if split == "" then ([], "")
    else
      var fromRows := RowModels(h, rows, split);
      if |fromRows| > 0 then (fromRows, Sticky(prev, fromRows))
      else
        var models := ApiModels(h, parsed, split);
        (models, Sticky(prev, models))
  }

  /** A row whose category is `baseline` in any letter case never puts its model in the list
      derived from the rows, however its split matches. */
  lemma {:induction false} BaselineRowsExcluded(h: Heap, rows: seq<Value>, split: string)
    requires forall i :: 0 <= i < |rows| ==> ToLower(ToStr(h, Or(Get(h, rows[i], "category"), Str("")))) == "baseline"
    ensures RowModels(h, rows, split) == []
  {
  }

  /** Running the model effect again with its own selection leaves everything as it is. */
  lemma {:induction false} ResolveModelsStable(h: Heap, rows: seq<Value>, parsed: Value, split: string, prev: string)
    ensures var r := ResolveModels(h, rows, parsed, split, prev);
      ResolveModels(h, rows, parsed, split, r.1) == r
  {
    if split != "" {
      StickyIdempotent(prev, ResolveModels(h, rows, parsed, split, prev).0);
    }
  }

  // ---------------------------------------------------------------- table rows

  /** `normalizedFiltered`: the rows of the selected split, or all rows when none is selected. */
  function NormalizedFiltered(h: Heap, rows: seq<Value>, split: string): (r: seq<Value>)
    ensures split == "" ==> r == rows
    ensures split != "" ==> (IsSubseq(r, rows) &&
      forall x :: x in r <==> x in rows && EqText(h, Get(h, x, "split_id"), split))
    ensures split != "" ==>
      forall x :: Count(r, x) == if EqText(h, Get(h, x, "split_id"), split) then Count(rows, x) else 0
  {
    if split == "" then rows else Filter(x => EqText(h, Get(h, x, "split_id"), split), rows)
  }

  /** Every row the model selector looks at is also shown in the table. */
  lemma {:induction false} ModelRowsShownInTable(h: Heap, rows: seq<Value>, split: string, x: Value)
    requires x in rows && ModelRow(h, split, x)
    ensures x in NormalizedFiltered(h, rows, split)
  {
  }

  // ---------------------------------------------------------------- dataset list

  /** What `fetchDatasets(folderName)` gave: it threw, it resolved to something that is not
      an array, or it resolved to a list of dataset names. */
  datatype DatasetsResponse = DatasetsThrew | NotAnArray | DatasetList(names: seq<string>)

  /** Effect 1 (lines 198-216): nothing happens without a run id or when the request throws
      (the `catch` only logs); otherwise the list becomes the response when it is an array
      and `[]` when it is not, and the first entry is selected only when nothing was
      selected yet.  Returns the dataset list and the selected dataset. */
  function DatasetsLoaded(folderName: string, response: DatasetsResponse, datasets: seq<string>, selected: string): (r: (seq<string>, string))
    ensures folderName == "" || response.DatasetsThrew? ==> r == (datasets, selected)
    ensures folderName != "" && response.NotAnArray? ==> r == ([], selected)
    ensures folderName != "" && response.DatasetList? ==> r.0 == response.names
    ensures selected != "" ==> r.1 == selected
    ensures folderName != "" && response.DatasetList? && selected == "" && |response.names| > 0 ==>
      r.1 == response.names[0]
    ensures r.1 == selected || r.1 in r.0
  {
    if folderName == "" then (datasets, selected)
    else match response
      case DatasetsThrew => (datasets, selected)
      case NotAnArray => ([], selected)
      case DatasetList(list) => (list, if |list| > 0 && selected == "" then list[0] else selected)
  }

  /** Applying the effect to the state it produced, with the same response, changes nothing:
      the list is already the response and the selection is already made. */
  lemma {:induction false} DatasetsLoadedStable(folderName: string, response: DatasetsResponse, datasets: seq<string>, selected: string)
    ensures var r := DatasetsLoaded(folderName, response, datasets, selected);
      DatasetsLoaded(folderName, response, r.0, r.1) == r
  {
  }

  /** A request that fails leaves the list and the selection exactly as they were, whatever
      they were, while a non-array answer clears the list but never the selection. */
  lemma {:induction false} DatasetsFailureKeepsState(folderName: string, datasets: seq<string>, selected: string)
    ensures DatasetsLoaded(folderName, DatasetsThrew, datasets, selected) == (datasets, selected)
    ensures folderName != "" ==> DatasetsLoaded(folderName, NotAnArray, datasets, selected).1 == selected
  {
  }

  // ---------------------------------------------------------------- series cache

  /** The four series of one bundle; `None` is the literal `[]` default. */
  datatype Series = Series(h: Heap, actual: Option<Value>, baseline: Option<Value>,
                           corrected: Option<Value>, timeData: Option<Value>)

  /** `a ?? b ?? …`: the first value that is neither `null` nor `undefined`. */
  function FirstDefined(vs: seq<Value>): (r: Option<Value>)
    ensures r.None? <==> forall i :: 0 <= i < |vs| ==> vs[i].Undef? || vs[i].Null?
    ensures r.Some? ==> exists i :: (0 <= i < |vs| && r.value == vs[i] && !(vs[i].Undef? || vs[i].Null?) &&
      forall j :: 0 <= j < i ==> vs[j].Undef? || vs[j].Null?)
  {
    match FirstIndex(vs, (v: Value) => !(v.Undef? || v.Null?))
    case None => None
    case Some(i) => Some(vs[i])
  }

  /** Lines 369-377: the series taken from a bundle for `model`. */
  function BundleSeries(h: Heap, b: Value, model: string): (r: Series)
    ensures r.corrected == FirstDefined([Get(h, Get(h, Get(h, b, "predictions"), model), "corrected"), Get(h, b, "corrected")])
    ensures r.actual == FirstDefined([Get(h, b, "y_test"), Get(h, b, "y_test_actual")])
    ensures r.timeData == FirstDefined([Get(h, b, "x_test"), Get(h, b, "time_test")])
    ensures r.baseline == FirstDefined([Get(h, b, "baseline")])
  {
    Series(h,
      FirstDefined([Get(h, b, "y_test"), Get(h, b, "y_test_actual")]),
      FirstDefined([Get(h, b, "baseline")]),
      FirstDefined([Get(h, Get(h, Get(h, b, "predictions"), model), "corrected"), Get(h, b, "corrected")]),
      FirstDefined([Get(h, b, "x_test"), Get(h, b, "time_test")]))
  }

  /** A model's own corrected series wins over the top-level one whenever it is present. */
  lemma {:induction false} PerModelCorrectedWins(h: Heap, b: Value, model: string)
    requires var own := Get(h, Get(h, Get(h, b, "predictions"), model), "corrected"); !(own.Undef? || own.Null?)
    ensures BundleSeries(h, b, model).corrected == Some(Get(h, Get(h, Get(h, b, "predictions"), model), "corrected"))
  {
  }

  /** `${dataset}|${split}|${model}` */
  function CacheKey(dataset: string, split: string, model: string): (k: string)
    ensures |k| == |dataset| + |split| + |model| + 2
    ensures k[..|dataset|] == dataset && k[|dataset|] == '|'
    ensures k[|dataset| + 1..|dataset| + 1 + |split|] == split && k[|dataset| + 1 + |split|] == '|'
    ensures k[|dataset| + |split| + 2..] == model
  {
    dataset + "|" + split + "|" + model
  }

  predicate NoBar(t: string)
  {
    forall i :: 0 <= i < |t| ==> t[i] != '|'
  }

  /** Two selections share a cache entry only if they are the same selection, as long as
      the dataset and split names contain no `|`. */
  lemma {:induction false} CacheKeyInjective(d1: string, s1: string, m1: string, d2: string, s2: string, m2: string)
    requires NoBar(d1) && NoBar(s1) && NoBar(d2) && NoBar(s2)
    requires CacheKey(d1, s1, m1) == CacheKey(d2, s2, m2)
    ensures d1 == d2 && s1 == s2 && m1 == m2
  {
    var k := CacheKey(d1, s1, m1);
    assert |d1| == |d2|;
    assert d1 == k[..|d1|] == d2;
    var o := |d1| + 1;
    assert |s1| == |s2|;
    assert s1 == k[o..o + |s1|] == s2;
  }

  /** With a `|` inside a name two different selections do share a key. */
  lemma {:induction false} CacheKeyCollision()
    ensures CacheKey("a|b", "c", "m") == CacheKey("a", "b|c", "m")
  {
  }

  datatype BundleOutcome = BundleThrows | BundleData(h: Heap, v: Value)

  /** The page state effect 5 reads and writes. */
  datatype SeriesState = SeriesState(cache: map<string, Series>, shown: Option<Series>, loading: bool)

  /** The query effect 5 sends: the one selected model, `maxPoints` 0, `keepFraction` 0.5. */
  function SeriesRequest(model: string): (q: Query)
    requires model != ""
    ensures q == [("models", model), ("maxPoints", "0"), ("keepFraction", "0.5")]
  {
    var q := SeriesQuery(Many([model]), 0, Some("0.5"));
    assert Filter(NonEmpty, [model]) == [model];
    assert IntToString(0) == "0";
    q
  }

  /** Effect 5.  Returns the new state and the request made, if any.  `cancelled` says
      whether the selection changed before the request completed. */
  function SeriesEffect(st: SeriesState, dataset: string, split: string, model: string,
                        outcome: BundleOutcome, cancelled: bool): (r: (SeriesState, Option<Query>))
    ensures dataset == "" || split == "" || model == "" ==>
      r.0 == st.(shown := None) && r.1.None?
    ensures dataset != "" && split != "" && model != "" && CacheKey(dataset, split, model) in st.cache ==>
      r.0 == st.(shown := Some(st.cache[CacheKey(dataset, split, model)])) && r.1.None?
    ensures dataset != "" && split != "" && model != "" && CacheKey(dataset, split, model) !in st.cache ==>
      r.1 == Some(SeriesRequest(model))
    ensures cancelled ==> r.0.cache == st.cache && (r.1.Some? ==> r.0.shown == st.shown && r.0.loading)
    ensures r.1.Some? && !cancelled ==> !r.0.loading
    ensures r.1.Some? && !cancelled && outcome.BundleThrows? ==> r.0.cache == st.cache && r.0.shown.None?
    ensures r.1.Some? && !cancelled && outcome.BundleData? ==>
      var s := BundleSeries(outcome.h, outcome.v, model);
      r.0.shown == Some(s) && r.0.cache == st.cache[CacheKey(dataset, split, model) := s]
  {
    if dataset == "" || split == "" || model == "" then (st.(shown := None), None)
    else
      var key := CacheKey(dataset, split, model);
      if key in st.cache then (st.(shown := Some(st.cache[key])), None)
      else
        var req := Some(SeriesRequest(model));
        if cancelled then (st.(loading := true), req)
        else match outcome
          case BundleThrows => (SeriesState(st.cache, None, false), req)
          case BundleData(h, b) =>
            var s := BundleSeries(h, b, model);
            (SeriesState(st.cache[key := s], Some(s), false), req)
  }

  /** Entries are only ever added: an existing entry is never replaced or dropped. */
  lemma {:induction false} CacheOnlyGrows(st: SeriesState, dataset: string, split: string, model: string,
                       outcome: BundleOutcome, cancelled: bool)
    ensures var r := SeriesEffect(st, dataset, split, model, outcome, cancelled).0;
      forall k :: k in st.cache ==> k in r.cache && r.cache[k] == st.cache[k]
  {
  }

  /** After a completed fetch, revisiting the same selection is served from the cache
      without a request, whatever a second fetch would have returned. */
  lemma {:induction false} SecondVisitHitsCache(st: SeriesState, dataset: string, split: string, model: string,
                             outcome: BundleOutcome, later: BundleOutcome, cancelled: bool)
    requires dataset != "" && split != "" && model != ""
    requires outcome.BundleData?
    ensures var first := SeriesEffect(st, dataset, split, model, outcome, false).0;
      var second := SeriesEffect(first, dataset, split, model, later, cancelled);
      second.1.None? && second.0.shown == first.shown && second.0.cache == first.cache
  {
  }
}

=== FILE: runall.dfy ===
/** The run-configuration page (`RunAllPage.jsx`): which datasets, models and train/test
    pairs are selected, how each control changes that selection, and when a run may be
    posted.  The request and the navigation are outcomes given to the model. */
module RunAll {
  import opened Wrappers
  import opened Text
  import opened Seqs

  // ---------------------------------------------------------------------------
  // Toggling one dataset or one model
  // ---------------------------------------------------------------------------

  /** A dataset checkbox or a model chip: a name already selected is removed (every
      occurrence), any other name is appended. */
  function Toggle(sel: seq<string>, x: string): (r: seq<string>)
    ensures x in r <==> x !in sel
    ensures forall y :: y != x ==> (y in r <==> y in sel)
    ensures x !in sel ==> r == sel + [x]
    ensures x in sel ==> IsSubseq(r, sel)
    ensures Distinct(sel) ==> Distinct(r)
  {
    if x in sel then RemoveAll(sel, x)
    else
      assert Distinct(sel) ==> Distinct(sel + [x]) by {
        if Distinct(sel) { DistinctAppend(sel, [x]); }
      }
      sel + [x]
  }

  /** Toggling the same name twice selects the same names again, and when the name was
      not selected it gives back exactly the selection it started from. */
  lemma {:induction false} ToggleTwice(sel: seq<string>, x: string)
    ensures forall y :: y in Toggle(Toggle(sel, x), x) <==> y in sel
    ensures x !in sel ==> Toggle(Toggle(sel, x), x) == sel
  {
    if x !in sel {
      assert x in sel + [x];
      RemoveAllAppended(sel, x);
    }
  }

  // ---------------------------------------------------------------------------
  // Whole-category and global model selection
  // ---------------------------------------------------------------------------

  /** Every value of `vals` is selected: how a category's Select All box is checked. */
  predicate AllIn(vals: seq<string>, sel: seq<string>)
  {
    forall v :: v in vals ==> v in sel
  }

  /** A category's Select All box: when the whole category is selected its values are
      removed and nothing else; otherwise the category values not yet selected are
      appended behind the current selection. */
  function CategoryClick(sel: seq<string>, cat: seq<string>): (r: seq<string>)
    ensures AllIn(cat, sel) ==> IsSubseq(r, sel) && forall m :: m in r <==> m in sel && m !in cat
    ensures !AllIn(cat, sel) ==> (|r| > |sel| && r[..|sel|] == sel &&
      forall m :: m in r <==> m in sel || m in cat)
    ensures AllIn(cat, r) <==> !AllIn(cat, sel) || |cat| == 0
    ensures Distinct(sel) && Distinct(cat) ==> Distinct(r)
  {
    if AllIn(cat, sel) then
      var r := Filter(m => m !in cat, sel);
      assert Distinct(sel) ==> Distinct(r) by {
        if Distinct(sel) { FilterDistinct(m => m !in cat, sel); }
      }
      assert |cat| > 0 ==> cat[0] !in r;
      r
    else
      var toAdd := Filter(v => v !in sel, cat);
      assert exists v :: v in cat && v !in sel;
      assert Distinct(sel) && Distinct(cat) ==> Distinct(sel + toAdd) by {
        if Distinct(sel) && Distinct(cat) {
          FilterDistinct(v => v !in sel, cat);
          DistinctAppend(sel, toAdd);
        }
      }
      assert (sel + toAdd)[..|sel|] == sel;
      sel + toAdd
  }

  /** Clicking a category's box twice when none of its values was selected gives back
      exactly the selection it started from. */
  lemma {:induction false} CategoryClickTwice(sel: seq<string>, cat: seq<string>)
    requires forall v :: v in cat ==> v !in sel
    ensures CategoryClick(CategoryClick(sel, cat), cat) == sel
  {
    if |cat| == 0 {
      EmptyCategoryClick(sel, cat);
      EmptyCategoryClick(CategoryClick(sel, cat), cat);
    } else {
      AddThenDrop(sel, cat);
    }
  }

  /** A category without values changes nothing. */
  lemma {:induction false} EmptyCategoryClick(sel: seq<string>, cat: seq<string>)
    requires |cat| == 0
    ensures CategoryClick(sel, cat) == sel
  {
    FilterKeepsAll((m: string) => m !in cat, sel);
  }

  /** The first click on a category none of whose values is selected appends them; the
      second removes exactly those. */
  lemma {:induction false} AddThenDrop(sel: seq<string>, cat: seq<string>)
    requires |cat| > 0
    requires forall v :: v in cat ==> v !in sel
    ensures CategoryClick(CategoryClick(sel, cat), cat) == sel
  {
    assert !AllIn(cat, sel) by { assert cat[0] in cat; }
    var toAdd := Filter((v: string) => v !in sel, cat);
    var once := CategoryClick(sel, cat);
    assert once == sel + toAdd;
    assert AllIn(cat, once);
    assert CategoryClick(once, cat) == Filter((m: string) => m !in cat, once);
    DropAdded(sel, toAdd, cat);
  }

  /** Removing a category's values from a selection that had only the added ones of them
      leaves the selection before they were added. */
  lemma {:induction false} DropAdded(sel: seq<string>, toAdd: seq<string>, cat: seq<string>)
    requires forall v :: v in cat ==> v !in sel
    requires forall i :: 0 <= i < |toAdd| ==> toAdd[i] in cat
    ensures Filter((m: string) => m !in cat, sel + toAdd) == sel
  {
    var p := (m: string) => m !in cat;
    FilterAppend(p, sel, toAdd);
    FilterKeepsAll(p, sel);
    FilterNoneKept(p, toAdd);
  }

  /** A filter whose predicate fails everywhere returns nothing. */
  lemma {:induction false} FilterNoneKept(p: string -> bool, s: seq<string>)
    requires forall i :: 0 <= i < |s| ==> !p(s[i])
    ensures Filter(p, s) == []
  {
    assert forall x :: x in Filter(p, s) ==> x in s && p(x);
  }

  /** The global Select All / Unselect All button: it selects every model value of every
      category, group after group, or clears the selection, and flips its own label. */
  function GlobalClick(all: bool, groups: seq<seq<string>>): (r: (seq<string>, bool))
    ensures r.1 == !all
    ensures all ==> r.0 == []
    ensures !all ==> r.0 == Flatten(groups)
    ensures !all ==> (forall v :: v in r.0 <==> exists g :: g in groups && v in g)
  {
    (if all then [] else Flatten(groups), !all)
  }

  /** After Select All every category's box reads checked; after Unselect All only empty
      categories do. */
  lemma {:induction false} GlobalClickChecksCategories(all: bool, groups: seq<seq<string>>)
    ensures !all ==> forall g :: g in groups ==> AllIn(g, GlobalClick(all, groups).0)
    ensures all ==> forall g :: g in groups ==> (AllIn(g, GlobalClick(all, groups).0) <==> |g| == 0)
  {
    if all {
      forall g | g in groups ensures AllIn(g, []) <==> |g| == 0 {
        if |g| > 0 { assert g[0] in g; }
      }
    }
  }

  // ---------------------------------------------------------------------------
  // Train/test pairs
  // ---------------------------------------------------------------------------

  /** One train/test pair; `None` is NaN, which is what a cleared field parses to. */
  datatype SplitPair = SplitPair(train: Option<int>, test: Option<int>)

  const DefaultPair := SplitPair(Some(80), Some(20))

  /** The pairs the page starts with. */
  const InitialPairs := [DefaultPair]

  /** The test share is the complement of the train share (NaN stays NaN). */
  predicate Complementary(p: SplitPair)
  {
    match p.train
    case None => p.test.None?
    case Some(t) => p.test == Some(100 - t)
  }

  /** `parseInt(s)` in base ten: leading white space is skipped, one sign is allowed, and
      the longest run of digits after it is read; no digit there gives NaN (`None`). */
  function ParseInt(s: string): (r: Option<int>)
    ensures var u := s[LeadingSpaces(s)..];
      var k := if |u| > 0 && (u[0] == '-' || u[0] == '+') then 1 else 0;
      r.None? <==> k == |u| || !IsDigit(u[k])
  {
    ParseSigned(s[LeadingSpaces(s)..])
  }

  /** `parseInt` once the white space is gone: an optional sign, then the digit run. */
  function ParseSigned(u: string): (r: Option<int>)
    ensures var k := if |u| > 0 && (u[0] == '-' || u[0] == '+') then 1 else 0;
      r.None? <==> k == |u| || !IsDigit(u[k])
  {
    var k := if |u| > 0 && (u[0] == '-' || u[0] == '+') then 1 else 0;
    var d := DigitRun(u, k);
    if d == 0 then None
    else
      DigitsBetweenSlice(u, k, k + d);
      var v: int := DigitsValue(u[k..k + d]);
      Some(if u[0] == '-' then -v else v)
  }

  /** A digit string followed by a non-digit reads as its value, with or without a
      leading minus sign. */
  /** The digit run of `n` characters after the sign decides the value. */
  lemma {:induction false} ParseSignedRun(u: string, k: nat, n: nat)
    requires k == (if |u| > 0 && (u[0] == '-' || u[0] == '+') then 1 else 0)
    requires 0 < n && k + n <= |u| && AllDigits(u[k..k + n])
    requires k + n == |u| || !IsDigit(u[k + n])
    ensures ParseSigned(u) == Some(if u[0] == '-' then -(DigitsValue(u[k..k + n]) as int) else DigitsValue(u[k..k + n]) as int)
  {
    DigitsBetweenSlice(u, k, k + n);
    DigitRunSpan(u, k, n);
  }

  /** Where the pieces of `String(i) + rest` sit: an optional minus sign, then the digits
      of `|i|`, then a non-digit or the end. */
  lemma {:induction false} IntTextLayout(i: int, rest: string)
    requires |rest| == 0 || !IsDigit(rest[0])
    ensures var s, t := IntToString(i) + rest, NatToString(if i < 0 then -i else i);
      var k := if i < 0 then 1 else 0;
      && |s| > 0 && !IsSpace(s[0]) && (s[0] == '-' <==> i < 0) && s[0] != '+'
      && k + |t| <= |s| && s[k..k + |t|] == t
      && (k + |t| == |s| || !IsDigit(s[k + |t|]))
  {
    var t := NatToString(if i < 0 then -i else i);
    var s := IntToString(i) + rest;
    var k := if i < 0 then 1 else 0;
    assert s == (if i < 0 then "-" else "") + t + rest;
    assert s[0] == (if i < 0 then '-' else t[0]);
    assert IsDigit(t[0]);
    assert s[k..k + |t|] == t;
    assert k + |t| < |s| ==> s[k + |t|] == rest[0];
  }

  /** `parseInt` reads back the decimal text of any integer, whatever non-digit text
      follows it (`"12.5"` reads as 12). */
  lemma {:induction false} ParseIntOfIntToString(i: int, rest: string)
    requires |rest| == 0 || !IsDigit(rest[0])
    ensures ParseInt(IntToString(i) + rest) == Some(i)
  {
    var n: nat := if i < 0 then -i else i;
    var t := NatToString(n);
    var s := IntToString(i) + rest;
    var k := if i < 0 then 1 else 0;
    IntTextLayout(i, rest);
    assert s[LeadingSpaces(s)..] == s;
    ParseSignedRun(s, k, |t|);
    DigitsValueOfNatToString(n);
  }

  /** The "Add another split" button appends an 80/20 pair. */
  function AddPair(pairs: seq<SplitPair>): (r: seq<SplitPair>)
    ensures |r| == |pairs| + 1 && r[..|pairs|] == pairs
    ensures Complementary(r[|pairs|]) && r[|pairs|].train == Some(80)
  {
    pairs + [DefaultPair]
  }

  /** Typing into a pair's Train field: that pair's train becomes the parsed text and its
      test the complement; every other pair is untouched. */
  function EditTrain(pairs: seq<SplitPair>, idx: nat, text: string): (r: seq<SplitPair>)
    requires idx < |pairs|
    ensures |r| == |pairs|
    ensures forall j :: 0 <= j < |r| && j != idx ==> r[j] == pairs[j]
    ensures r[idx].train == ParseInt(text) && Complementary(r[idx])
  {
    var v := ParseInt(text);
    pairs[idx := SplitPair(v, if v.Some? then Some(100 - v.value) else None)]
  }

  /** Every pair the page can reach has a complementary test share: the initial pair does,
      and adding or editing a pair keeps it so. */
  lemma {:induction false} PairsStayComplementary(pairs: seq<SplitPair>, idx: nat, text: string)
    requires forall j :: 0 <= j < |pairs| ==> Complementary(pairs[j])
    ensures forall j :: 0 <= j < |InitialPairs| ==> Complementary(InitialPairs[j])
    ensures var r := AddPair(pairs); forall j :: 0 <= j < |r| ==> Complementary(r[j])
    ensures idx < |pairs| ==> var r := EditTrain(pairs, idx, text);
      forall j :: 0 <= j < |r| ==> Complementary(r[j])
  {
    var r := AddPair(pairs);
    forall j | 0 <= j < |r| ensures Complementary(r[j]) {
      if j < |pairs| { assert r[j] == r[..|pairs|][j]; }
    }
  }

  /** Typing the decimal text of a percentage sets that pair to it and its complement. */
  lemma {:induction false} EditTrainWithNumber(pairs: seq<SplitPair>, idx: nat, train: int)
    requires idx < |pairs|
    ensures EditTrain(pairs, idx, IntToString(train))[idx] == SplitPair(Some(train), Some(100 - train))
  {
    ParseIntOfIntToString(train, "");
    assert IntToString(train) + "" == IntToString(train);
  }

  // ---------------------------------------------------------------------------
  // Dataset search and the header checkbox
  // ---------------------------------------------------------------------------

  /** A dataset name is listed when it contains the search term, compared in lower case. */
  predicate Listed(term: string, name: string)
  {
    Contains(ToLower(name), ToLower(term))
  }

  /** The datasets listed: names containing the search term, compared in lower case, in
      their original order. */
  function FilteredFiles(names: seq<string>, term: string): (r: seq<string>)
    ensures forall n :: n in r <==> n in names && Listed(term, n)
    ensures forall n :: Count(r, n) == if Listed(term, n) then Count(names, n) else 0
    ensures IsSubseq(r, names)
    ensures Distinct(names) ==> Distinct(r)
    ensures term == "" ==> r == names
  {
    var listed := (n: string) => Listed(term, n);
    var r := Filter(listed, names);
    assert Distinct(names) ==> Distinct(r) by {
      if Distinct(names) { FilterDistinct(listed, names); }
    }
    assert term == "" ==> r == names by {
      if term == "" {
        forall i | 0 <= i < |names| ensures listed(names[i]) {
          assert OccursAt(ToLower(names[i]), "", 0);
        }
        FilterKeepsAll(listed, names);
      }
    }
    r
  }

  /** The header box is checked when something is listed and as many datasets are
      selected as are listed. */
  predicate HeaderChecked(selected: seq<string>, listed: seq<string>)
  {
    |listed| > 0 && |selected| == |listed|
  }

  /** Clicking the header box: equal counts clear the selection, otherwise the selection
      becomes every listed name. */
  function HeaderClick(selected: seq<string>, listed: seq<string>): (r: seq<string>)
    ensures |selected| == |listed| ==> r == []
    ensures |selected| != |listed| ==> r == listed
  {
    if |selected| == |listed| then [] else listed
  }

  /** From an unchecked header with something listed, one click checks it and selects
      every listed name, and a second click clears the selection. */
  lemma {:induction false} HeaderClickTwice(selected: seq<string>, listed: seq<string>)
    requires |listed| > 0 && !HeaderChecked(selected, listed)
    ensures HeaderChecked(HeaderClick(selected, listed), listed)
    ensures forall n :: n in listed ==> n in HeaderClick(selected, listed)
    ensures HeaderClick(HeaderClick(selected, listed), listed) == []
  {
  }

  /** The header compares counts only: with two datasets of which the search lists just
      one, selecting the other one makes the header read checked, and clicking it drops
      that selection without selecting the listed one. */
  lemma {:induction false} HeaderComparesCountsOnly(x: string, y: string, term: string)
    requires x != y && !Listed(term, x) && Listed(term, y)
    ensures var listed := FilteredFiles([x, y], term);
      && listed == [y] && x !in listed
      && HeaderChecked([x], listed) && HeaderClick([x], listed) == []
  {
    var p := (n: string) => Listed(term, n);
    assert [x, y][1..] == [y] && [y][1..] == [];
    assert FilteredFiles([x, y], term) == Filter(p, [x, y]) == Filter(p, [y]) == [y];
  }

  // ---------------------------------------------------------------------------
  // Run All
  // ---------------------------------------------------------------------------

  const NoDatasetMessage := "\U{1F6AB} Please select at least one dataset."
  const NoModelMessage := "\U{1F6AB} Please select at least one machine learning model."

  /** The body posted to the run endpoint. */
  datatype RunBody = RunBody(files: seq<string>, models: seq<string>, splits: seq<SplitPair>)

  /** What pressing Run All does before any request: a toast, or a post. */
  datatype RunStart = Rejected(toast: string) | Posted(body: RunBody)

  /** `handleRunAll` up to the request: no dataset is checked first, then no model; only
      with both is the selection posted as it stands. */
  function StartRun(files: seq<string>, models: seq<string>, pairs: seq<SplitPair>): (r: RunStart)
    ensures r.Posted? <==> |files| > 0 && |models| > 0
    ensures r.Posted? ==> r.body == RunBody(files, models, pairs)
    ensures |files| == 0 ==> r == Rejected(NoDatasetMessage)
    ensures |files| > 0 && |models| == 0 ==> r == Rejected(NoModelMessage)
  {
    if |files| == 0 then Rejected(NoDatasetMessage)
    else if |models| == 0 then Rejected(NoModelMessage)
    else Posted(RunBody(files, models, pairs))
  }

  /** The Run All button is enabled when no run is loading and both selections are
      non-empty. */
  predicate RunEnabled(loading: bool, files: seq<string>, models: seq<string>)
  {
    !(loading || |files| == 0 || |models| == 0)
  }

  /** An enabled button never shows a validation toast: it always posts. */
  lemma {:induction false} EnabledRunPosts(loading: bool, files: seq<string>, models: seq<string>, pairs: seq<SplitPair>)
    requires RunEnabled(loading, files, models)
    ensures StartRun(files, models, pairs) == Posted(RunBody(files, models, pairs))
  {
  }

  /** How the post ended: it threw, or the endpoint answered with data carrying a status. */
  datatype RunOutcome<D> = RunFailed | RunAnswered(status: Option<string>, data: D)

  /** What the page does once the post has settled. */
  datatype RunEnd<D> = GoToResults(data: D) | ShowResult(data: D) | ShowError(message: string)

  const RunFailedMessage := "Run all failed"

  /** A `"success"` status opens the results page with the answer; any other answer is
      shown in place; a thrown request shows the failure message. */
  function FinishRun<D>(outcome: RunOutcome<D>): (r: RunEnd<D>)
    ensures r.GoToResults? <==> outcome.RunAnswered? && outcome.status == Some("success")
    ensures r.ShowError? <==> outcome.RunFailed?
    ensures outcome.RunAnswered? ==> !r.ShowError? && r.data == outcome.data
  {
    match outcome
    case RunFailed => ShowError(RunFailedMessage)
    case RunAnswered(status, data) =>
      if status == Some("success") then GoToResults(data) else ShowResult(data)
  }
}

=== FILE: seqs.dfy ===
/** Sequence helpers shared by the whole model: `Array.prototype.filter`,
    `[...new Set(xs)]`, removal of every occurrence, and flattening. */
module Seqs {
  import opened Wrappers

  /** No element occurs twice. */
  predicate Distinct<T(==,!new)>(s: seq<T>)
  {
    forall i, j :: 0 <= i < j < |s| ==> s[i] != s[j]
  }

  /** How many times `x` occurs in `s`. */
  function Count<T(==)>(s: seq<T>, x: T): nat
  {
    if |s| == 0 then 0 else (if s[0] == x then 1 else 0) + Count(s[1..], x)
  }

  /** `a` is an order-preserving subsequence of `b`. */
  predicate IsSubseq<T(==,!new)>(a: seq<T>, b: seq<T>)
    decreases |b|
  {
    |a| == 0 || (|b| > 0 && ((a[0] == b[0] && IsSubseq(a[1..], b[1..])) || IsSubseq(a, b[1..])))
  }

  /** Index of the first occurrence of `x` in `s`. */
  function IndexOf<T(==,!new)>(s: seq<T>, x: T): (i: nat)
    requires x in s
    ensures i < |s| && s[i] == x
    ensures forall k :: 0 <= k < i ==> s[k] != x
  {
    if s[0] == x then 0 else 1 + IndexOf(s[1..], x)
  }

  /** `Array.prototype.filter`: the elements of `s` satisfying `p`, in their original order. */
  function Filter<T(==,!new)>(p: T -> bool, s: seq<T>): (r: seq<T>)
    ensures |r| <= |s|
    ensures forall i :: 0 <= i < |r| ==> p(r[i])
    ensures forall x :: x in r <==> x in s && p(x)
    ensures IsSubseq(r, s)
    ensures |r| == |s| <==> forall i :: 0 <= i < |s| ==> p(s[i])
    ensures forall x :: Count(r, x) == if p(x) then Count(s, x) else 0
  {
    if |s| == 0 then []
    else
      if p(s[0]) then [s[0]] + Filter(p, s[1..])
      else Filter(p, s[1..])
  }

  /** `[...new Set(s)]` started from a set of already-seen values: each value of `s`
      not in `seen` is kept at its first occurrence. */
  function DedupFrom<T(==,!new)>(s: seq<T>, seen: set<T>): (r: seq<T>)
    ensures Distinct(r)
    ensures forall x :: x in r <==> x in s && x !in seen
    ensures IsSubseq(r, s)
    ensures forall i, j :: 0 <= i < j < |r| ==> IndexOf(s, r[i]) < IndexOf(s, r[j])
  {
    if |s| == 0 then []
    else if s[0] in seen then DedupFrom(s[1..], seen)
    else
      var rest := DedupFrom(s[1..], seen + {s[0]});
      FirstSeenInFront(s, seen, rest);
      [s[0]] + rest
  }

  /** Putting a value met for the first time in front of the de-duplicated rest keeps
      the result free of repetitions and in first-seen order. */
  lemma {:induction false} FirstSeenInFront<T(!new)>(s: seq<T>, seen: set<T>, rest: seq<T>)
    requires |s| > 0 && s[0] !in seen
    requires Distinct(rest) && IsSubseq(rest, s[1..])
    requires forall x :: x in rest <==> x in s[1..] && x !in seen + {s[0]}
    requires forall i, j :: 0 <= i < j < |rest| ==> IndexOf(s[1..], rest[i]) < IndexOf(s[1..], rest[j])
    ensures var r := [s[0]] + rest;
      && Distinct(r) && IsSubseq(r, s)
      && (forall x :: x in r <==> x in s && x !in seen)
      && (forall i, j :: 0 <= i < j < |r| ==> IndexOf(s, r[i]) < IndexOf(s, r[j]))
  {
    FrontOrdered(s, seen, rest);
    FrontSubseq(s, rest);
    FrontMembers(s, seen, rest);
  }

  lemma {:induction false} FrontOrdered<T(!new)>(s: seq<T>, seen: set<T>, rest: seq<T>)
    requires |s| > 0 && Distinct(rest)
    requires forall x :: x in rest <==> x in s[1..] && x !in seen + {s[0]}
    requires forall i, j :: 0 <= i < j < |rest| ==> IndexOf(s[1..], rest[i]) < IndexOf(s[1..], rest[j])
    ensures var r := [s[0]] + rest;
      && Distinct(r)
      && (forall k :: 0 <= k < |r| ==> r[k] in s)
      && (forall i, j :: 0 <= i < j < |r| ==> IndexOf(s, r[i]) < IndexOf(s, r[j]))
  {
    var r := [s[0]] + rest;
    forall k | 0 <= k < |rest|
      ensures rest[k] in s[1..] && rest[k] != s[0] && IndexOf(s, rest[k]) == 1 + IndexOf(s[1..], rest[k])
    {
      assert rest[k] in rest;
      IndexOfTail(s, rest[k]);
    }
    forall i, j | 0 <= i < j < |r| ensures r[i] != r[j] && IndexOf(s, r[i]) < IndexOf(s, r[j]) {
      assert r[j] == rest[j - 1];
      if i > 0 {
        assert r[i] == rest[i - 1];
      }
    }
  }

  lemma {:induction false} FrontSubseq<T(!new)>(s: seq<T>, rest: seq<T>)
    requires |s| > 0 && IsSubseq(rest, s[1..])
    ensures IsSubseq([s[0]] + rest, s)
  {
    var r := [s[0]] + rest;
    assert r[0] == s[0] && r[1..] == rest;
  }

  lemma {:induction false} FrontMembers<T(!new)>(s: seq<T>, seen: set<T>, rest: seq<T>)
    requires |s| > 0 && s[0] !in seen
    requires forall x :: x in rest <==> x in s[1..] && x !in seen + {s[0]}
    ensures forall x :: x in [s[0]] + rest <==> x in s && x !in seen
  {
    var r := [s[0]] + rest;
    assert forall x :: x in r <==> x == s[0] || x in rest;
    assert forall x :: x in s <==> x == s[0] || x in s[1..];
  }

  /** Past the first element, the first occurrence of a value other than `s[0]` is one
      further on than in the tail. */
  lemma {:induction false} IndexOfTail<T(!new)>(s: seq<T>, x: T)
    requires |s| > 0 && x in s[1..] && x != s[0]
    ensures x in s && IndexOf(s, x) == 1 + IndexOf(s[1..], x)
  {
    assert s == [s[0]] + s[1..];
  }

  /** `[...new Set(s)]`: the distinct values of `s` in first-seen order. */
  function Dedup<T(==,!new)>(s: seq<T>): (r: seq<T>)
    ensures Distinct(r)
    ensures forall x :: x in r <==> x in s
    ensures IsSubseq(r, s)
    ensures forall i, j :: 0 <= i < j < |r| ==> IndexOf(s, r[i]) < IndexOf(s, r[j])
  {
    DedupFrom(s, {})
  }

  /** A value never met in `s` may be added to `seen` without changing the outcome. */
  lemma {:induction false} DedupFromIgnoresAbsent<T(!new)>(s: seq<T>, seen: set<T>, x: T)
    requires x !in s
    ensures DedupFrom(s, seen + {x}) == DedupFrom(s, seen)
    decreases |s|
  {
    if |s| > 0 {
      assert x !in s[1..];
      if s[0] in seen {
        DedupFromIgnoresAbsent(s[1..], seen, x);
      } else {
        assert seen + {x} + {s[0]} == seen + {s[0]} + {x};
        DedupFromIgnoresAbsent(s[1..], seen + {s[0]}, x);
      }
    }
  }

  lemma {:induction false} FilterDedupFromCommute<T(!new)>(p: T -> bool, s: seq<T>, seen: set<T>)
    ensures Filter(p, DedupFrom(s, seen)) == DedupFrom(Filter(p, s), seen)
    decreases |s|
  {
    if |s| > 0 {
      if s[0] in seen {
        FilterDedupFromCommute(p, s[1..], seen);
      } else if p(s[0]) {
        FilterDedupFromCommute(p, s[1..], seen + {s[0]});
      } else {
        FilterDedupFromCommute(p, s[1..], seen + {s[0]});
        assert s[0] !in Filter(p, s[1..]);
        DedupFromIgnoresAbsent(Filter(p, s[1..]), seen, s[0]);
      }
    }
  }

  /** Dropping values before or after de-duplicating gives the same list, so the source's
      two spellings `uniq(xs.filter(p))` and `uniq(xs).filter(p)` agree. */
  lemma {:induction false} FilterDedupCommute<T(!new)>(p: T -> bool, s: seq<T>)
    ensures Filter(p, Dedup(s)) == Dedup(Filter(p, s))
  {
    FilterDedupFromCommute(p, s, {});
  }

  /** `s.filter(y => y !== x)`: every occurrence of `x` removed, the rest kept in order. */
  function RemoveAll<T(==,!new)>(s: seq<T>, x: T): (r: seq<T>)
    ensures x !in r
    ensures forall y :: y != x ==> (y in r <==> y in s)
    ensures IsSubseq(r, s)
    ensures x !in s ==> r == s
    ensures Distinct(s) ==> Distinct(r)
    ensures forall y :: Count(r, y) == if y == x then 0 else Count(s, y)
  {
    if |s| == 0 then []
    else
      var rest := RemoveAll(s[1..], x);
      assert Distinct(s) ==> Distinct(s[1..]) && s[0] !in s[1..] by {
        if Distinct(s) {
          forall k | 0 <= k < |s| - 1 ensures s[1..][k] != s[0] {
            assert s[1..][k] == s[k + 1];
          }
        }
      }
      if s[0] == x then rest
      else
        assert Distinct(s) ==> Distinct([s[0]] + rest) by {
          if Distinct(s) { DistinctAppend([s[0]], rest); }
        }
        assert x !in s ==> [s[0]] + rest == s by {
          if x !in s { assert s == [s[0]] + s[1..]; }
        }
        [s[0]] + rest
  }

  /** Removing a value appended to a sequence that did not contain it gives the sequence
      back. */
  lemma {:induction false} RemoveAllAppended<T(!new)>(s: seq<T>, x: T)
    requires x !in s
    ensures RemoveAll(s + [x], x) == s
    decreases |s|
  {
    if |s| > 0 {
      assert (s + [x])[1..] == s[1..] + [x];
      RemoveAllAppended(s[1..], x);
      assert s == [s[0]] + s[1..];
    }
  }

  /** A filter keeps something exactly when some element satisfies its predicate. */
  lemma {:induction false} FilterNonEmpty<T(!new)>(p: T -> bool, s: seq<T>)
    ensures |Filter(p, s)| > 0 <==> exists i :: 0 <= i < |s| && p(s[i])
  {
    var f := Filter(p, s);
    if |f| > 0 {
      assert f[0] in s;
    }
    if exists i :: 0 <= i < |s| && p(s[i]) {
      var i :| 0 <= i < |s| && p(s[i]);
      assert s[i] in f;
    }
  }

  /** A filter whose predicate holds everywhere returns its input unchanged. */
  lemma {:induction false} FilterKeepsAll<T(!new)>(p: T -> bool, s: seq<T>)
    requires forall i :: 0 <= i < |s| ==> p(s[i])
    ensures Filter(p, s) == s
    decreases |s|
  {
    if |s| > 0 {
      FilterKeepsAll(p, s[1..]);
    }
  }

  /** Filtering a sequence without duplicates leaves none. */
  lemma {:induction false} FilterDistinct<T(!new)>(p: T -> bool, s: seq<T>)
    requires Distinct(s)
    ensures Distinct(Filter(p, s))
    decreases |s|
  {
    if |s| > 0 {
      assert Distinct(s[1..]) by {
        forall i, j | 0 <= i < j < |s| - 1 ensures s[1..][i] != s[1..][j] {
          assert s[1..][i] == s[i + 1] && s[1..][j] == s[j + 1];
        }
      }
      FilterDistinct(p, s[1..]);
      assert s[0] !in s[1..] by {
        forall k | 0 <= k < |s| - 1 ensures s[1..][k] != s[0] {
          assert s[1..][k] == s[k + 1];
        }
      }
    }
  }

  /** Two sequences without duplicates and without a common element concatenate to one
      without duplicates. */
  lemma {:induction false} DistinctAppend<T(!new)>(a: seq<T>, b: seq<T>)
    requires Distinct(a) && Distinct(b)
    requires forall x :: x in a ==> x !in b
    ensures Distinct(a + b)
  {
    forall i, j | 0 <= i < j < |a + b| ensures (a + b)[i] != (a + b)[j] {
      if j < |a| {
      } else if i < |a| {
        assert (a + b)[i] in a && (a + b)[j] == b[j - |a|];
      } else {
        assert (a + b)[i] == b[i - |a|] && (a + b)[j] == b[j - |a|];
      }
    }
  }

  /** Filtering distributes over concatenation. */
  lemma {:induction false} FilterAppend<T(!new)>(p: T -> bool, a: seq<T>, b: seq<T>)
    ensures Filter(p, a + b) == Filter(p, a) + Filter(p, b)
    decreases |a|
  {
    if |a| > 0 {
      assert (a + b)[1..] == a[1..] + b;
      FilterAppend(p, a[1..], b);
    } else {
      assert a + b == b;
    }
  }

  /** `groups.flatMap(g => g)`: the groups' elements, group after group. */
  function Flatten<T(!new)>(groups: seq<seq<T>>): (r: seq<T>)
    ensures forall g, x :: g in groups && x in g ==> x in r
    ensures forall x :: x in r ==> exists g :: g in groups && x in g
  {
    if |groups| == 0 then [] else groups[0] + Flatten(groups[1..])
  }

  /** The index of the first element satisfying `p` (`Array.prototype.findIndex`, with
      `None` for -1). */
  function FirstIndex<T(!new)>(s: seq<T>, p: T -> bool): (r: Option<nat>)
    ensures r.None? <==> forall i :: 0 <= i < |s| ==> !p(s[i])
    ensures r.Some? ==> r.value < |s| && p(s[r.value]) && forall j :: 0 <= j < r.value ==> !p(s[j])
  {
    if |s| == 0 then None
    else if p(s[0]) then Some(0)
    else match FirstIndex(s[1..], p)
      case None => None
      case Some(i) => Some(i + 1)
  }
}

=== FILE: service.dfy ===
/** The result service (`showResultService.js`): the CSV row filter, `deriveSplits`,
    the decision tree of `fetchAutoParsedRmse` that turns whatever the summary endpoint
    sent into one result object, and the query string of `fetchSeriesBundle`.
    The two transports and the two parsers are inputs: the model receives what axios,
    `fetch`, `JSON.parse` and Papa Parse produced and verifies only the decisions. */
module ResultService {
  import opened Wrappers
  import opened Text
  import opened Json
  import opened Seqs

  // ---------------------------------------------------------------- inputs

  /** A cell of a CSV record after Papa Parse's dynamic typing. */
  datatype Cell = CNull | CBool(b: bool) | CNum(n: int) | CStr(s: string)

  /** One CSV data line keyed by the header row, in header order. */
  type Record = seq<(string, Cell)>

  /** What `Papa.parse(text, {header: true, …})` did: threw, returned a `data` that is
      not an array, or returned these records. */
  datatype PapaOutcome = PapaThrows | PapaNotArray | PapaRecords(records: seq<Record>)

  /** What `JSON.parse(text)` did: threw, or returned `v` (in a fresh heap `h`). */
  datatype JsonOutcome = JsonThrows | JsonParsed(h: Heap, v: Value)

  /** The axios request with an identity response transform: it threw, or `res.data` is `raw`. */
  datatype AxiosOutcome = AxiosThrows | AxiosData(h: Heap, raw: Value)

  /** The fallback `fetch(url)` plus `r.text()`: threw, or produced this body text. */
  datatype FetchOutcome = FetchThrows | FetchText(text: string)

  /** Which branch of `fetchAutoParsedRmse` produced the result.  `NoContent` and
      `FetchError` carry `__source: "empty"` and `"error"`. */
  datatype Origin = AxiosJson | AxiosObject | CsvFromRawText | FetchJson | CsvFromFetch | NoContent | FetchError

  datatype Payload = Payload(h: Heap, root: Value, origin: Origin)

  const NormKey := "normalized_results.csv"

  /** The keys the service tries for the row array, in order. */
  const RowKeys: seq<string> := [NormKey, "normalized_model_results.csv", "normalized_model_results", "all_model_results.csv"]

  // ---------------------------------------------------------------- CSV rows

  predicate RecordHas(rec: Record, k: string)
  {
    exists i :: 0 <= i < |rec| && rec[i].0 == k
  }

  /** `looksLikeRow` on a parsed CSV record (a record is always a non-null object). */
  predicate RecordLooksLikeRow(rec: Record)
  {
    RecordHas(rec, "dataset_name") && RecordHas(rec, "split_id") && RecordHas(rec, "model")
  }

  function CellValue(c: Cell): Value
  {
    match c
    case CNull => Null
    case CBool(b) => Bool(b)
    case CNum(n) => Num(n)
    case CStr(s) => Str(s)
  }

  /** The object a record becomes. */
  function RecordNode(rec: Record): (n: Node)
    ensures n.Obj? && |n.props| == |rec|
    ensures forall i :: 0 <= i < |rec| ==> n.props[i] == (rec[i].0, CellValue(rec[i].1))
  {
    Obj(seq(|rec|, i requires 0 <= i < |rec| => (rec[i].0, CellValue(rec[i].1))))
  }

  /** Once allocated, a record satisfies the page's row predicate exactly when the
      service's CSV filter kept it. */
  lemma {:induction false} RecordRowAgreement(h: Heap, rec: Record)
    ensures IsRow(h + [RecordNode(rec)], Ref(|h|)) <==> RecordLooksLikeRow(rec)
  {
    var h' := h + [RecordNode(rec)];
    forall k: string
      ensures Has(h', Ref(|h|), k) <==> RecordHas(rec, k)
    {
      if RecordHas(rec, k) {
        var i :| 0 <= i < |rec| && rec[i].0 == k;
        assert h'[|h|].props[i].0 == k;
      }
      if Has(h', Ref(|h|), k) {
        var i :| 0 <= i < |h'[|h|].props| && h'[|h|].props[i].0 == k;
        assert rec[i].0 == k;
      }
    }
  }

  /** `parseCsvTextToRows`: never throws; keeps, in order, the records that look like rows. */
  function ParseCsvRows(papa: string -> PapaOutcome, text: string): (r: seq<Record>)
    ensures forall i :: 0 <= i < |r| ==> RecordLooksLikeRow(r[i])
    ensures !papa(text).PapaRecords? ==> r == []
    ensures papa(text).PapaRecords? ==>
      IsSubseq(r, papa(text).records) &&
      forall rec :: rec in papa(text).records && RecordLooksLikeRow(rec) ==> rec in r
    ensures papa(text).PapaRecords? ==> forall rec :: RecordLooksLikeRow(rec) ==>
      Count(r, rec) == Count(papa(text).records, rec)
  {
    match papa(text)
    case PapaThrows => []
    case PapaNotArray => []
    case PapaRecords(recs) => Filter(RecordLooksLikeRow, recs)
  }

  // ---------------------------------------------------------------- deriveSplits

  /** `s(r?.split_id)` */
  function SplitOf(h: Heap, r: Value): string
  {
    S(h, Get(h, r, "split_id"))
  }

  function SplitsOfRows(h: Heap, rows: seq<Value>): (r: seq<string>)
    ensures |r| == |rows| && forall i :: 0 <= i < |rows| ==> r[i] == SplitOf(h, rows[i])
  {
    seq(|rows|, i requires 0 <= i < |rows| => SplitOf(h, rows[i]))
  }

  predicate NonEmpty(t: string)
  {
    |t| > 0
  }

  /** The distinct non-empty strings of `xs` in first-seen order (`uniq(xs).filter(Boolean)`). */
  function DistinctNonEmpty(xs: seq<string>): (r: seq<string>)
    ensures Distinct(r)
    ensures forall x :: x in r <==> x in xs && x != ""
    ensures IsSubseq(r, Dedup(xs))
    ensures forall i, j :: 0 <= i < j < |r| ==> IndexOf(xs, r[i]) < IndexOf(xs, r[j])
  {
    var r := Filter(NonEmpty, Dedup(xs));
    assert forall i :: 0 <= i < |r| ==> r[i] in Dedup(xs);
    assert Distinct(r) by {
      FilterDedupCommute(NonEmpty, xs);
    }
    FilterKeepsOrder(r, xs);
    r
  }

  /** A subsequence of a first-seen-ordered list keeps the first-seen order. */
  lemma {:induction false} FilterKeepsOrder(r: seq<string>, xs: seq<string>)
    requires r == Filter(NonEmpty, Dedup(xs))
    ensures forall i, j :: 0 <= i < j < |r| ==> IndexOf(xs, r[i]) < IndexOf(xs, r[j])
  {
    FilterDedupCommute(NonEmpty, xs);
    var ys := Filter(NonEmpty, xs);
    assert r == Dedup(ys);
    forall i, j | 0 <= i < j < |r|
      ensures IndexOf(xs, r[i]) < IndexOf(xs, r[j])
    {
      assert IndexOf(ys, r[i]) < IndexOf(ys, r[j]);
      SubseqIndexOrder(ys, xs, r[i], r[j]);
    }
  }

  /** First occurrences keep their relative order when passing to a super-sequence
      from which only other values were dropped. */
  lemma {:induction false} SubseqIndexOrder(ys: seq<string>, xs: seq<string>, a: string, b: string)
    requires ys == Filter(NonEmpty, xs)
    requires a in ys && b in ys && IndexOf(ys, a) < IndexOf(ys, b)
    ensures IndexOf(xs, a) < IndexOf(xs, b)
    decreases |xs|
  {
    if xs[0] == a {
    } else if xs[0] == b {
      assert ys[0] == b;
    } else if NonEmpty(xs[0]) {
      assert ys[1..] == Filter(NonEmpty, xs[1..]);
      SubseqIndexOrder(ys[1..], xs[1..], a, b);
    } else {
      SubseqIndexOrder(ys, xs[1..], a, b);
    }
  }

  /** `deriveSplits(rows)`.  `None` is the `TypeError` thrown when `rows` is truthy but
      not an array (`(rows || []).map` is then undefined or not a function). */
  function DeriveSplits(h: Heap, rows: Value): (r: Option<seq<string>>)
    ensures !Truthy(rows) ==> r == Some([])
    ensures Truthy(rows) && !IsArray(h, rows) ==> r == None
    ensures IsArray(h, rows) ==> (r.Some? &&
      var splits := SplitsOfRows(h, Items(h, rows));
      && Distinct(r.value)
      && (forall x :: x in r.value <==> x in splits && x != "")
      && (forall i, j :: 0 <= i < j < |r.value| ==> IndexOf(splits, r.value[i]) < IndexOf(splits, r.value[j])))
  {
    if !Truthy(rows) then Some([])
    else if IsArray(h, rows) then
      var splits := SplitsOfRows(h, Items(h, rows));
      var d := DistinctNonEmpty(splits);
      Some(d)
    else None
  }

  // ---------------------------------------------------------------- building result objects

  function StrArray(xs: seq<string>): (n: Node)
    ensures n.Arr? && |n.items| == |xs| && forall i :: 0 <= i < |xs| ==> n.items[i] == Str(xs[i])
  {
    Arr(seq(|xs|, i requires 0 <= i < |xs| => Str(xs[i])), [])
  }

  /** Appends one object per record, then the array of them; returns the array. */
  function AllocRows(h: Heap, recs: seq<Record>): (r: (Heap, Value))
    ensures |r.0| == |h| + |recs| + 1 && r.0[..|h|] == h && r.1 == Ref(|h| + |recs|)
    ensures IsArray(r.0, r.1) && |Items(r.0, r.1)| == |recs|
    ensures forall i :: 0 <= i < |recs| ==> Items(r.0, r.1)[i] == Ref(|h| + i) && r.0[|h| + i] == RecordNode(recs[i])
  {
    var objs := seq(|recs|, i requires 0 <= i < |recs| => RecordNode(recs[i]));
    var refs := seq(|recs|, i requires 0 <= i < |recs| => Ref(|h| + i));
    (h + objs + [Arr(refs, [])], Ref(|h| + |recs|))
  }

  /** Allocated row records all satisfy the page's row predicate. */
  lemma {:induction false} AllocRowsAreRows(h: Heap, recs: seq<Record>)
    requires forall i :: 0 <= i < |recs| ==> RecordLooksLikeRow(recs[i])
    ensures var (h', arr) := AllocRows(h, recs);
      forall i :: 0 <= i < |recs| ==> IsRow(h', Items(h', arr)[i])
  {
    var (h', arr) := AllocRows(h, recs);
    forall i | 0 <= i < |recs|
      ensures IsRow(h', Items(h', arr)[i])
    {
      var hi := h'[..|h| + i];
      assert h'[..|h| + i + 1] == hi + [RecordNode(recs[i])];
      RecordRowAgreement(hi, recs[i]);
      RowPrefix(hi + [RecordNode(recs[i])], h', Ref(|h| + i));
    }
  }

  /** The row predicate only looks at the node referred to, so a longer heap agrees. */
  lemma {:induction false} RowPrefix(h: Heap, h': Heap, v: Value)
    requires |h| <= |h'| && h'[..|h|] == h
    requires IsObject(h, v)
    ensures IsRow(h', v) <==> IsRow(h, v)
  {
    assert h'[v.id] == h[v.id];
  }

  /** The object built for decoded CSV text, or for a failure when `rows` is empty:
      `{"normalized_results.csv": rows, splits: deriveSplits(rows), __source: tag}`. */
  function RowsPayload(recs: seq<Record>, tag: string, origin: Origin): (p: Payload)
  {
    var a := AllocRows([], recs);
    var splits := DeriveSplits(a.0, a.1).value;
    var h := a.0 + [StrArray(splits), Obj(RootProps(a.1, Ref(|a.0|), tag))];
    Payload(h, Ref(|a.0| + 1), origin)
  }

  function RootProps(rows: Value, splits: Value, tag: string): (props: Props)
    ensures Lookup(props, NormKey) == rows
    ensures Lookup(props, "splits") == splits
    ensures Lookup(props, "__source") == Str(tag)
  {
    var props := [(NormKey, rows), ("splits", splits), ("__source", Str(tag))];
    assert NormKey[0] != "splits"[0] && NormKey[0] != "__source"[0] && "splits"[0] != "__source"[0];
    assert props[1..] == [("splits", splits), ("__source", Str(tag))];
    assert props[2..] == [("__source", Str(tag))];
    assert Lookup(props[2..], "__source") == Str(tag);
    assert Lookup(props[1..], "__source") == Str(tag);
    props
  }

  /** What every object built by `RowsPayload` looks like. */
  ghost predicate RowsShaped(p: Payload, tag: string)
  {
    var rows := Get(p.h, p.root, NormKey);
    var sp := Get(p.h, p.root, "splits");
    && IsPlainObject(p.h, p.root)
    && IsArray(p.h, rows)
    && (forall i :: 0 <= i < |Items(p.h, rows)| ==> IsRow(p.h, Items(p.h, rows)[i]))
    && DeriveSplits(p.h, rows).Some?
    && IsArray(p.h, sp) && Items(p.h, sp) == StrArray(DeriveSplits(p.h, rows).value).items
    && Get(p.h, p.root, "__source") == Str(tag)
  }

  lemma {:induction false} RowsPayloadShape(recs: seq<Record>, tag: string, origin: Origin)
    requires forall i :: 0 <= i < |recs| ==> RecordLooksLikeRow(recs[i])
    ensures var p := RowsPayload(recs, tag, origin);
      RowsShaped(p, tag) && |Items(p.h, Get(p.h, p.root, NormKey))| == |recs| && p.origin == origin
  {
    RowsPayloadLayout(recs, tag, origin);
    RowsPayloadRows(recs, tag, origin);
    RowsPayloadSplits(recs, tag, origin);
  }

  /** The rows under `normalized_results.csv` of a decoded-CSV payload are the allocated
      records, and each of them is a row. */
  lemma {:induction false} RowsPayloadRows(recs: seq<Record>, tag: string, origin: Origin)
    requires forall i :: 0 <= i < |recs| ==> RecordLooksLikeRow(recs[i])
    ensures var a := AllocRows([], recs); var p := RowsPayload(recs, tag, origin);
      var rows := Get(p.h, p.root, NormKey);
      && rows == a.1 && IsArray(p.h, rows) && Items(p.h, rows) == Items(a.0, a.1)
      && |Items(p.h, rows)| == |recs|
      && forall i :: 0 <= i < |Items(p.h, rows)| ==> IsRow(p.h, Items(p.h, rows)[i])
  {
    var a := AllocRows([], recs);
    var h1, arr := a.0, a.1;
    var h3 := RowsPayload(recs, tag, origin).h;
    RowsPayloadLayout(recs, tag, origin);
    AllocRowsAreRows([], recs);
    assert h3[arr.id] == h1[arr.id];
    forall i | 0 <= i < |Items(h3, arr)|
      ensures IsRow(h3, Items(h3, arr)[i])
    {
      RowPrefix(h1, h3, Items(h1, arr)[i]);
    }
  }

  /** The `splits` of a decoded-CSV payload are `deriveSplits` of its rows. */
  lemma {:induction false} RowsPayloadSplits(recs: seq<Record>, tag: string, origin: Origin)
    requires forall i :: 0 <= i < |recs| ==> RecordLooksLikeRow(recs[i])
    ensures var a := AllocRows([], recs); var p := RowsPayload(recs, tag, origin);
      var sp := Get(p.h, p.root, "splits");
      && DeriveSplits(p.h, a.1) == DeriveSplits(a.0, a.1)
      && IsArray(p.h, sp) && Items(p.h, sp) == StrArray(DeriveSplits(p.h, a.1).value).items
  {
    var a := AllocRows([], recs);
    var p := RowsPayload(recs, tag, origin);
    RowsPayloadLayout(recs, tag, origin);
    AllocSplitsScalar(recs);
    SplitsPrefix(a.0, p.h, a.1);
  }

  /** The `split_id` of every allocated record is a scalar, never a reference. */
  lemma {:induction false} AllocSplitsScalar(recs: seq<Record>)
    ensures var a := AllocRows([], recs);
      forall i :: 0 <= i < |Items(a.0, a.1)| ==> ScalarField(a.0, Items(a.0, a.1)[i], "split_id")
  {
    var a := AllocRows([], recs);
    forall i | 0 <= i < |Items(a.0, a.1)|
      ensures ScalarField(a.0, Items(a.0, a.1)[i], "split_id")
    {
      RecordFieldsScalar(recs[i], "split_id");
    }
  }

  /** Where `RowsPayload` puts things: the record objects and their array first, then the
      splits array, then the root object holding the three keys. */
  lemma {:induction false} RowsPayloadLayout(recs: seq<Record>, tag: string, origin: Origin)
    ensures var a := AllocRows([], recs); var p := RowsPayload(recs, tag, origin);
      && |p.h| == |a.0| + 2 && p.h[..|a.0|] == a.0 && p.root == Ref(|a.0| + 1)
      && p.h[|a.0|] == StrArray(DeriveSplits(a.0, a.1).value)
      && IsPlainObject(p.h, p.root)
      && Get(p.h, p.root, NormKey) == a.1 && Get(p.h, p.root, "splits") == Ref(|a.0|)
      && Get(p.h, p.root, "__source") == Str(tag)
  {
    var a := AllocRows([], recs);
    var p := RowsPayload(recs, tag, origin);
    assert p.h[|a.0| + 1] == Obj(RootProps(a.1, Ref(|a.0|), tag));
  }

  /** The payload's `normalized_results.csv` is an array whose entries are, in order, the
      objects built from `recs`. */
  predicate CarriesRecords(p: Payload, recs: seq<Record>)
  {
    var rows := Get(p.h, p.root, NormKey);
    && IsArray(p.h, rows) && |Items(p.h, rows)| == |recs|
    && forall i :: 0 <= i < |recs| ==>
         Items(p.h, rows)[i] == Ref(i) && i < |p.h| && p.h[i] == RecordNode(recs[i])
  }

  /** The object built from decoded CSV records carries exactly those records. */
  lemma {:induction false} RowsPayloadRecords(recs: seq<Record>, tag: string, origin: Origin)
    ensures CarriesRecords(RowsPayload(recs, tag, origin), recs)
  {
    RowsPayloadLayout(recs, tag, origin);
    CarriesInLongerHeap(RowsPayload(recs, tag, origin), recs);
  }

  /** Records allocated at the start of a heap are still there in any longer heap. */
  lemma {:induction false} CarriesInLongerHeap(p: Payload, recs: seq<Record>)
    requires var a := AllocRows([], recs);
      |a.0| <= |p.h| && p.h[..|a.0|] == a.0 && Get(p.h, p.root, NormKey) == a.1
    ensures CarriesRecords(p, recs)
  {
    var a := AllocRows([], recs);
    var h, arr := a.0, a.1;
    assert p.h[arr.id] == h[arr.id];
    assert Items(p.h, arr) == Items(h, arr);
    forall i | 0 <= i < |recs|
      ensures p.h[i] == RecordNode(recs[i])
    {
      assert p.h[i] == h[i];
    }
  }

  /** The field `k` of `v` is not a reference. */
  predicate ScalarField(h: Heap, v: Value, k: string)
  {
    IsObject(h, v) && !Get(h, v, k).Ref?
  }

  lemma {:induction false} RecordFieldsScalar(rec: Record, k: string)
    ensures !Lookup(RecordNode(rec).props, k).Ref?
  {
    var n := RecordNode(rec);
    if HasKey(n.props, k) {
      var i :| 0 <= i < |n.props| && n.props[i] == (k, Lookup(n.props, k));
      assert n.props[i].1 == CellValue(rec[i].1);
    }
  }

  /** Split ids read through a longer heap are the same. */
  lemma {:induction false} SplitsPrefix(h: Heap, h': Heap, arr: Value)
    requires |h| <= |h'| && h'[..|h|] == h
    requires IsArray(h, arr)
    requires forall i :: 0 <= i < |Items(h, arr)| ==> ScalarField(h, Items(h, arr)[i], "split_id")
    ensures DeriveSplits(h', arr) == DeriveSplits(h, arr)
  {
    var items := Items(h, arr);
    assert h'[arr.id] == h[arr.id];
    forall i | 0 <= i < |items|
      ensures SplitOf(h', items[i]) == SplitOf(h, items[i])
    {
      assert h'[items[i].id] == h[items[i].id];
    }
    assert SplitsOfRows(h', items) == SplitsOfRows(h, items);
  }

  // ---------------------------------------------------------------- fetchAutoParsedRmse

  /** The values `obj[k]` for each key, in order. */
  function KeyValues(h: Heap, obj: Value, keys: seq<string>): (r: seq<Value>)
    ensures |r| == |keys| && forall i :: 0 <= i < |keys| ==> r[i] == Get(h, obj, keys[i])
  {
    seq(|keys|, i requires 0 <= i < |keys| => Get(h, obj, keys[i]))
  }

  /** `obj[k1] || obj[k2] || …`, or `undefined` when every key is falsy (the trailing
      `|| []` of the source only ever reaches `isArr(rows) ? rows : []`, where it is
      indistinguishable from `undefined`). */
  function FirstTruthy(h: Heap, obj: Value, keys: seq<string>): (r: Value)
    ensures r == Undef || Truthy(r)
    ensures r == Undef <==> forall i :: 0 <= i < |keys| ==> !Truthy(Get(h, obj, keys[i]))
    ensures r != Undef ==> exists i :: (0 <= i < |keys| && r == Get(h, obj, keys[i]) &&
      forall j :: 0 <= j < i ==> !Truthy(Get(h, obj, keys[j])))
  {
    match FirstIndex(KeyValues(h, obj, keys), Truthy)
    case None => Undef
    case Some(i) => Get(h, obj, keys[i])
  }

  /** `deriveSplits(obj["normalized_results.csv"] || [])` and `summarizeRows` throw a
      `TypeError` on this object: its `normalized_results.csv` is truthy but not an array. */
  predicate RowsKeyThrows(h: Heap, obj: Value)
  {
    var rows := Get(h, obj, NormKey);
    Truthy(rows) && !IsArray(h, rows)
  }

  /** `obj.splits = deriveSplits(obj["normalized_results.csv"] || [])`.  `None` is the
      `TypeError` raised when that entry is truthy but not an array. */
  function FillSplits(h: Heap, obj: Value): (r: Option<Heap>)
    requires IsObject(h, obj)
    ensures r.None? <==> RowsKeyThrows(h, obj)
    ensures r.Some? ==> var sp := Get(r.value, obj, "splits");
      && |r.value| == |h| + 1 && IsObject(r.value, obj)
      && IsArray(r.value, sp)
      && Items(r.value, sp) == StrArray(DeriveSplits(h, Get(h, obj, NormKey)).value).items
    ensures r.Some? ==> forall k :: k != "splits" ==> Get(r.value, obj, k) == Get(h, obj, k)
    ensures r.Some? ==> r.value[obj.id].Arr? == h[obj.id].Arr?
  {
    match DeriveSplits(h, Get(h, obj, NormKey))
    case None => None
    case Some(splits) =>
      var (h1, sp) := Alloc(h, StrArray(splits));
      var h2 := SetProp(h1, obj.id, "splits", sp);
      assert h2[|h|] == h1[|h|];
      Some(h2)
  }

  /** `!obj.splits || (isArr(obj.splits) && !obj.splits.length)`: the JSON branch of the
      axios request re-derives the splits when they are missing or an empty array. */
  predicate SplitsMissingOrEmpty(h: Heap, obj: Value)
  {
    var sp := Get(h, obj, "splits");
    !Truthy(sp) || (IsArray(h, sp) && |Items(h, sp)| == 0)
  }

  /** Lines 62-75: when no alias holds a non-empty array and the same text decodes as CSV
      with rows, those rows are stored under `normalized_results.csv`. */
  function AttachCsvRows(h: Heap, obj: Value, csv: seq<Record>): (r: Heap)
    requires IsObject(h, obj)
    requires forall i :: 0 <= i < |csv| ==> RecordLooksLikeRow(csv[i])
    ensures IsObject(r, obj) && r[obj.id].Arr? == h[obj.id].Arr?
    ensures forall k :: k != NormKey ==> Get(r, obj, k) == Get(h, obj, k)
    ensures |AsArray(h, FirstTruthy(h, obj, RowKeys))| > 0 || |csv| == 0 ==> r == h
    ensures |AsArray(h, FirstTruthy(h, obj, RowKeys))| == 0 && |csv| > 0 ==>
      var rows := Get(r, obj, NormKey);
      IsArray(r, rows) && |Items(r, rows)| == |csv| &&
      forall i :: 0 <= i < |csv| ==> IsRow(r, Items(r, rows)[i])
  {
    if |AsArray(h, FirstTruthy(h, obj, RowKeys))| == 0 && |csv| > 0 then
      var (h1, arr) := AllocRows(h, csv);
      AllocRowsAreRows(h, csv);
      assert h1[obj.id] == h[obj.id];
      var h2 := SetProp(h1, obj.id, NormKey, arr);
      assert forall i :: 0 <= i < |csv| ==> Items(h1, arr)[i].id != obj.id;
      forall i | 0 <= i < |csv|
        ensures IsRow(h2, Items(h2, arr)[i])
      {
        assert h2[Items(h1, arr)[i].id] == h1[Items(h1, arr)[i].id];
      }
      h2
    else h
  }

  /** Lines 61-80 once `JSON.parse` produced an object: `None` is the `TypeError` that a
      truthy non-array `normalized_results.csv` raises, in `deriveSplits` when the splits
      are re-derived and otherwise in the summary the debug log of line 79 computes
      (`rows.map`); the surrounding `catch` turns it into a CSV attempt. */
  function AxiosJsonObject(h: Heap, obj: Value, csv: seq<Record>): (r: Option<Heap>)
    requires IsObject(h, obj)
    requires forall i :: 0 <= i < |csv| ==> RecordLooksLikeRow(csv[i])
    ensures r.None? <==> RowsKeyThrows(AttachCsvRows(h, obj, csv), obj)
    ensures r.Some? ==> IsObject(r.value, obj) && Truthy(Get(r.value, obj, "splits"))
    ensures r.Some? && !SplitsMissingOrEmpty(h, obj) ==> r.value == AttachCsvRows(h, obj, csv)
    ensures r.Some? && SplitsMissingOrEmpty(h, obj) ==>
      var h1 := AttachCsvRows(h, obj, csv);
      var sp := Get(r.value, obj, "splits");
      IsArray(r.value, sp) && Items(r.value, sp) == StrArray(DeriveSplits(h1, Get(h1, obj, NormKey)).value).items
    ensures r.Some? ==> Get(r.value, obj, NormKey) == Get(AttachCsvRows(h, obj, csv), obj, NormKey)
  {
    var h1 := AttachCsvRows(h, obj, csv);
    assert Get(h1, obj, "splits") == Get(h, obj, "splits");
    if RowsKeyThrows(h1, obj) then None
    else if SplitsMissingOrEmpty(h, obj) then
      assert SplitsMissingOrEmpty(h1, obj) by {
        var sp := Get(h, obj, "splits");
        if IsArray(h, sp) && |Items(h, sp)| == 0 && h1 != h {
          assert sp.id != obj.id || h1[obj.id].Arr?;
          assert sp.id < |h|;
        }
      }
      FillSplits(h1, obj)
    else Some(h1)
  }

  /** Lines 97-103 and 121-127: a parsed object is returned as it is, except that missing
      splits are derived from `normalized_results.csv` (the aliases are not consulted). */
  function KeepOrFillSplits(h: Heap, obj: Value, origin: Origin): (r: Option<Payload>)
    requires IsObject(h, obj)
    ensures Truthy(Get(h, obj, "splits")) ==> r == Some(Payload(h, obj, origin))
    ensures r.None? <==> !Truthy(Get(h, obj, "splits")) && RowsKeyThrows(h, obj)
    ensures r.Some? ==> (r.value.root == obj && r.value.origin == origin &&
      IsObject(r.value.h, obj) && Truthy(Get(r.value.h, obj, "splits")))
  {
    if Truthy(Get(h, obj, "splits")) then Some(Payload(h, obj, origin))
    else match FillSplits(h, obj)
      case None => None
      case Some(h1) => Some(Payload(h1, obj, origin))
  }

  /** Line 55: the debug log calls `raw.slice(0, 80)` whenever `raw.slice` is truthy, which
      throws when `raw` is an object carrying a non-function `slice` property. */
  predicate LogThrows(h: Heap, raw: Value)
  {
    IsObject(h, raw) && Truthy(Get(h, raw, "slice"))
  }

  /** `JSON.parse(raw)` produced a non-null object. */
  predicate ParsedObject(j: JsonOutcome)
  {
    j.JsonParsed? && IsObject(j.h, j.v)
  }

  /** Lines 59-82 on a non-empty string: the parsed object, or `None` when parsing threw,
      gave a non-object, or `deriveSplits` threw. */
  function AxiosJson(j: JsonOutcome, csv: seq<Record>): (r: Option<Payload>)
    requires forall i :: 0 <= i < |csv| ==> RecordLooksLikeRow(csv[i])
    ensures !ParsedObject(j) ==> r.None?
    ensures r.Some? ==> (r.value.origin == Origin.AxiosJson && r.value.root == j.v &&
      IsObject(r.value.h, j.v) && Truthy(Get(r.value.h, j.v, "splits")))
    ensures ParsedObject(j) && |csv| > 0 ==> r.Some?
  {
    if ParsedObject(j) then
      match AxiosJsonObject(j.h, j.v, csv)
      case None => None
      case Some(h1) => Some(Payload(h1, j.v, Origin.AxiosJson))
    else None
  }

  /** When control leaves the `try` block of lines 51-108 for the `fetch` fallback, listed
      case by case: axios threw; or it gave a non-empty string that yields no CSV rows and
      either is not a JSON object or is one whose `normalized_results.csv` throws; or it gave
      anything else that is not a plain object (`""`, a number, a boolean, `null`, an array);
      or a plain object whose `slice` property makes the line-55 log throw; or a plain object
      without truthy `splits` whose `normalized_results.csv` throws in `deriveSplits`. */
  predicate AxiosGivesUp(ax: AxiosOutcome, parse: string -> JsonOutcome, papa: string -> PapaOutcome)
  {
    match ax
    case AxiosThrows => true
    case AxiosData(h, raw) =>
      if raw.Str? && |raw.s| > 0 then
        var j := parse(raw.s);
        |ParseCsvRows(papa, raw.s)| == 0 && (!ParsedObject(j) || RowsKeyThrows(j.h, j.v))
      else
        !IsPlainObject(h, raw) || LogThrows(h, raw) ||
        (!Truthy(Get(h, raw, "splits")) && RowsKeyThrows(h, raw))
  }

  /** The `try` block of lines 51-108: `Some` when it returns, `None` when control reaches
      the `fetch` fallback (an exception, or no usable content). */
  function AxiosStage(ax: AxiosOutcome, parse: string -> JsonOutcome, papa: string -> PapaOutcome): (r: Option<Payload>)
    ensures r.Some? ==> r.value.origin in {Origin.AxiosJson, AxiosObject, CsvFromRawText}
    ensures ax.AxiosThrows? ==> r.None?
    ensures ax.AxiosData? && IsArray(ax.h, ax.raw) ==> r.None?
    ensures ax.AxiosData? && LogThrows(ax.h, ax.raw) ==> r.None?
    ensures ax.AxiosData? && !IsObject(ax.h, ax.raw) && !(ax.raw.Str? && |ax.raw.s| > 0) ==> r.None?
    ensures ax.AxiosData? && ax.raw.Str? && |ax.raw.s| > 0 && |ParseCsvRows(papa, ax.raw.s)| > 0 ==>
      r.Some? && r.value.origin in {Origin.AxiosJson, CsvFromRawText}
    ensures ax.AxiosData? && ax.raw.Str? && |ax.raw.s| > 0 && !ParsedObject(parse(ax.raw.s)) ==>
      (r.None? <==> |ParseCsvRows(papa, ax.raw.s)| == 0)
    ensures (ax.AxiosData? && ax.raw.Str? && |ax.raw.s| > 0 && ParsedObject(parse(ax.raw.s)) &&
             !RowsKeyThrows(parse(ax.raw.s).h, parse(ax.raw.s).v)) ==>
      r.Some? && r.value.origin == Origin.AxiosJson && r.value.root == parse(ax.raw.s).v
    ensures ax.AxiosData? && ax.raw.Str? && |ax.raw.s| > 0 && ParsedObject(parse(ax.raw.s)) ==>
      (r.None? <==> |ParseCsvRows(papa, ax.raw.s)| == 0 && RowsKeyThrows(parse(ax.raw.s).h, parse(ax.raw.s).v))
    ensures ax.AxiosData? && IsPlainObject(ax.h, ax.raw) && !LogThrows(ax.h, ax.raw) ==>
      (r.None? <==> !Truthy(Get(ax.h, ax.raw, "splits")) && RowsKeyThrows(ax.h, ax.raw))
    ensures ax.AxiosData? && IsPlainObject(ax.h, ax.raw) && !LogThrows(ax.h, ax.raw) && r.Some? ==>
      r.value.origin == AxiosObject && r.value.root == ax.raw
  {
    match ax
    case AxiosThrows => None
    case AxiosData(h, raw) =>
      if LogThrows(h, raw) then None
      else if raw.Str? && |raw.s| > 0 then
        var csv := ParseCsvRows(papa, raw.s);
        var viaJson := AxiosJson(parse(raw.s), csv);
        assert |csv| == 0 && ParsedObject(parse(raw.s)) ==>
          AttachCsvRows(parse(raw.s).h, parse(raw.s).v, csv) == parse(raw.s).h;
        if viaJson.Some? then viaJson
        else if |csv| > 0 then Some(RowsPayload(csv, "csv_from_raw_text", CsvFromRawText))
        else None
      else if IsPlainObject(h, raw) then KeepOrFillSplits(h, raw, AxiosObject)
      else None
  }

  /** Lines 121-127 answer: the fetched text is a JSON object, and keeping or deriving its
      `splits` does not throw (a throw there is caught as "not json"). */
  predicate FetchJsonAnswers(fetched: FetchOutcome, parse: string -> JsonOutcome)
  {
    && fetched.FetchText?
    && ParsedObject(parse(fetched.text))
    && !(!Truthy(Get(parse(fetched.text).h, parse(fetched.text).v, "splits")) &&
         RowsKeyThrows(parse(fetched.text).h, parse(fetched.text).v))
  }

  /** The `try` block of lines 114-147 after axios gave up. */
  function FetchStage(fetched: FetchOutcome, parse: string -> JsonOutcome, papa: string -> PapaOutcome): (r: Payload)
    ensures r.origin in {FetchJson, CsvFromFetch, NoContent, FetchError}
    ensures r.origin == FetchError <==> fetched.FetchThrows?
    ensures r.origin == FetchJson <==> FetchJsonAnswers(fetched, parse)
    ensures FetchJsonAnswers(fetched, parse) ==>
      var j := parse(fetched.text);
      && r.root == j.v && Truthy(Get(r.h, r.root, "splits"))
      && (Truthy(Get(j.h, j.v, "splits")) ==> r.h == j.h)
      && (!Truthy(Get(j.h, j.v, "splits")) ==> Some(r.h) == FillSplits(j.h, j.v))
    ensures fetched.FetchText? && !FetchJsonAnswers(fetched, parse) ==>
      (r.origin == CsvFromFetch <==> |ParseCsvRows(papa, fetched.text)| > 0) &&
      (r.origin == NoContent <==> |ParseCsvRows(papa, fetched.text)| == 0)
  {
    match fetched
    case FetchThrows => RowsPayload([], "error", FetchError)
    case FetchText(text) =>
      var j := parse(text);
      var viaJson := if ParsedObject(j) then KeepOrFillSplits(j.h, j.v, FetchJson) else None;
      if viaJson.Some? then viaJson.value
      else
        var csv := ParseCsvRows(papa, text);
        if |csv| > 0 then RowsPayload(csv, "csv_from_fetch", CsvFromFetch)
        else RowsPayload([], "empty", NoContent)
  }

  /** Lines 130-146: CSV text fetched after axios gave up is answered with the three-key
      object holding every decoded row, in order; no usable content gives the empty object. */
  lemma {:induction false} FetchCsvPayload(fetched: FetchOutcome, parse: string -> JsonOutcome,
                                           papa: string -> PapaOutcome)
    ensures var r := FetchStage(fetched, parse, papa);
      r.origin == CsvFromFetch ==>
        && CarriesRecords(r, ParseCsvRows(papa, fetched.text))
        && |ParseCsvRows(papa, fetched.text)| > 0
        && RowsShaped(r, "csv_from_fetch")
    ensures var r := FetchStage(fetched, parse, papa);
      r.origin in {NoContent, FetchError} ==>
        CarriesRecords(r, []) && RowsShaped(r, if r.origin == NoContent then "empty" else "error")
  {
    var r := FetchStage(fetched, parse, papa);
    if r.origin == CsvFromFetch {
      var csv := ParseCsvRows(papa, fetched.text);
      RowsPayloadRecords(csv, "csv_from_fetch", CsvFromFetch);
      RowsPayloadShape(csv, "csv_from_fetch", CsvFromFetch);
    } else if r.origin == NoContent {
      RowsPayloadRecords([], "empty", NoContent);
      RowsPayloadShape([], "empty", NoContent);
    } else if r.origin == FetchError {
      RowsPayloadRecords([], "error", FetchError);
      RowsPayloadShape([], "error", FetchError);
    }
  }

  /** The source tag a payload built from rows carries. */
  function Tag(o: Origin): string
  {
    match o
    case CsvFromRawText => "csv_from_raw_text"
    case CsvFromFetch => "csv_from_fetch"
    case NoContent => "empty"
    case FetchError => "error"
    case _ => ""
  }

  /** `fetchAutoParsedRmse`: never throws; the axios attempt first, `fetch` when it gives up. */
  function FetchAutoParsedRmse(ax: AxiosOutcome, fetched: FetchOutcome, parse: string -> JsonOutcome,
                               papa: string -> PapaOutcome): (p: Payload)
    ensures p.origin in {Origin.AxiosJson, AxiosObject, CsvFromRawText} <==> AxiosStage(ax, parse, papa).Some?
    ensures p.origin == FetchError <==> AxiosStage(ax, parse, papa).None? && fetched.FetchThrows?
  {
    var first := AxiosStage(ax, parse, papa);
    if first.Some? then first.value else FetchStage(fetched, parse, papa)
  }

  /** Every outcome is an object; decoded CSV has the fixed three-key shape with at least
      one row; total failure is the empty shape tagged `"empty"` or `"error"`; objects taken
      from JSON always end up with truthy `splits`. */
  lemma {:induction false} FetchAutoParsedRmseShape(ax: AxiosOutcome, fetched: FetchOutcome, parse: string -> JsonOutcome,
                                 papa: string -> PapaOutcome)
    ensures var p := FetchAutoParsedRmse(ax, fetched, parse, papa);
      IsObject(p.h, p.root)
    ensures var p := FetchAutoParsedRmse(ax, fetched, parse, papa);
      p.origin in {CsvFromRawText, CsvFromFetch} ==>
        RowsShaped(p, Tag(p.origin)) && |Items(p.h, Get(p.h, p.root, NormKey))| > 0
    ensures var p := FetchAutoParsedRmse(ax, fetched, parse, papa);
      p.origin in {NoContent, FetchError} ==>
        RowsShaped(p, Tag(p.origin)) && Items(p.h, Get(p.h, p.root, NormKey)) == []
    ensures var p := FetchAutoParsedRmse(ax, fetched, parse, papa);
      p.origin in {Origin.AxiosJson, AxiosObject, FetchJson} ==> Truthy(Get(p.h, p.root, "splits"))
  {
    if AxiosStage(ax, parse, papa).None? {
      FetchStageShape(fetched, parse, papa);
    } else {
      AxiosStageShape(ax, parse, papa);
    }
  }

  /** The shape promise for what the axios attempt answers. */
  lemma {:induction false} AxiosStageShape(ax: AxiosOutcome, parse: string -> JsonOutcome, papa: string -> PapaOutcome)
    ensures var r := AxiosStage(ax, parse, papa);
      r.Some? ==> var p := r.value;
        && IsObject(p.h, p.root)
        && (p.origin == CsvFromRawText ==>
              RowsShaped(p, Tag(p.origin)) && |Items(p.h, Get(p.h, p.root, NormKey))| > 0)
        && (p.origin in {Origin.AxiosJson, AxiosObject} ==> Truthy(Get(p.h, p.root, "splits")))
  {
    var r := AxiosStage(ax, parse, papa);
    if r.Some? && r.value.origin == CsvFromRawText {
      RowsPayloadShape(ParseCsvRows(papa, ax.raw.s), "csv_from_raw_text", CsvFromRawText);
    }
  }

  /** The shape promise for what the `fetch` fallback answers. */
  lemma {:induction false} FetchStageShape(fetched: FetchOutcome, parse: string -> JsonOutcome, papa: string -> PapaOutcome)
    ensures var p := FetchStage(fetched, parse, papa);
      && IsObject(p.h, p.root)
      && (p.origin == CsvFromFetch ==>
            RowsShaped(p, Tag(p.origin)) && |Items(p.h, Get(p.h, p.root, NormKey))| > 0)
      && (p.origin in {NoContent, FetchError} ==>
            RowsShaped(p, Tag(p.origin)) && Items(p.h, Get(p.h, p.root, NormKey)) == [])
      && (p.origin == FetchJson ==> Truthy(Get(p.h, p.root, "splits")))
  {
    FetchCsvPayload(fetched, parse, papa);
  }

  /** The `fetch` fallback runs exactly in the cases `AxiosGivesUp` lists; otherwise the
      axios attempt's payload is returned, and a string that decodes to CSV rows never
      falls back. */
  lemma {:induction false} FallbackCases(ax: AxiosOutcome, fetched: FetchOutcome, parse: string -> JsonOutcome,
                      papa: string -> PapaOutcome)
    ensures AxiosStage(ax, parse, papa).None? <==> AxiosGivesUp(ax, parse, papa)
    ensures var p := FetchAutoParsedRmse(ax, fetched, parse, papa);
      AxiosGivesUp(ax, parse, papa) ==> p == FetchStage(fetched, parse, papa)
    ensures var p := FetchAutoParsedRmse(ax, fetched, parse, papa);
      !AxiosGivesUp(ax, parse, papa) ==> p == AxiosStage(ax, parse, papa).value
    ensures var p := FetchAutoParsedRmse(ax, fetched, parse, papa);
      ax.AxiosData? && ax.raw.Str? && |ax.raw.s| > 0 && |ParseCsvRows(papa, ax.raw.s)| > 0 ==>
        p.origin in {Origin.AxiosJson, CsvFromRawText}
    ensures var p := FetchAutoParsedRmse(ax, fetched, parse, papa);
      (ax.AxiosData? && ax.raw.Str? && |ax.raw.s| > 0 && !ParsedObject(parse(ax.raw.s)) &&
       |ParseCsvRows(papa, ax.raw.s)| > 0) ==> p == RowsPayload(ParseCsvRows(papa, ax.raw.s), "csv_from_raw_text", CsvFromRawText)
  {
    match ax {
      case AxiosThrows =>
      case AxiosData(h, raw) =>
        if !(raw.Str? && |raw.s| > 0) && !IsPlainObject(h, raw) {
          assert AxiosStage(ax, parse, papa).None? by {
            if IsObject(h, raw) { assert IsArray(h, raw); }
          }
        }
    }
  }

  // ---------------------------------------------------------------- fetchSeriesBundle

  /** The `models` argument: an array, or a single value that gets wrapped. */
  datatype ModelsArg = Many(ms: seq<string>) | One(m: string)

  type Query = seq<(string, string)>

  /** The values of every parameter named `name`, in order. */
  function ParamValues(q: Query, name: string): (r: seq<string>)
    ensures |r| <= |q|
  {
    if |q| == 0 then []
    else (if q[0].0 == name then [q[0].1] else []) + ParamValues(q[1..], name)
  }

  function ModelParams(ms: seq<string>): (q: Query)
    ensures |q| == |ms| && forall i :: 0 <= i < |ms| ==> q[i] == ("models", ms[i])
  {
    seq(|ms|, i requires 0 <= i < |ms| => ("models", ms[i]))
  }

  /** The query string of `fetchSeriesBundle`: one `models` entry per non-empty model in
      order, then `maxPoints`, then `keepFraction` unless it is `null`/`undefined`. */
  function SeriesQuery(models: ModelsArg, maxPoints: int, keepFraction: Option<string>): (q: Query)
    ensures var kept := Filter(NonEmpty, if models.Many? then models.ms else [models.m]);
      && |q| == |kept| + 1 + (if keepFraction.Some? then 1 else 0)
      && q[..|kept|] == ModelParams(kept)
      && q[|kept|] == ("maxPoints", IntToString(maxPoints))
      && (keepFraction.Some? ==> q[|kept| + 1] == ("keepFraction", keepFraction.value))
  {
    var ms := if models.Many? then models.ms else [models.m];
    ModelParams(Filter(NonEmpty, ms)) + [("maxPoints", IntToString(maxPoints))] +
      (if keepFraction.Some? then [("keepFraction", keepFraction.value)] else [])
  }

  lemma {:induction false} ParamValuesAppend(a: Query, b: Query, name: string)
    ensures ParamValues(a + b, name) == ParamValues(a, name) + ParamValues(b, name)
    decreases |a|
  {
    if |a| == 0 {
      assert a + b == b;
    } else {
      var x := if a[0].0 == name then [a[0].1] else [];
      assert (a + b)[0] == a[0] && (a + b)[1..] == a[1..] + b;
      assert ParamValues(a + b, name) == x + ParamValues(a[1..] + b, name);
      ParamValuesAppend(a[1..], b, name);
      assert x + (ParamValues(a[1..], name) + ParamValues(b, name)) ==
        (x + ParamValues(a[1..], name)) + ParamValues(b, name);
    }
  }

  lemma {:induction false} ParamValuesOfModels(ms: seq<string>, name: string)
    ensures ParamValues(ModelParams(ms), name) == if name == "models" then ms else []
    decreases |ms|
  {
    if |ms| > 0 {
      assert ModelParams(ms)[1..] == ModelParams(ms[1..]);
      ParamValuesOfModels(ms[1..], name);
    }
  }

  /** Reading the query back gives exactly the non-empty models in order, one `maxPoints`,
      and a `keepFraction` exactly when one was given. */
  lemma {:induction false} SeriesQueryReadBack(models: ModelsArg, maxPoints: int, keepFraction: Option<string>)
    ensures var q := SeriesQuery(models, maxPoints, keepFraction);
      ParamValues(q, "models") == Filter(NonEmpty, if models.Many? then models.ms else [models.m])
    ensures ParamValues(SeriesQuery(models, maxPoints, keepFraction), "maxPoints") == [IntToString(maxPoints)]
    ensures ParamValues(SeriesQuery(models, maxPoints, keepFraction), "keepFraction") ==
      if keepFraction.Some? then [keepFraction.value] else []
  {
    var kept := Filter(NonEmpty, if models.Many? then models.ms else [models.m]);
    var b: Query := [("maxPoints", IntToString(maxPoints))];
    var c: Query := if keepFraction.Some? then [("keepFraction", keepFraction.value)] else [];
    ParamNamesDiffer();
    ReadBackLayout(kept, b, c, "models");
    ReadBackLayout(kept, b, c, "maxPoints");
    ReadBackLayout(kept, b, c, "keepFraction");
  }

  lemma {:induction false} ParamNamesDiffer()
    ensures "models" != "maxPoints" && "models" != "keepFraction" && "maxPoints" != "keepFraction"
  {
    assert "models"[1] == 'o' && "maxPoints"[1] == 'a' && "keepFraction"[1] == 'e';
  }

  /** The values read back from a query laid out as `SeriesQuery` lays it out. */
  lemma {:induction false} ReadBackLayout(kept: seq<string>, b: Query, c: Query, name: string)
    requires |b| == 1 && |c| <= 1
    ensures ParamValues(ModelParams(kept) + b + c, name) == (if name == "models" then kept else []) +
      (if b[0].0 == name then [b[0].1] else []) + (if |c| == 1 && c[0].0 == name then [c[0].1] else [])
  {
    ReadBackOne(ModelParams(kept), b, c, name);
    ParamValuesOfModels(kept, name);
  }

  lemma {:induction false} ReadBackOne(a: Query, b: Query, c: Query, name: string)
    requires |b| == 1 && |c| <= 1
    ensures ParamValues(a + b + c, name) == ParamValues(a, name) +
      (if b[0].0 == name then [b[0].1] else []) + (if |c| == 1 && c[0].0 == name then [c[0].1] else [])
  {
    ParamValuesAppend(a + b, c, name);
    ParamValuesAppend(a, b, name);
    assert b[1..] == [];
    if |c| == 1 { assert c[1..] == []; }
  }
}

=== FILE: splitlabel.dfy ===
/** Split ids as the results view shows them: the split diagram (`SplitDiagram.jsx`)
    reads the train and test percentages out of an id such as `split_70_30`, and the split
    selector (`SplitSelector.jsx`) turns an id into the text of its option. */
module SplitLabel {
  import opened Wrappers
  import opened Text

  const Word := "split_"
  const DefaultTrain := 80
  const DefaultTest := 20

  /** `split_` starts at `p`, its letters in either case (the pattern's `i` flag). */
  predicate WordAt(s: string, p: nat)
  {
    p + |Word| <= |s| && ToLower(s[p..p + |Word|]) == Word
  }

  predicate IsSeparator(c: char)
  {
    c == '-' || c == '_'
  }

  /** The pattern `split_(\d+)[-_](\d+)` matches at `p` with `a` digits in the first group
      and `b` in the second. */
  predicate Shape(s: string, p: nat, a: nat, b: nat)
  {
    && WordAt(s, p) && a > 0 && b > 0
    && p + 7 + a + b <= |s|
    && DigitsBetween(s, p + 6, p + 6 + a)
    && IsSeparator(s[p + 6 + a])
    && DigitsBetween(s, p + 7 + a, p + 7 + a + b)
  }

  /** A shape at `p` fixes the first group (a separator is not a digit) and leaves the
      digit run after the separator at least as long as the second. */
  lemma {:induction false} ShapeRuns(s: string, p: nat, a: nat, b: nat)
    requires Shape(s, p, a, b)
    ensures DigitRun(s, p + 6) == a && DigitRun(s, p + 7 + a) >= b
  {
    DigitRunSpan(s, p + 6, a);
    DigitRunAtLeast(s, p + 7 + a, b);
  }

  /** Every shape at `p` has the digit run after `split_` as its first group, a separator
      after it, and a non-empty second group inside the digit run that follows. */
  lemma {:induction false} ShapesFollowRuns(s: string, p: nat)
    ensures forall a: nat, b: nat :: Shape(s, p, a, b) ==>
      (var d1 := DigitRun(s, p + 6);
       a == d1 && p + 6 + d1 < |s| && IsSeparator(s[p + 6 + d1]) && 0 < b <= DigitRun(s, p + 7 + d1))
  {
    forall a: nat, b: nat | Shape(s, p, a, b)
      ensures var d1 := DigitRun(s, p + 6);
        a == d1 && p + 6 + d1 < |s| && IsSeparator(s[p + 6 + d1]) && 0 < b <= DigitRun(s, p + 7 + d1)
    {
      ShapeRuns(s, p, a, b);
    }
  }

  /** The texts the pattern's two groups capture at `p`: the first is the whole digit run
      after `split_` and the second, being greedy, the whole digit run after the
      separator. */
  function MatchAt(s: string, p: nat): (r: Option<(string, string)>)
    ensures r.Some? ==> AllDigits(r.value.0) && AllDigits(r.value.1)
    ensures r.Some? ==> |r.value.0| > 0 && |r.value.1| > 0 && p + 7 + |r.value.0| + |r.value.1| <= |s|
  {
    if !WordAt(s, p) then None
    else
      var d1 := DigitRun(s, p + 6);
      if d1 == 0 || p + 6 + d1 >= |s| || !IsSeparator(s[p + 6 + d1]) then None
      else
        var d2 := DigitRun(s, p + 7 + d1);
        if d2 == 0 then None
        else
          DigitsBetweenSlice(s, p + 6, p + 6 + d1);
          DigitsBetweenSlice(s, p + 7 + d1, p + 7 + d1 + d2);
          Some((s[p + 6..p + 6 + d1], s[p + 7 + d1..p + 7 + d1 + d2]))
  }

  /** The pattern matches at `p` exactly when some shape fits there, and then the captures
      are a fitting shape whose second group cannot grow. */
  lemma {:induction false} MatchAtShape(s: string, p: nat)
    ensures MatchAt(s, p).Some? <==> exists a: nat, b: nat :: Shape(s, p, a, b)
    ensures MatchAt(s, p).Some? ==> exists a: nat, b: nat :: (Shape(s, p, a, b) &&
      (p + 7 + a + b == |s| || !IsDigit(s[p + 7 + a + b])) &&
      MatchAt(s, p).value == (s[p + 6..p + 6 + a], s[p + 7 + a..p + 7 + a + b]))
  {
    ShapesFollowRuns(s, p);
    if MatchAt(s, p).Some? {
      var d1 := DigitRun(s, p + 6);
      var d2 := DigitRun(s, p + 7 + d1);
      assert Shape(s, p, d1, d2);
    }
  }

  /** The leftmost position at or after `p` where the pattern matches. */
  function FirstMatchFrom(s: string, p: nat): (r: Option<nat>)
    requires p <= |s|
    ensures r.Some? ==> p <= r.value <= |s| && MatchAt(s, r.value).Some?
    ensures r.Some? ==> forall k :: p <= k < r.value ==> MatchAt(s, k).None?
    ensures r.None? ==> forall k :: p <= k ==> MatchAt(s, k).None?
    decreases |s| - p
  {
    if MatchAt(s, p).Some? then Some(p)
    else if p == |s| then
      assert forall k :: p <= k ==> !WordAt(s, k) by {
        forall k | p <= k ensures !WordAt(s, k) {
        }
      }
      None
    else FirstMatchFrom(s, p + 1)
  }

  /** The pattern matches at `p` and nowhere before it. */
  predicate Leftmost(s: string, p: nat)
  {
    MatchAt(s, p).Some? && forall k: nat :: k < p ==> MatchAt(s, k).None?
  }

  /** The percentages the diagram shows for `String(splitId || "")`: the two captured
      numbers of the leftmost match, or 80/20 when nothing matches. */
  function SplitPercents(splitId: string): (r: (nat, nat))
    ensures (forall p: nat :: MatchAt(splitId, p).None?) ==> r == (DefaultTrain, DefaultTest)
    ensures forall p: nat :: Leftmost(splitId, p) ==>
      r == (DigitsValue(MatchAt(splitId, p).value.0), DigitsValue(MatchAt(splitId, p).value.1))
  {
    match FirstMatchFrom(splitId, 0)
    case None => (DefaultTrain, DefaultTest)
    case Some(p) =>
      assert forall q: nat :: Leftmost(splitId, q) ==> q == p by {
        forall q: nat | Leftmost(splitId, q) ensures q == p {
        }
      }
      var m := MatchAt(splitId, p).value;
      (DigitsValue(m.0), DigitsValue(m.1))
  }

  /** An empty (or missing) id gives the 80/20 default. */
  lemma {:induction false} EmptyIdIsDefault()
    ensures SplitPercents("") == (80, 20)
  {
    assert forall p: nat :: !WordAt("", p);
  }

  /** A text with no `s` in either case before the id cannot hide another match. */
  lemma {:induction false} NoMatchBefore(s: string, pre: string, p: nat)
    requires |pre| <= |s| && s[..|pre|] == pre
    requires forall i :: 0 <= i < |pre| ==> LowerChar(pre[i]) != 's'
    requires p < |pre|
    ensures MatchAt(s, p).None?
  {
    assert s[p] == s[..|pre|][p] == pre[p];
    assert p + |Word| <= |s| ==> ToLower(s[p..p + |Word|])[0] != Word[0];
  }

  /** At the start of `word A sep B rest`, with digit strings `A` and `B` and `rest` not
      starting with a digit, the pattern captures exactly the values of `A` and `B`. */
  lemma {:induction false} MatchAtId(s: string, p: nat, a: string, b: string)
    requires |a| > 0 && |b| > 0 && AllDigits(a) && AllDigits(b)
    requires WordAt(s, p) && p + 7 + |a| + |b| <= |s|
    requires s[p + 6..p + 6 + |a|] == a && IsSeparator(s[p + 6 + |a|])
    requires s[p + 7 + |a|..p + 7 + |a| + |b|] == b
    requires p + 7 + |a| + |b| == |s| || !IsDigit(s[p + 7 + |a| + |b|])
    ensures MatchAt(s, p) == Some((a, b))
  {
    assert !IsDigit(s[p + 6 + |a|]);
    DigitRunOf(s, p + 6, a);
    DigitRunOf(s, p + 7 + |a|, b);
    MatchAtRuns(s, p, a, b);
  }

  /** The captures at `p` are the two digit runs, when both are non-empty and a separator
      lies between them. */
  lemma {:induction false} MatchAtRuns(s: string, p: nat, a: string, b: string)
    requires WordAt(s, p) && 0 < |a| && 0 < |b| && p + 7 + |a| + |b| <= |s| && IsSeparator(s[p + 6 + |a|])
    requires DigitRun(s, p + 6) == |a| && DigitRun(s, p + 7 + |a|) == |b|
    requires s[p + 6..p + 6 + |a|] == a && s[p + 7 + |a|..p + 7 + |a| + |b|] == b
    ensures MatchAt(s, p) == Some((a, b))
  {
  }

  /** An id `word A sep B rest` with `word` spelling `split_` in either case, digit strings
      `A` and `B`, text without an `s` before it and text not starting with a digit after
      it reads as the values of `A` and `B`. */
  lemma {:induction false} SplitPercentsOfDigits(s: string, pre: string, word: string, a: string, sep: char, b: string, rest: string)
    requires s == pre + word + a + [sep] + b + rest
    requires forall i :: 0 <= i < |pre| ==> LowerChar(pre[i]) != 's'
    requires |word| == |Word| && ToLower(word) == Word
    requires |a| > 0 && |b| > 0 && AllDigits(a) && AllDigits(b) && IsSeparator(sep)
    requires |rest| == 0 || !IsDigit(rest[0])
    ensures SplitPercents(s) == (DigitsValue(a), DigitsValue(b))
  {
    var p := |pre|;
    assert s[..|pre|] == pre;
    forall k: nat | k < p ensures MatchAt(s, k).None? {
      NoMatchBefore(s, pre, k);
    }
    assert s[p..p + |Word|] == word;
    assert s[p + 6..p + 6 + |a|] == a;
    assert s[p + 6 + |a|] == sep;
    assert s[p + 7 + |a|..p + 7 + |a| + |b|] == b;
    assert p + 7 + |a| + |b| < |s| ==> s[p + 7 + |a| + |b|] == rest[0];
    MatchAtId(s, p, a, b);
    assert Leftmost(s, p);
  }

  /** An id written `split_A_B` or `split_A-B` from two numbers, with either case in
      `split_`, after any text without an `s` and before any text not starting with a
      digit, reads back as those numbers. */
  lemma {:induction false} SplitPercentsOfId(pre: string, word: string, train: nat, sep: char, test: nat, rest: string)
    requires forall i :: 0 <= i < |pre| ==> LowerChar(pre[i]) != 's'
    requires |word| == |Word| && ToLower(word) == Word
    requires IsSeparator(sep)
    requires |rest| == 0 || !IsDigit(rest[0])
    ensures SplitPercents(pre + word + NatToString(train) + [sep] + NatToString(test) + rest) == (train, test)
  {
    SplitPercentsOfDigits(pre + word + NatToString(train) + [sep] + NatToString(test) + rest,
      pre, word, NatToString(train), sep, NatToString(test), rest);
    DigitsValueOfNatToString(train);
    DigitsValueOfNatToString(test);
  }

  /** The option text of the split selector: the first `split_` is dropped, the first
      `_` after that becomes `% Train / `, and `% Test` is appended. */
  function OptionLabel(split: string): (r: string)
    ensures |r| >= 6 && r[|r| - 6..] == "% Test"
  {
    ReplaceFirst(ReplaceFirst(split, Word, ""), "_", "% Train / ") + "% Test"
  }

  /** `pat` first occurs at `i` when it occurs there and nowhere before. */
  lemma {:induction false} FindIs(s: string, pat: string, i: nat)
    requires OccursAt(s, pat, i)
    requires forall j :: 0 <= j < i ==> !OccursAt(s, pat, j)
    ensures Find(s, pat) == Some(i)
  {
  }

  /** An id `split_A_B` with no `_` in `A` shows as `A% Train / B% Test`; later
      underscores in `B` survive. */
  lemma {:induction false} OptionLabelOfId(a: string, b: string)
    requires '_' !in a
    ensures OptionLabel(Word + a + "_" + b) == a + "% Train / " + b + "% Test"
  {
    var s := Word + a + "_" + b;
    assert s[0..|Word|] == Word;
    FindIs(s, Word, 0);
    var t := ReplaceFirst(s, Word, "");
    assert t == a + "_" + b by {
      assert t == s[..0] + "" + s[|Word|..];
      assert s[|Word|..] == a + "_" + b;
    }
    assert t[|a|..|a| + 1] == "_";
    forall j | 0 <= j < |a| ensures !OccursAt(t, "_", j) {
      assert t[j..j + 1] == [a[j]];
    }
    FindIs(t, "_", |a|);
    assert t[..|a|] == a && t[|a| + 1..] == b;
  }

  /** The selector's option and the diagram agree on the percentages of an id built from
      two numbers. */
  lemma {:induction false} SelectorAgreesWithDiagram(train: nat, test: nat)
    ensures OptionLabel(Word + NatToString(train) + "_" + NatToString(test))
      == NatToString(train) + "% Train / " + NatToString(test) + "% Test"
    ensures SplitPercents(Word + NatToString(train) + "_" + NatToString(test)) == (train, test)
  {
    var a, b := NatToString(train), NatToString(test);
    assert '_' !in a by {
      forall i | 0 <= i < |a| ensures a[i] != '_' { assert IsDigit(a[i]); }
    }
    OptionLabelOfId(a, b);
    PlainIdPercents(train, test);
  }

  /** The diagram reads `split_A_B` as `A` and `B`. */
  lemma {:induction false} PlainIdPercents(train: nat, test: nat)
    ensures SplitPercents(Word + NatToString(train) + "_" + NatToString(test)) == (train, test)
  {
    var a, b := NatToString(train), NatToString(test);
    var s := Word + a + "_" + b;
    assert s == "" + Word + a + ['_'] + b + "";
    WordIsLower();
    SplitPercentsOfDigits(s, "", Word, a, '_', b, "");
    DigitsValueOfNatToString(train);
    DigitsValueOfNatToString(test);
  }

  lemma {:induction false} WordIsLower()
    ensures ToLower(Word) == Word
  {
    assert |ToLower(Word)| == |Word|;
    forall i | 0 <= i < |Word| ensures ToLower(Word)[i] == Word[i] {
      assert !('A' <= Word[i] <= 'Z');
    }
  }

  /** A dashed id keeps its dash: with no `_` in it, `split_A-B` shows as `A-B% Test`. */
  lemma {:induction false} DashedOptionLabel(a: string, b: string)
    requires '_' !in a && '_' !in b
    ensures OptionLabel(Word + a + "-" + b) == a + "-" + b + "% Test"
  {
    var s := Word + a + "-" + b;
    assert s[0..|Word|] == Word;
    FindIs(s, Word, 0);
    var t := ReplaceFirst(s, Word, "");
    assert t == a + "-" + b by {
      assert t == s[..0] + "" + s[|Word|..];
      assert s[|Word|..] == a + "-" + b;
    }
    forall j: nat ensures !OccursAt(t, "_", j) {
      if j + 1 <= |t| {
        assert t[j..j + 1] == [t[j]];
        assert t[j] in a || t[j] == '-' || t[j] in b;
      }
    }
  }
}

=== FILE: table.dfy ===
/** The normalized-RMSE table (`DatasetModelTable.jsx`): free-text search over four columns,
    the column sort, pagination and the window of page buttons.  The table's UI state is a
    record, and each control is an event on it. */
module ResultsTable {
  import opened Wrappers
  import opened Text
  import opened Json
  import opened Seqs
  import opened Arith

  /** The columns the search box looks at. */
  const Searchable: seq<string> := ["dataset_name", "split_id", "category", "model"]

  /** The choices of the "Show N rows" selector. */
  const PageSizes: seq<nat> := [5, 10, 20, 50, 100]

  datatype Dir = Asc | Desc

  // ---------------------------------------------------------------- search

  /** `String(row?.[k] ?? "").toLowerCase().includes(q)` for one of the searchable columns. */
  predicate Matches(h: Heap, row: Value, q: string)
  {
    exists i :: 0 <= i < |Searchable| && Contains(ToLower(ToStr(h, Get(h, row, Searchable[i]))), q)
  }

  /** The search step: a blank query keeps every row, any other keeps the rows one of
      whose searchable columns contains it, ignoring letter case. */
  function Search(h: Heap, rows: seq<Value>, text: string): (r: seq<Value>)
    ensures Trim(text) == "" ==> r == rows
    ensures Trim(text) != "" ==> (IsSubseq(r, rows) &&
      forall x :: x in r <==> x in rows && Matches(h, x, ToLower(Trim(text))))
    ensures Trim(text) != "" ==>
      forall x :: Count(r, x) == if Matches(h, x, ToLower(Trim(text))) then Count(rows, x) else 0
  {
    var q := ToLower(Trim(text));
    if q == "" then rows else Filter(x => Matches(h, x, q), rows)
  }

  // ---------------------------------------------------------------- sort

  function Sign(n: int): int
  {
    if n > 0 then 1 else if n < 0 then -1 else 0
  }

  /** A comparison reverses its sign when its arguments are swapped (`localeCompare`
      does). */
  ghost predicate Antisymmetric<T(!new)>(cmp: (T, T) -> int)
  {
    forall s, t :: Sign(cmp(s, t)) == -Sign(cmp(t, s))
  }

  /** The comparator: numeric when both cells are finite numbers, otherwise the collation
      of their strings; negated for descending order. */
  function Compare(h: Heap, collate: (string, string) -> int, key: string, dir: Dir, a: Value, b: Value): (r: int)
    ensures var x, y := ToNumber(h, Get(h, a, key)), ToNumber(h, Get(h, b, key));
      x.Some? && y.Some? ==>
        && (r == 0 <==> x.value == y.value)
        && (r < 0 <==> if dir == Asc then x.value < y.value else y.value < x.value)
    ensures var x, y := ToNumber(h, Get(h, a, key)), ToNumber(h, Get(h, b, key));
      !(x.Some? && y.Some?) ==>
        var c := collate(ToStr(h, Get(h, a, key)), ToStr(h, Get(h, b, key)));
        Sign(r) == (if dir == Asc then Sign(c) else -Sign(c))
  {
    var av := Get(h, a, key);
    var bv := Get(h, b, key);
    var c := match (ToNumber(h, av), ToNumber(h, bv))
      case (Some(x), Some(y)) => x - y
      case _ => collate(ToStr(h, av), ToStr(h, bv));
    if dir == Asc then c else -c
  }

  /** The comparator handed to `sort` for a column and direction. */
  function Comparator(h: Heap, collate: (string, string) -> int, key: string, dir: Dir): (Value, Value) -> int
  {
    (a: Value, b: Value) => Compare(h, collate, key, dir, a, b)
  }

  /** With an antisymmetric collation the comparator is antisymmetric as well. */
  lemma {:induction false} CompareAntisymmetric(h: Heap, collate: (string, string) -> int, key: string, dir: Dir)
    requires Antisymmetric(collate)
    ensures Antisymmetric(Comparator(h, collate, key, dir))
  {
    forall a: Value, b: Value
      ensures Sign(Compare(h, collate, key, dir, a, b)) == -Sign(Compare(h, collate, key, dir, b, a))
    {
      var av := Get(h, a, key);
      var bv := Get(h, b, key);
      assert Sign(collate(ToStr(h, av), ToStr(h, bv))) == -Sign(collate(ToStr(h, bv), ToStr(h, av)));
    }
  }

  /** Puts `x` in front of the first element it does not sort after. */
  function Insert<T>(cmp: (T, T) -> int, x: T, l: seq<T>): (r: seq<T>)
    ensures multiset(r) == multiset(l) + multiset{x}
  {
    if |l| == 0 then [x]
    else if cmp(x, l[0]) <= 0 then [x] + l
    else
      assert l == [l[0]] + l[1..];
      [l[0]] + Insert(cmp, x, l[1..])
  }

  /** `[...rows].sort(cmp)`, as a stable insertion sort: a new sequence that is a
      permutation of the input (the input itself is a value and cannot change). */
  function SortRows<T>(cmp: (T, T) -> int, rows: seq<T>): (r: seq<T>)
    ensures multiset(r) == multiset(rows) && |r| == |rows|
  {
    if |rows| == 0 then []
    else
      assert rows == [rows[0]] + rows[1..];
      Insert(cmp, rows[0], SortRows(cmp, rows[1..]))
  }

  /** No neighbour sorts before its predecessor. */
  predicate SortedBy<T>(cmp: (T, T) -> int, s: seq<T>)
  {
    forall i :: 0 < i < |s| ==> cmp(s[i - 1], s[i]) <= 0
  }

  lemma {:induction false} InsertSorted<T(!new)>(cmp: (T, T) -> int, x: T, l: seq<T>)
    requires Antisymmetric(cmp)
    requires SortedBy(cmp, l)
    ensures var r := Insert(cmp, x, l);
      SortedBy(cmp, r) && |r| == |l| + 1 && (r[0] == x || (|l| > 0 && r[0] == l[0]))
    decreases |l|
  {
    if |l| > 0 && cmp(x, l[0]) > 0 {
      assert Sign(cmp(x, l[0])) == -Sign(cmp(l[0], x));
      InsertSorted(cmp, x, l[1..]);
      var tail := Insert(cmp, x, l[1..]);
      var r := [l[0]] + tail;
      forall i | 0 < i < |r|
        ensures cmp(r[i - 1], r[i]) <= 0
      {
        if i > 1 {
          assert r[i - 1] == tail[i - 2] && r[i] == tail[i - 1];
        }
      }
    }
  }

  /** The sorted rows are in order whenever the comparison is antisymmetric. */
  lemma {:induction false} SortRowsSorted<T(!new)>(cmp: (T, T) -> int, rows: seq<T>)
    requires Antisymmetric(cmp)
    ensures SortedBy(cmp, SortRows(cmp, rows))
    decreases |rows|
  {
    if |rows| > 0 {
      SortRowsSorted(cmp, rows[1..]);
      InsertSorted(cmp, rows[0], SortRows(cmp, rows[1..]));
    }
  }

  /** The table's rows come out in column order whenever `localeCompare` is
      antisymmetric. */
  lemma {:induction false} ColumnSortSorted(h: Heap, collate: (string, string) -> int, key: string, dir: Dir, rows: seq<Value>)
    requires Antisymmetric(collate)
    ensures SortedBy(Comparator(h, collate, key, dir), SortRows(Comparator(h, collate, key, dir), rows))
  {
    CompareAntisymmetric(h, collate, key, dir);
    SortRowsSorted(Comparator(h, collate, key, dir), rows);
  }

  /** Rows that all compare equal keep their original order: the sort is stable. */
  lemma {:induction false} SortRowsStableOnTies<T>(cmp: (T, T) -> int, rows: seq<T>)
    requires forall i, j :: 0 <= i < |rows| && 0 <= j < |rows| ==> cmp(rows[i], rows[j]) == 0
    ensures SortRows(cmp, rows) == rows
    decreases |rows|
  {
    if |rows| > 0 {
      var tail := rows[1..];
      forall i, j | 0 <= i < |tail| && 0 <= j < |tail| ensures cmp(tail[i], tail[j]) == 0 {
        assert tail[i] == rows[i + 1] && tail[j] == rows[j + 1];
      }
      SortRowsStableOnTies(cmp, tail);
      if |tail| > 0 {
        assert cmp(rows[0], tail[0]) == 0 by {
          assert tail[0] == rows[1];
        }
      }
      assert rows == [rows[0]] + tail;
    }
  }

  /** `a` occurs before `b` in `s` (at two different positions). */
  ghost predicate Before<T>(s: seq<T>, a: T, b: T)
  {
    exists p, q :: 0 <= p < q < |s| && s[p] == a && s[q] == b
  }

  /** The sort is stable: of two rows that compare equal, the earlier one in the input is
      still the earlier one in the output.  No property of the comparison is needed. */
  lemma {:induction false} SortRowsStable<T>(cmp: (T, T) -> int, rows: seq<T>, i: nat, j: nat)
    requires i < j < |rows| && cmp(rows[i], rows[j]) == 0
    ensures Before(SortRows(cmp, rows), rows[i], rows[j])
    decreases |rows|
  {
    var tail := rows[1..];
    var sorted := SortRows(cmp, tail);
    assert rows[j] == tail[j - 1];
    if i == 0 {
      assert rows[j] in multiset(sorted);
      InsertBefore(cmp, rows[0], sorted, rows[j]);
    } else {
      assert rows[i] == tail[i - 1];
      SortRowsStable(cmp, tail, i - 1, j - 1);
      InsertKeepsBefore(cmp, rows[0], sorted, rows[i], rows[j]);
    }
  }

  /** An inserted value lands in front of every element it ties with. */
  lemma {:induction false} InsertBefore<T>(cmp: (T, T) -> int, x: T, l: seq<T>, b: T)
    requires b in l && cmp(x, b) == 0
    ensures Before(Insert(cmp, x, l), x, b)
    decreases |l|
  {
    var r := Insert(cmp, x, l);
    var q :| 0 <= q < |l| && l[q] == b;
    if cmp(x, l[0]) <= 0 {
      assert r[0] == x && r[q + 1] == b;
    } else {
      assert l[0] != b;
      assert b in l[1..] by {
        assert l[1..][q - 1] == b;
      }
      InsertBefore(cmp, x, l[1..], b);
      var rest := Insert(cmp, x, l[1..]);
      var p', q' :| 0 <= p' < q' < |rest| && rest[p'] == x && rest[q'] == b;
      assert r[p' + 1] == x && r[q' + 1] == b;
    }
  }

  /** Inserting a value keeps the order of the elements already there. */
  lemma {:induction false} InsertKeepsBefore<T>(cmp: (T, T) -> int, x: T, l: seq<T>, a: T, b: T)
    requires Before(l, a, b)
    ensures Before(Insert(cmp, x, l), a, b)
    decreases |l|
  {
    var r := Insert(cmp, x, l);
    var p, q :| 0 <= p < q < |l| && l[p] == a && l[q] == b;
    if cmp(x, l[0]) <= 0 {
      assert r[p + 1] == a && r[q + 1] == b;
    } else if p == 0 {
      var rest := Insert(cmp, x, l[1..]);
      assert b in multiset(rest) by {
        assert l[1..][q - 1] == b;
        assert b in multiset(l[1..]);
      }
      var q' :| 0 <= q' < |rest| && rest[q'] == b;
      assert r[0] == a && r[q' + 1] == b;
    } else {
      assert Before(l[1..], a, b) by {
        assert l[1..][p - 1] == a && l[1..][q - 1] == b;
      }
      InsertKeepsBefore(cmp, x, l[1..], a, b);
      var rest := Insert(cmp, x, l[1..]);
      var p', q' :| 0 <= p' < q' < |rest| && rest[p'] == a && rest[q'] == b;
      assert r[p' + 1] == a && r[q' + 1] == b;
    }
  }

  /** `processedRows`: the search, then the sort.  The rows shown are exactly the rows the
      search keeps, each as often as it occurs there, in column order whenever
      `localeCompare` is antisymmetric. */
  function ProcessedRows(h: Heap, collate: (string, string) -> int, rows: seq<Value>, text: string, key: string, dir: Dir): (r: seq<Value>)
    ensures |r| <= |rows|
    ensures forall x :: x in r ==> x in rows
    ensures multiset(r) == multiset(Search(h, rows, text))
    ensures Trim(text) == "" ==> multiset(r) == multiset(rows)
    ensures Antisymmetric(collate) ==> SortedBy(Comparator(h, collate, key, dir), r)
  {
    var found := Search(h, rows, text);
    var r := SortRows(Comparator(h, collate, key, dir), found);
    assert Antisymmetric(collate) ==> SortedBy(Comparator(h, collate, key, dir), r) by {
      if Antisymmetric(collate) {
        ColumnSortSorted(h, collate, key, dir, found);
      }
    }
    assert forall x :: x in r ==> x in found by {
      forall x | x in r ensures x in found {
        assert x in multiset(r);
      }
    }
    assert |found| <= |rows| by {
      if Trim(text) != "" { }
    }
    r
  }

  // ---------------------------------------------------------------- pagination

  /** `Math.max(1, Math.ceil(len / rowsPerPage))` */
  function TotalPages(len: nat, rowsPerPage: nat): (t: nat)
    requires rowsPerPage > 0
    ensures t >= 1
    ensures len <= t * rowsPerPage
    ensures len > 0 ==> (t - 1) * rowsPerPage < len
    ensures len == 0 ==> t == 1
  {
    if len == 0 then 1 else (len + rowsPerPage - 1) / rowsPerPage
  }

  /** `Math.min(currentPage, totalPages)` */
  function ShownPage(currentPage: nat, total: nat): (p: nat)
    ensures p <= total && p <= currentPage && (p == currentPage || p == total)
  {
    if currentPage < total then currentPage else total
  }

  /** `rows.slice((page - 1) * rowsPerPage, page * rowsPerPage)`, clamped as `slice` is. */
  function PageRows(rows: seq<Value>, page: nat, rowsPerPage: nat): (r: seq<Value>)
    requires page >= 1 && rowsPerPage > 0
    ensures |r| <= rowsPerPage
    ensures var start := (page - 1) * rowsPerPage;
      start <= |rows| ==> r == rows[start..if start + rowsPerPage <= |rows| then start + rowsPerPage else |rows|]
    ensures (page - 1) * rowsPerPage >= |rows| ==> r == []
  {
    var start := (page - 1) * rowsPerPage;
    if start >= |rows| then []
    else rows[start..if start + rowsPerPage <= |rows| then start + rowsPerPage else |rows|]
  }

  /** The pages `from`, …, `last`, one after another. */
  function PagesFrom(rows: seq<Value>, rowsPerPage: nat, from: nat, last: nat): seq<Value>
    requires from >= 1 && rowsPerPage > 0
    decreases last + 1 - from
  {
    if from > last then [] else PageRows(rows, from, rowsPerPage) + PagesFrom(rows, rowsPerPage, from + 1, last)
  }

  lemma {:induction false} PagesFromSuffix(rows: seq<Value>, rowsPerPage: nat, from: nat, last: nat)
    requires from >= 1 && rowsPerPage > 0
    requires |rows| <= last * rowsPerPage
    requires from <= last + 1
    requires (from - 1) * rowsPerPage <= |rows|
    ensures PagesFrom(rows, rowsPerPage, from, last) == rows[(from - 1) * rowsPerPage..]
    decreases last + 1 - from
  {
    var start := (from - 1) * rowsPerPage;
    if from > last {
      MulMonotone(last, from - 1, rowsPerPage);
    } else {
      var next := from * rowsPerPage;
      MulSucc(from - 1, rowsPerPage);
      assert next == start + rowsPerPage;
      if next <= |rows| {
        PagesFromSuffix(rows, rowsPerPage, from + 1, last);
        assert PageRows(rows, from, rowsPerPage) == rows[start..next];
        assert rows[start..] == rows[start..next] + rows[next..];
      } else {
        assert PageRows(rows, from, rowsPerPage) == rows[start..];
        PagesFromEmpty(rows, rowsPerPage, from + 1, last);
      }
    }
  }

  lemma {:induction false} PagesFromEmpty(rows: seq<Value>, rowsPerPage: nat, from: nat, last: nat)
    requires from >= 1 && rowsPerPage > 0
    requires (from - 1) * rowsPerPage >= |rows|
    ensures PagesFrom(rows, rowsPerPage, from, last) == []
    decreases last + 1 - from
  {
    if from <= last {
      MulMonotone(from - 1, from, rowsPerPage);
      PagesFromEmpty(rows, rowsPerPage, from + 1, last);
    }
  }

  /** Reading every page in turn shows each row exactly once, in order. */
  lemma {:induction false} PagesCoverRows(rows: seq<Value>, rowsPerPage: nat)
    requires rowsPerPage > 0
    ensures PagesFrom(rows, rowsPerPage, 1, TotalPages(|rows|, rowsPerPage)) == rows
  {
    PagesFromSuffix(rows, rowsPerPage, 1, TotalPages(|rows|, rowsPerPage));
  }

  /** `go(p)`: moves only to an existing page. */
  function Go(p: int, currentPage: nat, total: nat): (r: nat)
    ensures 1 <= p <= total ==> r == p
    ensures !(1 <= p <= total) ==> r == currentPage
  {
    if 1 <= p <= total then p else currentPage
  }

  // ---------------------------------------------------------------- page buttons

  /** `[1, 2, …, n]` */
  function Range(n: nat): (r: seq<nat>)
    ensures |r| == n && forall i :: 0 <= i < n ==> r[i] == i + 1
  {
    seq(n, i requires 0 <= i < n => i + 1)
  }

  /** The filter of lines 192-197. */
  predicate Visible(p: nat, total: nat, page: nat)
  {
    if total <= 6 then true
    else if page <= 3 then p <= 4 || p == total
    else if page >= total - 2 then p >= total - 3 || p == 1
    else p == 1 || p == total || (p - page <= 1 && page - p <= 1)
  }

  predicate Increasing(s: seq<nat>)
  {
    forall i, j :: 0 <= i < j < |s| ==> s[i] < s[j]
  }

  lemma {:induction false} FilterIncreasing(p: nat -> bool, s: seq<nat>)
    requires Increasing(s)
    ensures Increasing(Filter(p, s))
    decreases |s|
  {
    if |s| > 0 {
      FilterIncreasing(p, s[1..]);
      if p(s[0]) {
        var rest := Filter(p, s[1..]);
        HeadBelowTail(s);
        var r := [s[0]] + rest;
        assert Filter(p, s) == r;
        forall i, j | 0 <= i < j < |r| ensures r[i] < r[j] {
          assert r[j] == rest[j - 1] && r[j] in s[1..];
          assert i > 0 ==> r[i] == rest[i - 1];
        }
      }
    }
  }

  /** In an increasing sequence the head is below everything after it. */
  lemma {:induction false} HeadBelowTail(s: seq<nat>)
    requires |s| > 0 && Increasing(s)
    ensures forall x :: x in s[1..] ==> s[0] < x
  {
    forall x | x in s[1..] ensures s[0] < x {
      var j :| 0 <= j < |s[1..]| && s[1..][j] == x;
      assert s[j + 1] == x;
    }
  }

  /** The first and last page, the current one and its neighbours always pass the filter. */
  lemma {:induction false} VisibleAnchors(total: nat, page: nat)
    requires 1 <= page <= total
    ensures Visible(1, total, page) && Visible(total, total, page) && Visible(page, total, page)
    ensures page > 1 ==> Visible(page - 1, total, page)
    ensures page < total ==> Visible(page + 1, total, page)
  {
  }

  lemma {:induction false} RangeMembers(n: nat)
    ensures forall p :: p in Range(n) <==> 1 <= p <= n
  {
    forall p | 1 <= p <= n ensures p in Range(n) {
      assert Range(n)[p - 1] == p;
    }
  }

  /** The page numbers that get a button. */
  function PageButtons(total: nat, page: nat): (r: seq<nat>)
    requires 1 <= page <= total
    ensures Increasing(r)
    ensures 1 in r && total in r && page in r
    ensures page > 1 ==> page - 1 in r
    ensures page < total ==> page + 1 in r
    ensures total <= 6 ==> r == Range(total)
    ensures forall p :: p in r <==> 1 <= p <= total && Visible(p, total, page)
  {
    var keep := (p: nat) => Visible(p, total, page);
    FilteredRange(total, page, keep);
    VisibleAnchors(total, page);
    Filter(keep, Range(total))
  }

  /** Filtering the page range by the visibility test keeps it increasing and keeps
      exactly the visible pages; up to six pages, all of them. */
  lemma {:induction false} FilteredRange(total: nat, page: nat, keep: nat -> bool)
    requires forall p :: keep(p) == Visible(p, total, page)
    ensures var r := Filter(keep, Range(total));
      && Increasing(r)
      && (forall p :: p in r <==> 1 <= p <= total && Visible(p, total, page))
      && (total <= 6 ==> r == Range(total))
  {
    var all := Range(total);
    FilterIncreasing(keep, all);
    RangeMembers(total);
    if total <= 6 {
      forall i | 0 <= i < |all| ensures keep(all[i]) {
        assert keep(all[i]) == Visible(all[i], total, page);
      }
      FilterKeepsAll(keep, all);
    }
  }

  // ---------------------------------------------------------------- UI state

  datatype TableState = TableState(search: string, rowsPerPage: nat, currentPage: nat, sortBy: string, dir: Dir)

  const Initial := TableState("", 10, 1, "normalized_rmse", Asc)

  /** What the controls keep true: the page number is at least 1 and the page size is one
      of the offered choices. */
  predicate Valid(st: TableState)
  {
    st.currentPage >= 1 && st.rowsPerPage in PageSizes
  }

  /** Typing in the search box returns to page 1. */
  function SetSearch(st: TableState, text: string): (r: TableState)
    ensures r.search == text && r.currentPage == 1
    ensures r.rowsPerPage == st.rowsPerPage && r.sortBy == st.sortBy && r.dir == st.dir
  {
    st.(search := text, currentPage := 1)
  }

  /** Choosing a page size returns to page 1. */
  function SetRowsPerPage(st: TableState, n: nat): (r: TableState)
    requires n in PageSizes
    ensures r.rowsPerPage == n && r.currentPage == 1
    ensures r.search == st.search && r.sortBy == st.sortBy && r.dir == st.dir
  {
    st.(rowsPerPage := n, currentPage := 1)
  }

  /** `toggleSort(key)`: the active column flips direction, another column becomes active
      ascending; the page returns to 1 either way. */
  function ToggleSort(st: TableState, key: string): (r: TableState)
    ensures r.sortBy == key && r.currentPage == 1
    ensures st.sortBy == key ==> r.dir != st.dir
    ensures st.sortBy != key ==> r.dir == Asc
    ensures r.search == st.search && r.rowsPerPage == st.rowsPerPage
  {
    if st.sortBy == key then st.(dir := if st.dir == Asc then Desc else Asc, currentPage := 1)
    else st.(sortBy := key, dir := Asc, currentPage := 1)
  }

  /** Clicking the same header twice restores the direction. */
  lemma {:induction false} ToggleSortTwice(st: TableState, key: string)
    requires st.sortBy == key
    ensures ToggleSort(ToggleSort(st, key), key) == st.(currentPage := 1)
  {
  }

  /** A page button or arrow, given the page count shown. */
  function GoTo(st: TableState, p: int, total: nat): (r: TableState)
    ensures r.currentPage == Go(p, st.currentPage, total)
    ensures r.search == st.search && r.rowsPerPage == st.rowsPerPage && r.sortBy == st.sortBy && r.dir == st.dir
  {
    st.(currentPage := Go(p, st.currentPage, total))
  }

  /** Every control keeps the state valid, starting from the initial one. */
  lemma {:induction false} ControlsKeepValid(st: TableState, text: string, n: nat, key: string, p: int, total: nat)
    requires Valid(st) && n in PageSizes
    ensures Valid(Initial)
    ensures Valid(SetSearch(st, text)) && Valid(SetRowsPerPage(st, n))
    ensures Valid(ToggleSort(st, key)) && Valid(GoTo(st, p, total))
  {
    assert Initial.rowsPerPage == PageSizes[1];
  }

  /** What the table shows for a state: the page's rows, the page shown and its buttons. */
  function View(h: Heap, collate: (string, string) -> int, rows: seq<Value>, st: TableState): (r: (seq<Value>, nat, seq<nat>))
    requires Valid(st)
    ensures var total := TotalPages(|ProcessedRows(h, collate, rows, st.search, st.sortBy, st.dir)|, st.rowsPerPage);
      1 <= r.1 <= total && r.1 in r.2
    ensures |r.0| <= st.rowsPerPage && forall x :: x in r.0 ==> x in rows
  {
    PageView(ProcessedRows(h, collate, rows, st.search, st.sortBy, st.dir), st)
  }

  /** The page of already processed rows a state shows, with its buttons. */
  function PageView(all: seq<Value>, st: TableState): (r: (seq<Value>, nat, seq<nat>))
    requires Valid(st)
    ensures var total := TotalPages(|all|, st.rowsPerPage); 1 <= r.1 <= total && r.1 in r.2
    ensures |r.0| <= st.rowsPerPage && forall x :: x in r.0 ==> x in all
  {
    var total := TotalPages(|all|, st.rowsPerPage);
    var page := ShownPage(st.currentPage, total);
    SliceMembers(all, page, st.rowsPerPage);
    (PageRows(all, page, st.rowsPerPage), page, PageButtons(total, page))
  }

  lemma {:induction false} SliceMembers(all: seq<Value>, page: nat, rowsPerPage: nat)
    requires page >= 1 && rowsPerPage > 0
    ensures forall x :: x in PageRows(all, page, rowsPerPage) ==> x in all
  {
    var start := (page - 1) * rowsPerPage;
    if start < |all| {
      var stop := if start + rowsPerPage <= |all| then start + rowsPerPage else |all|;
      forall x | x in all[start..stop] ensures x in all {
        var k :| 0 <= k < stop - start && all[start..stop][k] == x;
        assert all[start + k] == x;
      }
    }
  }
}

=== FILE: text.dfy ===
/** String helpers with JavaScript's meaning: `trim`, `toLowerCase`, `includes`,
    `replace` with a string pattern, and decimal number text. */
module Text {
  import opened Wrappers

  /** The characters `String.prototype.trim` removes: ECMAScript WhiteSpace
      (tab, vertical tab, form feed, BOM and every Zs space) and LineTerminator. */
  predicate IsSpace(c: char)
  {
    || c == '\t' || c == '\n' || c == '\U{B}' || c == '\U{C}' || c == '\r' || c == ' '
    || c == '\U{A0}' || c == '\U{1680}' || ('\U{2000}' <= c <= '\U{200A}')
    || c == '\U{2028}' || c == '\U{2029}' || c == '\U{202F}' || c == '\U{205F}'
    || c == '\U{3000}' || c == '\U{FEFF}'
  }

  /** Number of leading white-space characters. */
  function LeadingSpaces(s: string): (k: nat)
    ensures k <= |s|
    ensures forall i :: 0 <= i < k ==> IsSpace(s[i])
    ensures k < |s| ==> !IsSpace(s[k])
  {
    if |s| == 0 || !IsSpace(s[0]) then 0 else 1 + LeadingSpaces(s[1..])
  }

  /** Length of `s` without its trailing white space. */
  function EndWithoutSpaces(s: string): (k: nat)
    ensures k <= |s|
    ensures forall i :: k <= i < |s| ==> IsSpace(s[i])
    ensures k > 0 ==> !IsSpace(s[k - 1])
  {
    if |s| == 0 || !IsSpace(s[|s| - 1]) then |s| else EndWithoutSpaces(s[..|s| - 1])
  }

  /** `s.trim()`. */
  function Trim(s: string): (r: string)
    ensures |r| <= |s|
    ensures |r| > 0 ==> !IsSpace(r[0]) && !IsSpace(r[|r| - 1])
    ensures (|s| == 0 || (!IsSpace(s[0]) && !IsSpace(s[|s| - 1]))) ==> r == s
    ensures LeadingSpaces(s) + |r| <= |s| && r == s[LeadingSpaces(s)..LeadingSpaces(s) + |r|]
    ensures forall i :: LeadingSpaces(s) + |r| <= i < |s| ==> IsSpace(s[i])
  {
    var a := LeadingSpaces(s);
    if a == |s| then ""
    else
      var b := EndWithoutSpaces(s);
      assert a < b by {
        assert !IsSpace(s[a]);
      }
      assert s[a..b] == s[a..a + (b - a)];
      s[a..b]
  }

  lemma {:induction false} TrimIdempotent(s: string)
    ensures Trim(Trim(s)) == Trim(s)
  {
  }

  /** `toLowerCase` on one character; only the ASCII letters are folded. */
  function LowerChar(c: char): (d: char)
  {
    if 'A' <= c <= 'Z' then (c as int + 32) as char else c
  }

  /** `s.toLowerCase()`, ASCII letters only. */
  function ToLower(s: string): (r: string)
    ensures |r| == |s|
    ensures forall i :: 0 <= i < |s| ==> r[i] == LowerChar(s[i])
  {
    seq(|s|, i requires 0 <= i < |s| => LowerChar(s[i]))
  }

  lemma {:induction false} ToLowerIdempotent(s: string)
    ensures ToLower(ToLower(s)) == ToLower(s)
  {
  }

  /** `pat` occurs in `s` at index `i`. */
  predicate OccursAt(s: string, pat: string, i: nat)
  {
    i + |pat| <= |s| && s[i..i + |pat|] == pat
  }

  /** The first index at or after `from` where `pat` occurs in `s`. */
  function FindFrom(s: string, pat: string, from: nat): (r: Option<nat>)
    ensures r.Some? ==> from <= r.value && OccursAt(s, pat, r.value)
    ensures r.Some? ==> forall j :: from <= j < r.value ==> !OccursAt(s, pat, j)
    ensures r.None? ==> forall j :: from <= j ==> !OccursAt(s, pat, j)
    decreases |s| - from
  {
    if from + |pat| > |s| then None
    else if s[from..from + |pat|] == pat then Some(from)
    else FindFrom(s, pat, from + 1)
  }

  /** `s.indexOf(pat)`, or `None` for -1. */
  function Find(s: string, pat: string): (r: Option<nat>)
    ensures r.Some? ==> OccursAt(s, pat, r.value) && forall j :: 0 <= j < r.value ==> !OccursAt(s, pat, j)
    ensures r.None? ==> forall j :: !OccursAt(s, pat, j)
  {
    FindFrom(s, pat, 0)
  }

  /** `s.includes(pat)`. */
  predicate Contains(s: string, pat: string)
  {
    Find(s, pat).Some?
  }

  /** `s.replace(pat, rep)` with a string pattern: only the first occurrence is replaced. */
  function ReplaceFirst(s: string, pat: string, rep: string): (r: string)
    ensures Find(s, pat).None? ==> r == s
    ensures Find(s, pat).Some? ==>
      var i := Find(s, pat).value; r == s[..i] + rep + s[i + |pat|..]
  {
    match Find(s, pat)
    case None => s
    case Some(i) => s[..i] + rep + s[i + |pat|..]
  }

  predicate IsDigit(c: char)
  {
    '0' <= c <= '9'
  }

  predicate AllDigits(s: string)
  {
    forall i :: 0 <= i < |s| ==> IsDigit(s[i])
  }

  function DigitChar(d: nat): (c: char)
    requires d < 10
    ensures IsDigit(c)
  {
    ('0' as int + d) as char
  }

  /** Decimal text of a natural number, without leading zeros. */
  function NatToString(n: nat): (r: string)
    ensures |r| > 0 && AllDigits(r)
    ensures |r| > 1 ==> r[0] != '0'
  {
    if n < 10 then [DigitChar(n)] else NatToString(n / 10) + [DigitChar(n % 10)]
  }

  /** `String(i)` for an integer. */
  function IntToString(i: int): (r: string)
    ensures |r| > 0
  {
    if i < 0 then "-" + NatToString(-i) else NatToString(i)
  }

  /** The value of a digit string, read as decimal (`Number("0042")` is 42). */
  function DigitsValue(s: string): (v: nat)
    requires AllDigits(s)
  {
    if |s| == 0 then 0 else 10 * DigitsValue(s[..|s| - 1]) + (s[|s| - 1] as int - '0' as int)
  }

  /** Reading back the decimal text of `n` gives `n`. */
  lemma {:induction false} DigitsValueOfNatToString(n: nat)
    ensures DigitsValue(NatToString(n)) == n
  {
    if n >= 10 {
      var t := NatToString(n);
      assert t[..|t| - 1] == NatToString(n / 10);
      DigitsValueOfNatToString(n / 10);
    }
  }

  /** Every index of `s` in `[lo, hi)` holds a decimal digit. */
  predicate DigitsBetween(s: string, lo: nat, hi: nat)
  {
    forall i :: lo <= i < hi && i < |s| ==> IsDigit(s[i])
  }

  /** The digits between two indices are the digits of the slice between them. */
  lemma {:induction false} DigitsBetweenSlice(s: string, lo: nat, hi: nat)
    requires lo <= hi <= |s|
    ensures DigitsBetween(s, lo, hi) <==> AllDigits(s[lo..hi])
  {
    if DigitsBetween(s, lo, hi) {
      forall i | 0 <= i < hi - lo ensures IsDigit(s[lo..hi][i]) {
        assert s[lo..hi][i] == s[lo + i];
      }
    }
    if AllDigits(s[lo..hi]) {
      forall i | lo <= i < hi ensures IsDigit(s[i]) {
        assert s[i] == s[lo..hi][i - lo];
      }
    }
  }

  /** Length of the run of decimal digits starting at index `from`. */
  function DigitRun(s: string, from: nat): (k: nat)
    requires from <= |s|
    ensures from + k <= |s|
    ensures DigitsBetween(s, from, from + k)
    ensures from + k < |s| ==> !IsDigit(s[from + k])
    decreases |s| - from
  {
    if from == |s| || !IsDigit(s[from]) then 0 else 1 + DigitRun(s, from + 1)
  }

  /** The digit run starting at `from` is exactly the `n` digits found there. */
  lemma {:induction false} DigitRunSpan(s: string, from: nat, n: nat)
    requires from + n <= |s| && DigitsBetween(s, from, from + n)
    requires from + n == |s| || !IsDigit(s[from + n])
    ensures DigitRun(s, from) == n
    decreases n
  {
    if n > 0 {
      assert IsDigit(s[from]);
      DigitRunSpan(s, from + 1, n - 1);
    }
  }

  /** The digit run at `from` is exactly the digit string `t` written there. */
  lemma {:induction false} DigitRunOf(s: string, from: nat, t: string)
    requires from + |t| <= |s| && s[from..from + |t|] == t && AllDigits(t)
    requires from + |t| == |s| || !IsDigit(s[from + |t|])
    ensures DigitRun(s, from) == |t|
  {
    DigitsBetweenSlice(s, from, from + |t|);
    DigitRunSpan(s, from, |t|);
  }

  /** A run of `n` digits at `from` makes the digit run there at least `n` long. */
  lemma {:induction false} DigitRunAtLeast(s: string, from: nat, n: nat)
    requires from + n <= |s| && DigitsBetween(s, from, from + n)
    ensures DigitRun(s, from) >= n
    decreases n
  {
    if n > 0 {
      assert IsDigit(s[from]);
      DigitRunAtLeast(s, from + 1, n - 1);
    }
  }
}

=== FILE: wrappers.dfy ===
/** Optional values, standing in for JavaScript's `null` / `undefined` results. */
module Wrappers {

  datatype Option<+T> = None | Some(value: T) {

    /** Returns the wrapped value, or `default` when there is none (JavaScript's `x ?? default`). */
    function GetOr(default: T): T
    {
      match this
      case Some(v) => v
      case None => default
    }
  }
}
